=== FILE: README.md ===
# Spyder VCS utilities: a Dafny model

This project models the backend layer of Spyder's version-control pane. It
proves properties of that model. The layer has four parts:

- **The backend API** (`api.py`):
  - the `feature` decorator, which tags an operation with a logical name, an enabled flag and an `extra` map;
  - the subclass hook that re-exposes a renamed feature under its logical name;
  - the features the base class declares, all disabled;
  - the feature group table;
  - the `ChangedStatus` constants and their conversions to and from names;
  - the backend manager, which picks the first registered backend that accepts a directory.
- **The error hierarchy** (`errors.py`):
  - how each error binds its arguments and builds `args`;
  - how a property error normalises its operation;
  - the `missing_dependencies` and `are_credentials_inserted` checks.
- **The git backend** (`backend.py`):
  - reading `git status -b --porcelain=v1`: the branch header, the file lines, and the summary for a path;
  - turning a status record into change dictionaries (`_parse_change_record`), and the `changes` and `change` operations;
  - reading `git log` output into commit dictionaries (`_parse_history_record`, `get_last_commits`);
  - the POSIX credential exchange with git (`git_remote_operation_posix`) and `_remote_operation`;
  - the commit arguments, the commit count `undo_commit` clamps to, and `create_branch` and `delete_branch`.
- **Shared string helpers**, as Python's `str` methods behave on them:
  - `upper`, `lower`, `find`, `split`, `splitlines`, `strip`.

Each module matches one part of the program:

| Module | File | Models |
|---|---|---|
| `Wrappers` | `wrappers.dfy` | `Option` and `Result` |
| `Text` | `text.dfy` | the Python string operations the code relies on |
| `Errors` | `errors.dfy` | `errors.py`; an exception is a `VcsError`, or a `Foreign` Python exception named by its class |
| `ChangedStatus` | `changed_status.dfy` | the constant table and `from_string`/`to_string` |
| `Features` | `features.dfy` | `feature`, `__init_subclass__`, the base features, `GROUPS_MAPPING`, `editable_branches` |
| `Manager` | `manager.dfy` | `VCSBackendManager.repodir` and `register_backend` |
| `StatusHeader` | `status_header.dfy` | the branch-header regular expression, as a backtracking search in Python `re`'s priority order |
| `GitStatus` | `git_status.dfy` | `_GIT_STATUS_MAP` and the text reading of `get_git_status` |
| `ChangeRecords` | `change_records.dfy` | `_parse_change_record`, `changes`, `change` |
| `History` | `history.dfy` | `_parse_history_record`, `get_last_commits` |
| `Remote` | `remote.dfy` | `git_remote_operation_posix`, `_remote_operation` |
| `GitCommands` | `git_commands.dfy` | `create_branch`, `delete_branch`, `commit`, the commit count of `undo_commit` |

Some inputs come from outside the process. Each is a parameter of the function that reads it:

- **A git run.** A `Runner` maps an invocation to an exit code, with None when git is missing. A `GitRun` or `RunOutput` is the completed process.
- **A pseudo-terminal session.** A `Session` records what each `expect` call saw and the state of the child.
- **Stored credentials and git's configured user name.**
- **Whether a path is a file.**
- **The `ast.literal_eval` evaluator of quoted path chunks.** A `Decoder` maps a chunk to a string, another value, a caught `ValueError`/`SyntaxError`, or another exception.
- **A backend class.** It is a `Constructor`: a function from a path to a backend or a raised exception.

Every round trip is stated against text built the way git writes it:

- **Status.** A header built from a `BranchState` and file lines built from `Entry` values read back to that state and those records.
- **History.** `git log` output built from `LogEntry` values reads back to the expected commits.
- **Commit.** The commit message is recovered from the `-m` arguments.
- **ChangedStatus.** A code survives conversion to its name and back.

## Model

| member | source | states |
|---|---|---|
| Features.Decorate | spyder/plugins/vcs/utils/api.py:23-112 | the decorated function is a feature with the given enabled flag; its `extra` is the given map, or the empty map when none is given; it is renamed exactly when a name is given |
| Features.DecorateDefaults | spyder/plugins/vcs/utils/api.py:23-27 | `@feature()` keeps the name and gives an enabled feature with an empty `extra` |
| Features.ExposeFrom | spyder/plugins/vcs/utils/api.py:372-389 | the hook from one listing position on only adds keys: every key bound before stays bound, and every new key is the logical name of a renamed feature listed from that position on |
| Features.Expose | spyder/plugins/vcs/utils/api.py:372-389 | class creation keeps every attribute name of the class, and every name it adds is the logical name of a listed renamed feature |
| Features.ExposedUnderLogicalName | spyder/plugins/vcs/utils/api.py:372-389 | after class creation, every listed feature whose name differs from its key is reachable under its own logical name, whatever else the listing holds |
| Features.ExposedExactly | spyder/plugins/vcs/utils/api.py:372-389 | when no two renamed features claim the same logical name, that name is bound to exactly that feature |
| Features.ExposeLeavesOthers | spyder/plugins/vcs/utils/api.py:372-389 | a key that is no renamed feature's logical name is bound after class creation exactly when it was before, to the same attribute |
| Features.GroupsAgainstBaseFeatures | spyder/plugins/vcs/utils/api.py:211-243 | every group member is a feature the base class declares or one of the five members left to backends; none of those five is declared; every declared base feature is disabled |
| Features.DefaultEditableBranches | spyder/plugins/vcs/utils/api.py:609-627 | the base `editable_branches` gives the very list `branches` gives, in the same order, or the same error |
| ChangedStatus.FromString | spyder/plugins/vcs/utils/api.py:134-159 | succeeds exactly when the upper-cased state names a constant, and then returns that constant's value; otherwise fails with "Given state … does not exists" |
| ChangedStatus.ToString | spyder/plugins/vcs/utils/api.py:161-186 | succeeds exactly for a constant's value and returns the lower-cased name of the first constant, in declaration order, with that value; otherwise fails with the same message |
| ChangedStatus.FromStringIgnoresCase | spyder/plugins/vcs/utils/api.py:155-157 | "added", "Added" and "ADDED" all read as ADDED, and "edited" reads as MODIFIED |
| ChangedStatus.FromStringRefusesNonConstants | spyder/plugins/vcs/utils/api.py:155-159 | the class's method names and the empty string are not states |
| ChangedStatus.Codes | spyder/plugins/vcs/utils/api.py:118-132 | the states are exactly 0, 1, 2, 3, 10, 11, 98 and 99; any other number fails to print |
| ChangedStatus.CodeRoundTrip | spyder/plugins/vcs/utils/api.py:134-186 | every state survives printing and reading back |
| ChangedStatus.NameRoundTrip | spyder/plugins/vcs/utils/api.py:134-186 | a name read and printed back gives the name in lower case, except that the alias EDITED prints as "modified" |
| ChangedStatus.AliasPrintsAsFirstName | spyder/plugins/vcs/utils/api.py:123-124 | MODIFIED prints as "modified", and "edited" still reads as MODIFIED |
| ChangedStatus.FromStringOfName | spyder/plugins/vcs/utils/api.py:118-159 | every declared name reads as its own value |
| ChangedStatus.ToStringOfEntry | spyder/plugins/vcs/utils/api.py:181-186 | every declared value prints as its constant's lower-cased name, and the alias's value prints as "modified" |
| Manager.Create | spyder/plugins/vcs/utils/api.py:842-846 | the manager keeps the backends in the order given; an empty directory binds none and raises nothing; an exception leaves none bound; otherwise a backend is bound and gives the directory |
| Manager.Repodir | spyder/plugins/vcs/utils/api.py:866-873 | the directory is the active backend's, and there is none without an active backend |
| Manager.ProbeFrom | spyder/plugins/vcs/utils/api.py:880-889 | the search stops at the first backend that constructs or raises a non-VCS exception; every backend before it raised a VCS error; when none stops it, all of them raised VCS errors |
| Manager.SetRepodir | spyder/plugins/vcs/utils/api.py:875-895 | the backend list is kept; an empty path unbinds; otherwise the active backend is the first one constructed after only VCS errors; when every backend raises a VCS error the result is "Valid backend not found…" and nothing is bound; another exception escapes unchanged from the first backend that does not raise a VCS error |
| Manager.Register | spyder/plugins/vcs/utils/api.py:897-908 | the backend is appended to the candidates and the active backend is kept |
| Manager.EmptyPathUnbinds | spyder/plugins/vcs/utils/api.py:877-878 | setting the directory to "" leaves no backend and raises nothing |
| Manager.FirstConstructedWins | spyder/plugins/vcs/utils/api.py:880-895 | the first backend that constructs, after only VCS errors, becomes active and gives the directory |
| Manager.ForeignExceptionEscapes | spyder/plugins/vcs/utils/api.py:881-887 | an exception that is not a VCS error stops the search and is raised, with nothing bound |
| Manager.VcsErrorsAreSwallowed | spyder/plugins/vcs/utils/api.py:883-887 | every VCS error raised by a constructor, a backend failure or not, is passed over |
| Manager.RegisterKeepsEarlierOutcome | spyder/plugins/vcs/utils/api.py:897-908 | a registered backend changes nothing for a directory that an earlier backend already decides |
| Manager.RegisterTriedLast | spyder/plugins/vcs/utils/api.py:880-908 | a registered backend is tried after all earlier ones, and is selected when they all refuse |
| Errors.Hierarchy | spyder/plugins/vcs/utils/errors.py:15-156 | every error class is a subclass of `VCSError`, and `VCSError` is a subclass of no other error class |
| Errors.BindBase | spyder/plugins/vcs/utils/errors.py:31-33 | forwarded arguments bind to `error` and `raw_error` by position, then by keyword; three positionals, or a positional and a keyword for the same parameter, are a `TypeError` |
| Errors.NewVcsError | spyder/plugins/vcs/utils/errors.py:31-42 | a base error keeps both messages and their `args` |
| Errors.ArgsOf | spyder/plugins/vcs/utils/errors.py:34-40 | `args` holds `error` then `raw_error`, each only when it is non-empty |
| Errors.Build | spyder/plugins/vcs/utils/errors.py:31-42 | an error builds exactly when its arguments bind, and then records them and their `args` |
| Errors.KeywordConstruction | spyder/plugins/vcs/utils/errors.py:31-42 | keyword-only construction always succeeds and keeps both messages |
| Errors.NewUnexpected | spyder/plugins/vcs/utils/errors.py:65-70 | an unexpected error builds exactly when the arguments bind, always with keywords only; it records the method and both messages |
| Errors.NewProperty | spyder/plugins/vcs/utils/errors.py:97-103 | a property error builds exactly when the arguments bind; it records the property name and the normalised operation, which is only ever "get", "set" or "del" |
| Errors.NewBackendFail | spyder/plugins/vcs/utils/errors.py:134-148 | a backend failure builds exactly when the arguments bind; it records the directory, the backend type and the validity flag, and reports missing dependencies exactly when a program or module is named |
| Errors.NewAuth | spyder/plugins/vcs/utils/errors.py:177-191 | an authentication error builds exactly when the arguments bind; it records the required credentials, and each credential attribute reads as the value given |
| Errors.NormaliseOperation | spyder/plugins/vcs/utils/errors.py:101-103 | the operation is set exactly when stripping leading "f"s leaves "get", "set" or "del", and is then that word |
| Errors.OperationNormalisation | spyder/plugins/vcs/utils/errors.py:101-103 | "fget" and "get" give "get", "fset" gives "set", "fdel" gives "del", and "update" gives no operation |
| Errors.MissingDependencies | spyder/plugins/vcs/utils/errors.py:150-153 | a backend failure reports missing dependencies exactly when it names a program or a module |
| Errors.BackendFailDefaults | spyder/plugins/vcs/utils/errors.py:134-148 | a backend failure built with defaults reports no missing dependencies and a valid repository |
| Errors.CredentialsInserted | spyder/plugins/vcs/utils/errors.py:192-198 | as written: true exactly when every required credential is unset |
| Errors.CredentialsPresent | spyder/plugins/vcs/utils/errors.py:192-194 | as documented: true exactly when every required credential is set |
| Errors.CredentialsInsertedInverted | spyder/plugins/vcs/utils/errors.py:192-198 | with a username and a password inserted the written check answers false; with none it answers true; the documented check answers the other way in both cases |
| Errors.CheckedAnswersDisagree | spyder/plugins/vcs/utils/errors.py:192-198 | when some credential is required, the written check and the documented one never both answer true |
| GitStatus.StatusMap | spyder/plugins/vcs/utils/backend.py:535-543 | exactly the codes " ", A, D, M, R, C and "??" are mapped, each to a `ChangedStatus` name; D and R both mean REMOVED, and A and "??" both mean ADDED |
| GitStatus.ColumnStateIsKnown | spyder/plugins/vcs/utils/backend.py:535-543 | every state a status column maps to, including the "UNKNOWN" fallback, is a `ChangedStatus` name |
| GitStatus.ParseFileLine | spyder/plugins/vcs/utils/backend.py:626-641 | "??" lines give an untracked addition; renames and copies are skipped; a line of fewer than two characters is an `IndexError`; every other line gives its path after the third character and two known states |
| GitStatus.ParseFileLines | spyder/plugins/vcs/utils/backend.py:626-641 | the lines read exactly when each line reads; there are at most as many records as lines, all with known states |
| GitStatus.FoldColumnAgreement | spyder/plugins/vcs/utils/backend.py:646-652 | folding a column keeps the first state when every state agrees with it, and otherwise gives "MODIFIED" |
| GitStatus.Summarise | spyder/plugins/vcs/utils/backend.py:643-653 | for "." or at most one record the records are kept; otherwise one record for the path whose columns are the shared state, or "MODIFIED" where the states differ |
| GitStatus.SummaryStatesKnown | spyder/plugins/vcs/utils/backend.py:643-653 | a summary of records with known states has known states |
| GitStatus.ReadStatusLines | spyder/plugins/vcs/utils/backend.py:595-654 | no lines give None, which the caller returns as `(None, None, None)`; a matching header sets local and remote, gives behind and ahead from its bracket, and is dropped; otherwise every line is a file line and the counts stay zero; the changes are the file records, summed up for a path other than "." |
| GitStatus.ParseStatusText | spyder/plugins/vcs/utils/backend.py:595-654 | output with no line once stripped gives None, as `(None, None, None)`, and only such output does; every record read has known states |
| GitStatus.GetGitStatus | spyder/plugins/vcs/utils/backend.py:576-656 | a missing git, a failed run or a non-zero exit give None; after an exit with 0 the result is what the output reads as: None for blank output, else the report of its header and file lines, with known states |
| GitStatus.ReadEntry | spyder/plugins/vcs/utils/backend.py:626-641 | a file line written by git, other than a rename or copy, reads back to its path and its mapped columns |
| GitStatus.ReadEntries | spyder/plugins/vcs/utils/backend.py:626-641 | a list of such lines reads back to the expected records, in order |
| GitStatus.StatusRoundTrip | spyder/plugins/vcs/utils/backend.py:595-654 | git's output for a branch state and file entries reads back to that branch, that upstream, those behind/ahead counts and those records |
| GitStatus.GitStatusRoundTrip | spyder/plugins/vcs/utils/backend.py:576-656 | a `git status` run exiting with 0 reports the branch, upstream, counts and records of the output git wrote |
| StatusHeader.LastField | spyder/plugins/vcs/utils/backend.py:621-623 | `rsplit(" ", 1)[-1]`: the longest space-free suffix, preceded by a space unless it is everything |
| StatusHeader.RemoteSearchFinds | spyder/plugins/vcs/utils/backend.py:605-609 | the lazy upstream group always ends where the rest of the line matches a tail |
| StatusHeader.MatchHeader | spyder/plugins/vcs/utils/backend.py:601-611 | the header matches exactly when the line starts with "## " and has a character after it; the local group is a non-empty prefix of the rest |
| StatusHeader.ApplyGroup | spyder/plugins/vcs/utils/backend.py:617-623 | a "behind" group sets behind, an "ahead" group sets ahead, and any other group or no group changes nothing |
| StatusHeader.HeaderCounts | spyder/plugins/vcs/utils/backend.py:617-623 | behind and ahead are zero without a bracket; a non-zero behind comes from a group starting "behind", a non-zero ahead from a group starting "ahead" |
| StatusHeader.MatchedGroupsAreCounts | spyder/plugins/vcs/utils/backend.py:607-623 | every bracket group the pattern captures ends in digits, so its count converts |
| StatusHeader.HeaderRoundTrip | spyder/plugins/vcs/utils/backend.py:601-623 | the header git writes for a branch, an optional upstream and ahead/behind counts reads back to that branch, that upstream and those counts |
| StatusHeader.NoteAfterName | spyder/plugins/vcs/utils/backend.py:608-609 | a parenthesised note after the branch name, as in "## HEAD (no branch)", is group 5 and leaves the local name whole |
| StatusHeader.GoneUpstreamKeptInRemote | spyder/plugins/vcs/utils/backend.py:601-615 | for "## l...u [gone]" the lazy upstream group takes " [gone]" with it, since the bracket alternative needs digits |
| ChangeRecords.StripQuotes | spyder/plugins/vcs/utils/backend.py:382-384 | a path longer than three characters that starts and ends with the same quote loses both; any other path is kept |
| ChangeRecords.Chunks | spyder/plugins/vcs/utils/backend.py:394-398 | the path is cut into non-empty chunks of at most the chunk size, all full except the last, whose concatenation is the path |
| ChangeRecords.DecodeChunks | spyder/plugins/vcs/utils/backend.py:394-403 | a text exactly when every chunk evaluates to a string; no path exactly when a chunk raises `ValueError`/`SyntaxError` after the earlier ones evaluated |
| ChangeRecords.DecodeChunksRaises | spyder/plugins/vcs/utils/backend.py:394-403 | when every chunk evaluates and one is not a string, the join raises `TypeError`; any other exception is the one the first raising chunk raised, after the earlier ones evaluated |
| ChangeRecords.Expand | spyder/plugins/vcs/utils/backend.py:405-408 | a change for each side that is not UNCHANGED, unstaged first, each with the path and its side's state |
| ChangeRecords.ParseChangeRecord | spyder/plugins/vcs/utils/backend.py:375-410 | a record of other than three fields gives no change; an unknown state raises `AttributeError`; a path whose evaluation raises a `ValueError`/`SyntaxError` gives no change; any other exception of the evaluation or the join is raised; otherwise the expanded changes |
| ChangeRecords.PickFrom | spyder/plugins/vcs/utils/backend.py:170-177 | the first record with changes decides: its only change, or the unstaged or staged one as preferred; an error on the way is raised; no changes give None |
| ChangeRecords.Change | spyder/plugins/vcs/utils/backend.py:159-177 | corrected: no status output raises a `VCSUnexpectedError`; otherwise the first record with changes is picked |
| ChangeRecords.ChangeAsWritten | spyder/plugins/vcs/utils/backend.py:159-177 | as written: no status output raises `TypeError`, since "change" and `error=` both bind `error` |
| ChangeRecords.ChangeFailure | spyder/plugins/vcs/utils/backend.py:164-168 | the error `change` evidently means to raise: unexpected, on "change", with the message "Failed to get git changes" as its only argument |
| ChangeRecords.FlattenCons | spyder/plugins/vcs/utils/backend.py:154-157 | extending by one record's changes before the others puts those changes first |
| ChangeRecords.Collect | spyder/plugins/vcs/utils/backend.py:154-157 | when no record raises, the changes of every record concatenated in record order, at most two per record; otherwise the error of the first record that raises |
| ChangeRecords.ChangesPropertyFailure | spyder/plugins/vcs/utils/backend.py:148-153 | the property error of `changes`: on "changes" and "get", with the message "Failed to get git changes" |
| ChangeRecords.Changes | spyder/plugins/vcs/utils/backend.py:144-157 | no status output raises a property error on "changes"/"get"; otherwise every record's changes |
| ChangeRecords.ChunkingIsLossless | spyder/plugins/vcs/utils/backend.py:386-403 | with a decoder that returns each chunk unchanged, the path comes back with only its quotes removed |
| ChangeRecords.QuotesRemoved | spyder/plugins/vcs/utils/backend.py:383-384 | a quoted path of at least two characters inside its quotes gets them removed |
| ChangeRecords.KnownRecordsConvert | spyder/plugins/vcs/utils/backend.py:375-410 | a record whose states come from the status map raises exactly when evaluating its path raises, and then that exception |
| ChangeRecords.StatusRecordsRaiseOnlyOnPaths | spyder/plugins/vcs/utils/backend.py:144-157 | over records read from git status, `changes` raises exactly when evaluating some path raises: the state names never do |
| ChangeRecords.NonTextPathRaises | spyder/plugins/vcs/utils/backend.py:394-403 | a path whose chunks all evaluate, one to a value that is not a string, makes the record raise `TypeError` |
| ChangeRecords.TuplePathRaises | spyder/plugins/vcs/utils/backend.py:394-403 | the quoted path `"a','b"`, whose chunk reads as a tuple, makes the record raise `TypeError` |
| ChangeRecords.OneChunkNonText | spyder/plugins/vcs/utils/backend.py:394-403 | a path read as one chunk that evaluates to a value that is not a string makes the record raise `TypeError` |
| ChangeRecords.UntrackedIsUnstagedAddition | spyder/plugins/vcs/utils/backend.py:405-408 | an untracked file is a single unstaged addition |
| ChangeRecords.StagedModification | spyder/plugins/vcs/utils/backend.py:405-408 | a staged modification is a single staged change |
| ChangeRecords.DecodeFailureGivesNothing | spyder/plugins/vcs/utils/backend.py:399-401 | a path whose evaluation raises `ValueError` or `SyntaxError` gives no change |
| ChangeRecords.PreferredSide | spyder/plugins/vcs/utils/backend.py:173-174 | when the first record has both sides, `change` returns the unstaged one exactly when unstaged is preferred |
| ChangeRecords.ChangeIsAmongChanges | spyder/plugins/vcs/utils/backend.py:144-177 | the change `change` returns is one of those `changes` returns for the same status records |
| ChangeRecords.ChangeFailureRaisesTypeError | spyder/plugins/vcs/utils/backend.py:164-168 | as written the failure is not a `VCSError` a caller can catch; corrected it is |
| History.MatchKey | spyder/plugins/vcs/utils/backend.py:430-434 | the first pending key that labels the line, or none |
| History.ScanFields | spyder/plugins/vcs/utils/backend.py:427-436 | scanning sets only keys still pending and keeps every field found for a key no longer pending |
| History.FirstLabelWins | spyder/plugins/vcs/utils/backend.py:430-436 | a key is set at most once: a second "title:" line is ignored |
| History.SplitDescription | spyder/plugins/vcs/utils/backend.py:418-425 | the description is everything after the first "\ndescription:\n" without its NULs; the header is everything before it |
| History.StripNul | spyder/plugins/vcs/utils/backend.py:424 | `strip(b"\x00")`: the result is no longer than the text and neither starts nor ends with a NUL |
| History.StripNulSlice | spyder/plugins/vcs/utils/backend.py:424 | the stripped text is a contiguous slice of the text, and only NULs lie outside it |
| History.ToCommit | spyder/plugins/vcs/utils/backend.py:438-445 | content is the title (or "") and the description joined by a newline; the date is kept exactly when it is all digits |
| History.ParseHistoryRecord | spyder/plugins/vcs/utils/backend.py:412-449 | a blank block gives nothing; any other gives a commit whose content is its title and description |
| History.RecordRoundTrip | spyder/plugins/vcs/utils/backend.py:412-449 | the block git writes for a commit reads back to that commit |
| History.DescriptionIsNotReparsed | spyder/plugins/vcs/utils/backend.py:418-425 | a body line that looks like a header does not change the title |
| History.HistoryError | spyder/plugins/vcs/utils/backend.py:355-360 | a failed `git log` raises a `VCSUnexpectedError` on "get_last_commits" carrying git's error |
| History.ParseBlocks | spyder/plugins/vcs/utils/backend.py:362-364 | at most one commit per block |
| History.ParseBlocksKeeps | spyder/plugins/vcs/utils/backend.py:362-364 | a commit is kept exactly when some block parses to it |
| History.ParseBlocksAppend | spyder/plugins/vcs/utils/backend.py:362-364 | the commits of consecutive blocks come in block order |
| History.ParseBlock | spyder/plugins/vcs/utils/backend.py:362-364 | one block gives its commit, or nothing when it is blank |
| History.Present | spyder/plugins/vcs/utils/backend.py:362-364 | `filter(None, …)` over the parsed blocks: every value kept was present, and every present value is kept |
| History.PresentAppend | spyder/plugins/vcs/utils/backend.py:362-364 | dropping empty results works piece by piece: for a concatenation it gives those of the first part, then those of the second |
| History.PresentOfSomes | spyder/plugins/vcs/utils/backend.py:362-364 | values all present, followed by one empty result, leave exactly those values, in order |
| History.BlankBlocks | spyder/plugins/vcs/utils/backend.py:362-364 | blank blocks give no commits |
| History.GetLastCommits | spyder/plugins/vcs/utils/backend.py:335-364 | fewer than one commit is a `ValueError`; git that cannot be run raises `_run`'s backend failure; a failed run raises the history error; otherwise the commits the NUL-separated blocks of the output parse to, in order, without the blank ones |
| History.LogRoundTrip | spyder/plugins/vcs/utils/backend.py:344-364 | the output `git log` writes for a list of commits reads back to exactly those commits, in order |
| Remote.PosixOperation | spyder/plugins/vcs/utils/backend.py:710-772 | no git gives None; a child that has ended with no username prompt gives None when killed by a signal, its message when it failed, and True otherwise, with nothing written; otherwise the username is written only after its prompt and the password only after its prompt; no password prompt gives None, and after the password a clean exit gives True, a failed one False when the denied marker is in the message and the message when it is not |
| Remote.NoPromptNoCredentials | spyder/plugins/vcs/utils/backend.py:741-751 | a child that exits cleanly without a prompt succeeds and receives no credentials |
| Remote.NoPromptFailure | spyder/plugins/vcs/utils/backend.py:747-749 | a child that fails without a prompt returns its message |
| Remote.DeniedAnywhere | spyder/plugins/vcs/utils/backend.py:766-768 | the denied marker is found in any capitalisation, anywhere in the message |
| Remote.RefusedCredentials | spyder/plugins/vcs/utils/backend.py:737-768 | both prompts answered, then a failed exit with "HTTP Basic: Access denied": refused, after sending the username then the password |
| Remote.AcceptedCredentials | spyder/plugins/vcs/utils/backend.py:737-764 | both prompts answered, then a clean exit: success |
| Remote.TimeoutAtUsername | spyder/plugins/vcs/utils/backend.py:737-757 | a timeout at the username prompt with the child alive goes on to the password prompt, and gives None without one |
| Remote.RefusalIgnoresCase | spyder/plugins/vcs/utils/backend.py:766-768 | only the lower-cased message decides a refusal |
| Remote.SessionUsername | spyder/plugins/vcs/utils/backend.py:464-465 | the stored username when non-empty, else git's configured one when non-empty, else "" |
| Remote.RemoteFailure | spyder/plugins/vcs/utils/backend.py:494-497 | any other failure is unexpected, on the operation, with "Failed to <operation> from remote" |
| Remote.RemoteOperationAsWritten | spyder/plugins/vcs/utils/backend.py:473-497 | as written: success gives True, or git's `config` exit code when the stored username must be written (the backend failure when git cannot be run for it); refusal raises `TypeError`; anything else raises "Failed to … from remote" |
| Remote.RefusedError | spyder/plugins/vcs/utils/backend.py:486-492 | the authentication error for refused credentials: username and password required, with the username used and the stored password |
| Remote.RemoteOperation | spyder/plugins/vcs/utils/backend.py:451-497 | corrected: success exactly for an authenticated session whose configuration update, if due, could be run; reported as true unless that update fails; a git that cannot be run for it raises the backend failure; refusal raises a `VCSAuthError`; anything else a `VCSUnexpectedError` |
| Remote.RunRemoteAsWritten | spyder/plugins/vcs/utils/backend.py:463-497 | as written, the POSIX path as a whole: no git is the "Failed to … from remote" error, and a refused session raises `TypeError` |
| Remote.RunRemote | spyder/plugins/vcs/utils/backend.py:463-497 | corrected, the POSIX path as a whole: no git is an unexpected error, and a refused session an authentication error |
| Remote.RunRemoteCorrectionIsLocal | spyder/plugins/vcs/utils/backend.py:463-497 | with no configuration update due and a session that is not refused, the corrected path equals the written one |
| Remote.ConfigExitCodeInverted | spyder/plugins/vcs/utils/backend.py:478-484 | as written a successful configuration update reads as failure and a failed one as success; corrected, the other way round |
| Remote.RefusalIsNotAnAuthError | spyder/plugins/vcs/utils/backend.py:486-492 | as written refused credentials raise no `VCSError`; corrected they raise a `VCSAuthError` |
| Remote.CorrectionsAreLocal | spyder/plugins/vcs/utils/backend.py:473-497 | outside refusals and configuration updates the corrected operation equals the written one |
| GitCommands.GitMissing | spyder/plugins/vcs/utils/backend.py:507-509 | a missing git is a backend failure naming the program "git", which reports missing dependencies |
| GitCommands.CreateBranch | spyder/plugins/vcs/utils/backend.py:126-137 | checkout with "-b", or "--orphan" then `rm -r .` only after that checkout succeeds; true exactly when every command issued succeeds; a missing git raises |
| GitCommands.CreateBranchNeedsRemovalOnlyForOrphans | spyder/plugins/vcs/utils/backend.py:130-137 | from the current branch only the checkout must succeed; an orphan branch also needs the removal |
| GitCommands.DeleteBranch | spyder/plugins/vcs/utils/backend.py:139-142 | issues `branch -d` and answers whether it exited with 0; when git cannot be run it raises `_run`'s backend failure |
| GitCommands.MessageFlags | spyder/plugins/vcs/utils/backend.py:214-216 | one "-m" flag followed by its paragraph per paragraph, in order |
| GitCommands.FlagValuesOfMessageFlags | spyder/plugins/vcs/utils/backend.py:214-216 | the flag values of the arguments are the paragraphs |
| GitCommands.CommitArgs | spyder/plugins/vcs/utils/backend.py:213-221 | the arguments start with "commit" and a first "-m" with its paragraph, so the empty-argument branch cannot be reached |
| GitCommands.CommitArgsRoundTrip | spyder/plugins/vcs/utils/backend.py:213-221 | the "-m" values joined by blank lines give back the message, and none holds a blank line |
| GitCommands.CommitAsWritten | spyder/plugins/vcs/utils/backend.py:205-224 | as written: a path message calls `_run` with `commit -F` and the path as the environment, which cannot start git, so it raises `_run`'s backend failure whatever git would do; otherwise `commit` with the "-m" flags, true exactly when git exits with 0, and the backend failure exactly when git cannot be run |
| GitCommands.FileCommitDropsPath | spyder/plugins/vcs/utils/backend.py:211-212 | as written the file commit's arguments are the same whatever the path and do not hold it |
| GitCommands.FileCommitNeverRuns | spyder/plugins/vcs/utils/backend.py:211-212 | a file commit that git would accept raises a backend failure as written and succeeds corrected |
| GitCommands.Commit | spyder/plugins/vcs/utils/backend.py:205-224 | corrected: a path message issues `commit -F <path>`; otherwise the "-m" values give back the message; true exactly when git exits with 0; the backend failure exactly when git cannot be run |
| GitCommands.CommitCorrectionIsLocal | spyder/plugins/vcs/utils/backend.py:213-224 | for a message that is not a path the corrected commit equals the written one |
| GitCommands.CountOf | spyder/plugins/vcs/utils/backend.py:274-275 | the count is read exactly when the output stripped of spaces and newlines is all digits |
| GitCommands.CountOfPrinted | spyder/plugins/vcs/utils/backend.py:274-275 | the count git prints reads back |
| GitCommands.CountFailure | spyder/plugins/vcs/utils/backend.py:266-272 | the error meant for a failed count: unexpected, on "undo_commit", naming the branch and carrying git's error |
| GitCommands.UndoCountAsWritten | spyder/plugins/vcs/utils/backend.py:244-276 | as written: fewer than one is a `ValueError`; git that cannot be run raises the backend failure; a failed count raises `TypeError`; a count is returned exactly after a successful run, at most the request, and when it differs from the request it is one less than the branch length |
| GitCommands.UndoWholeBranchIsNotClamped | spyder/plugins/vcs/utils/backend.py:274-276 | as written, undoing 3 commits on a 3-commit branch is not clamped, so it targets a parent of the root |
| GitCommands.CountFailureRaisesTypeError | spyder/plugins/vcs/utils/backend.py:266-272 | as written a failed count raises no `VCSError` |
| GitCommands.UndoCount | spyder/plugins/vcs/utils/backend.py:244-276 | corrected: the errors as above but a failed count raises its `VCSUnexpectedError`; the count is at most the request and always below the branch length |
| GitCommands.UndoCountIsMinimum | spyder/plugins/vcs/utils/backend.py:274-276 | corrected, on a branch of n commits the count is the request when it is below n, else n - 1 |
| GitCommands.UndoCorrectionIsLocal | spyder/plugins/vcs/utils/backend.py:274-276 | the corrected count equals the written one except when the request is exactly the branch length |
| Text.SplitOfJoin | spyder/plugins/vcs/utils/backend.py:362-364 | splitting on a one-character separator such as NUL undoes joining with it when no part holds that character |
| Text.SplitLinesOfJoin | spyder/plugins/vcs/utils/backend.py:596 | `splitlines` undoes joining with newlines when no line holds a line boundary and the last line is not empty |

## Left out

- Case mapping is ASCII-only. Python's full Unicode `upper` and `lower` are not modelled.
- `\d` in the header pattern is an ASCII digit. Python's `re` also matches other Unicode digits.
- Byte decoding is left out. git's output is already text, and byte lines split on the byte line boundaries only.
- The `ast.literal_eval` decoding of a path chunk is a parameter. Python's literal grammar is not modelled. The decoder says only whether the chunk read as a string, as another value, as `ValueError`/`SyntaxError`, or raised another exception.
- Remote.PosixOperation assumes the child ends. After the final `expect`, the code calls `proc.wait()` (`backend.py:759-761`), which blocks for as long as git runs; the model takes the final child state as given and does not model a run that never ends.
- The Windows branch of `_remote_operation` (`backend.py:453-461`) is left out. It only runs git with prompts disabled.
- Process I/O is left out: pexpect, `run_helper`, `find_program`. Runs and sessions are parameters.
- The credential store (`credentials`) is a parameter. The keyring behind it is not modelled.
- The Mercurial backend is left out. It sits outside the git core.
- The manager's `__getattr__`, `__setattr__` and `__delattr__` are left out. They are attribute forwarding with no logic of their own.
- `check` is left out. It only raises `NotImplementedError`.
- History.ToCommit keeps the commit date as the Unix time. The conversion to a `datetime` in UTC is left out.
- History.ToCommit treats only ASCII digits as a date. `str.isdigit` also accepts other Unicode digits: "٣" would be kept as 3, and "²" would pass the check and then make `int()` raise `ValueError`. The model drops the date in both cases.
- Remote.RunRemote takes git's configured user name as one parameter. The code asks git for it twice, at 465 and 480; a configuration change between the two calls is not modelled.
- GitCommands.Commit and GitCommands.CommitAsWritten take `osp.isfile(message)` as the parameter `isFile`.
- GitCommands.CountFailure takes the branch name as a parameter.
- GitCommands.UndoCount covers `int(commits)` for integers only. Truncation of a float is left out.
- GitCommands.UndoCount models `undo_commit` up to the clamped count. Reading the undone commit and running `reset --soft` are left out.
- `get_last_commits` filters with `filter(None, …)`, which drops every falsy dictionary. Parsing returns `{}` only for a blank block and a non-empty dictionary otherwise, so the model drops exactly the blank blocks.
- `undo_change`, `stage`, `unstage`, `tags`, `branch`, `branches` and `git_get_branches` are outside the modelled core. They use the operations above but add only process I/O.
- At a username-prompt timeout with the child still alive, the code goes on to the password prompt (`backend.py:753-757`); see Remote.TimeoutAtUsername.
- Errors.CredentialField limits `required_credentials` to username, password, email and token. `getattr(self, key, None)` on any other key reads as None, and such keys are not modelled.

## Findings

| source | as written | input that shows it | evidently intended | confidence | as-written member | corrected member |
|---|---|---|---|---|---|---|
| spyder/plugins/vcs/utils/backend.py:211-212 | `self._run(["commit", "-F"], message)` passes the path as `env`; starting git with a string environment raises `AttributeError`, which `run_helper` swallows, so `_run` raises `VCSBackendFail` and git never runs | `commit("msg.txt", is_path=True)` | `["commit", "-F", message]` | high; not executed | GitCommands.FileCommitNeverRuns | GitCommands.Commit |
| spyder/plugins/vcs/utils/backend.py:274-276 | the clamp applies only when `commits > count`, so undoing the whole branch is not clamped | 3 commits on a branch of 3 | clamp when `commits >= count` | medium; not executed | GitCommands.UndoWholeBranchIsNotClamped | GitCommands.UndoCountIsMinimum |
| spyder/plugins/vcs/utils/backend.py:266-272 | `VCSUnexpectedError("undo_commit", error=…)` binds `error` twice and raises `TypeError` | `git rev-list` exiting with 128 | `method="undo_commit"` | high; not executed | GitCommands.CountFailureRaisesTypeError | GitCommands.UndoCount |
| spyder/plugins/vcs/utils/backend.py:164-168 | `VCSUnexpectedError("change", error=…)` binds `error` twice and raises `TypeError` | `git status` failing for the path | `method="change"` | high; not executed | ChangeRecords.ChangeFailureRaisesTypeError | ChangeRecords.Change |
| spyder/plugins/vcs/utils/backend.py:482-483 | after a success it returns git's `config` exit code, so a successful update (0) reads as failure | stored username "u", no password, git's user name None | `== 0` on the exit code | high; not executed | Remote.ConfigExitCodeInverted | Remote.RemoteOperation |
| spyder/plugins/vcs/utils/backend.py:488-492 | `VCSAuthError` is called without its required `required_credentials`, so refusals raise `TypeError` | a session refused with "HTTP Basic: Access denied" | pass `("username", "password")` | high; not executed | Remote.RefusalIsNotAnAuthError | Remote.RefusedError |
| spyder/plugins/vcs/utils/errors.py:192-198 | `are_credentials_inserted` is true when every required credential is None | username and password both set | every required credential is not None | high; not executed | Errors.CredentialsInsertedInverted | Errors.CredentialsPresent |

=== FILE: change_records.dfy ===
/**
 * From status records to file changes: `GitBackend._parse_change_record`,
 * which turns one `(path, staged, unstaged)` record into zero, one or two
 * change dictionaries, and the `change` and `changes` operations built on it.
 *
 * Git quotes a path holding special characters and writes C-style escapes
 * inside. The source strips the quotes and evaluates the rest as a Python
 * string literal, 16384 characters at a time. That evaluation is a
 * parameter here (`Decoder`): it yields the text of one chunk, some value
 * that is not a string, a `ValueError`/`SyntaxError`, or another exception.
 */
module ChangeRecords {
  import opened Wrappers
  import Text
  import ChangedStatus
  import Errors
  import GitStatus

  /** One change dictionary: `dict(path=..., kind=..., staged=...)`. */
  datatype FileChange = FileChange(path: string, kind: int, staged: bool)

  /**
   * What evaluating `"'" + chunk + "'"` as a Python literal gives: a string,
   * a value that is not one (`a','b` reads as a tuple), a `ValueError` or
   * `SyntaxError` (the two the source catches), or an exception of another
   * class, which propagates.
   */
  datatype Literal = Str(text: string) | NonStr | Invalid | Raised(className: string)
  {
    /** The evaluation returned a value. */
    predicate Evaluated() {
      Str? || NonStr?
    }
  }

  /** The literal evaluator, applied to one chunk. */
  type Decoder = string -> Literal

  /** What `"".join` raises when a piece is not a string. */
  const NotText := Errors.Foreign("TypeError")

  /** The size of the pieces handed to the literal evaluator. */
  const ChunkSize: nat := 16384

  /** `"".join(parts)`. */
  function Concat(parts: seq<string>): (r: string)
    ensures |parts| == 1 ==> r == parts[0]
  {
    if parts == [] then "" else parts[0] + Concat(parts[1..])
  }

  predicate IsQuote(c: char) {
    c == '\'' || c == '"'
  }

  /**
   * Removing the quotes git puts around a path: only when the path is
   * longer than three characters and starts and ends with the same quote.
   */
  function StripQuotes(path: string): (r: string)
    ensures r == path || (|path| > 3 && |r| == |path| - 2 && r == path[1..|path| - 1])
    ensures |path| > 3 && IsQuote(path[0]) && path[0] == path[|path| - 1] ==> r == path[1..|path| - 1]
    ensures |path| <= 3 || !IsQuote(path[0]) || path[0] != path[|path| - 1] ==> r == path
  {
    if |path| > 3 && path[0] == path[|path| - 1] && IsQuote(path[|path| - 1]) then path[1..|path| - 1]
    else path
  }

  /**
   * `[s[i:i + n] for i in range(0, len(s), n)]`: consecutive pieces of `s`,
   * none empty, all of length `n` except possibly the last.
   */
  function Chunks(s: string, n: nat): (r: seq<string>)
    requires n > 0
    ensures Concat(r) == s
    ensures forall i :: 0 <= i < |r| ==> 0 < |r[i]| <= n
    ensures forall i :: 0 <= i < |r| - 1 ==> |r[i]| == n
    ensures s == [] <==> r == []
    decreases |s|
  {
    if |s| == 0 then []
    else if |s| <= n then [s]
    else [s[..n]] + Chunks(s[n..], n)
  }

  /**
   * Evaluating the chunks in order and joining the results: the first
   * `ValueError`/`SyntaxError` gives `Ok(None)` (no change), the first other
   * exception propagates, and once every chunk has evaluated the join
   * raises `TypeError` if any value is not a string.
   */
  function DecodeChunks(chunks: seq<string>, decode: Decoder): (r: Result<Option<string>, Errors.Exception>)
    ensures r.Ok? && r.value.Some? <==> forall i :: 0 <= i < |chunks| ==> decode(chunks[i]).Str?
    ensures r == Ok(None) <==>
              exists i :: 0 <= i < |chunks| && decode(chunks[i]).Invalid? && forall j :: 0 <= j < i ==> decode(chunks[j]).Evaluated()
    decreases |chunks|
  {
    if chunks == [] then Ok(Some(""))
    else
      match decode(chunks[0])
      case Raised(c) => Err(Errors.Foreign(c))
      case Invalid => Ok(None)
      case Str(t) =>
        (match DecodeChunks(chunks[1..], decode)
         case Ok(Some(rest)) => Ok(Some(t + rest))
         case other => other)
      case NonStr =>
        (match DecodeChunks(chunks[1..], decode)
         case Ok(Some(_)) => Err(NotText)
         case other => other)
  }

  /**
   * The exceptions of decoding: the join's `TypeError` once every chunk has
   * evaluated and one is not a string, or else the exception the first
   * raising chunk raised.
   */
  lemma {:induction false} DecodeChunksRaises(chunks: seq<string>, decode: Decoder)
    ensures var r := DecodeChunks(chunks, decode);
            && (((forall i :: 0 <= i < |chunks| ==> decode(chunks[i]).Evaluated()) && (exists i :: 0 <= i < |chunks| && decode(chunks[i]).NonStr?))
                  ==> r == Err(NotText))
            && (r.Err? ==>
                  || (r.error == NotText && forall i :: 0 <= i < |chunks| ==> decode(chunks[i]).Evaluated())
                  || (exists i :: 0 <= i < |chunks| && decode(chunks[i]).Raised? && r.error == Errors.Foreign(decode(chunks[i]).className)
                        && forall j :: 0 <= j < i ==> decode(chunks[j]).Evaluated()))
    decreases |chunks|
  {
    if chunks != [] {
      var rest := chunks[1..];
      DecodeChunksRaises(rest, decode);
      assert forall i :: 0 <= i < |rest| ==> rest[i] == chunks[i + 1];
      var r := DecodeChunks(rest, decode);
      if r.Err? && decode(chunks[0]).Evaluated() {
        if r.error != NotText || !(forall i :: 0 <= i < |rest| ==> decode(rest[i]).Evaluated()) {
          var i :| 0 <= i < |rest| && decode(rest[i]).Raised? && r.error == Errors.Foreign(decode(rest[i]).className)
                   && forall j :: 0 <= j < i ==> decode(rest[j]).Evaluated();
          assert decode(chunks[i + 1]).Raised?;
        }
      }
    }
  }

  /** The decoded path of a record: the text, no path (`Ok(None)`), or the exception evaluation raises. */
  function DecodePath(path: string, decode: Decoder): Result<Option<string>, Errors.Exception> {
    DecodeChunks(Chunks(StripQuotes(path), ChunkSize), decode)
  }

  /**
   * The changes one record contributes: one per side whose state is not
   * UNCHANGED, the unstaged side first.
   */
  function Expand(path: string, staged: int, unstaged: int): (r: seq<FileChange>)
    ensures |r| <= 2
    ensures forall i :: 0 <= i < |r| ==> r[i].path == path && r[i].kind != ChangedStatus.UNCHANGED
    ensures forall i :: 0 <= i < |r| ==> r[i].kind == (if r[i].staged then staged else unstaged)
    ensures (exists i :: 0 <= i < |r| && r[i].staged) <==> staged != ChangedStatus.UNCHANGED
    ensures (exists i :: 0 <= i < |r| && !r[i].staged) <==> unstaged != ChangedStatus.UNCHANGED
    ensures |r| == 2 ==> !r[0].staged && r[1].staged
  {
    var u := if unstaged != ChangedStatus.UNCHANGED then [FileChange(path, unstaged, false)] else [];
    var r := u + (if staged != ChangedStatus.UNCHANGED then [FileChange(path, staged, true)] else []);
    assert staged != ChangedStatus.UNCHANGED ==> r[|r| - 1].staged;
    assert unstaged != ChangedStatus.UNCHANGED ==> !r[0].staged;
    r
  }

  /** What `ChangedStatus.from_string` raises for a name that is not a state. */
  const UnknownState := Errors.Foreign("AttributeError")

  /**
   * `_parse_change_record`: a record of any length other than three gives
   * no change; otherwise both state names are converted (an unknown name
   * raises), the path is unquoted and decoded (a `ValueError`/`SyntaxError`
   * gives no change, any other exception or a value that is not a string
   * raises), and each changed side gives one change.
   */
  function ParseChangeRecord(record: seq<string>, decode: Decoder): (r: Result<seq<FileChange>, Errors.Exception>)
    ensures |record| != 3 ==> r == Ok([])
    ensures |record| == 3 && (ChangedStatus.FromString(record[1]).Err? || ChangedStatus.FromString(record[2]).Err?) ==>
              r == Err(UnknownState)
    ensures |record| == 3 && ChangedStatus.FromString(record[1]).Ok? && ChangedStatus.FromString(record[2]).Ok? ==>
              && (DecodePath(record[0], decode).Err? ==> r == Err(DecodePath(record[0], decode).error))
              && (DecodePath(record[0], decode) == Ok(None) ==> r == Ok([]))
              && (DecodePath(record[0], decode).Ok? && DecodePath(record[0], decode).value.Some? ==>
                    r == Ok(Expand(DecodePath(record[0], decode).value.value,
                                   ChangedStatus.FromString(record[1]).value, ChangedStatus.FromString(record[2]).value)))
    ensures r.Ok? ==> |r.value| <= 2
  {
    if |record| != 3 then Ok([])
    else
      var staged := ChangedStatus.FromString(record[1]);
      var unstaged := ChangedStatus.FromString(record[2]);
      if staged.Err? || unstaged.Err? then Err(UnknownState)
      else
        match DecodePath(record[0], decode)
        case Err(e) => Err(e)
        case Ok(None) => Ok([])
        case Ok(Some(path)) => Ok(Expand(path, staged.value, unstaged.value))
  }

  /** The three fields of a status record, as the tuple `get_git_status` returns. */
  function Fields(rec: GitStatus.StatusRecord): (r: seq<string>)
    ensures |r| == 3 && r[0] == rec.path && r[1] == rec.staged && r[2] == rec.unstaged
  {
    [rec.path, rec.staged, rec.unstaged]
  }

  /** The change `change()` reports from one record's changes: with two, the preferred side. */
  predicate Picked(changes: seq<FileChange>, preferUnstaged: bool, c: FileChange) {
    || (|changes| == 2 && c == changes[if preferUnstaged then 0 else 1])
    || (|changes| == 1 && c == changes[0])
  }

  /** What `_parse_change_record` gives for each record, in order. */
  function ParseAll(fs: seq<seq<string>>, decode: Decoder): (r: seq<Result<seq<FileChange>, Errors.Exception>>)
    ensures |r| == |fs| && forall k :: 0 <= k < |fs| ==> r[k] == ParseChangeRecord(fs[k], decode)
  {
    seq(|fs|, k requires 0 <= k < |fs| => ParseChangeRecord(fs[k], decode))
  }

  /**
   * The loop of `change()` from record `i` on, over the records' parses:
   * the first record with a change decides; a record whose states do not
   * convert raises. Records after the deciding one are never parsed.
   */
  function PickFrom(ps: seq<Result<seq<FileChange>, Errors.Exception>>, i: nat, preferUnstaged: bool): (r: Result<Option<FileChange>, Errors.Exception>)
    requires i <= |ps|
    requires forall k :: 0 <= k < |ps| ==> ps[k].Ok? ==> |ps[k].value| <= 2
    ensures r.Ok? && r.value.Some? ==> exists k :: (i <= k < |ps| && ps[k].Ok? && Picked(ps[k].value, preferUnstaged, r.value.value)
              && forall j :: i <= j < k ==> ps[j] == Ok([]))
    ensures r.Ok? && r.value.None? <==> forall j :: i <= j < |ps| ==> ps[j] == Ok([])
    ensures r.Err? ==> exists k :: (i <= k < |ps| && ps[k].Err? && r.error == ps[k].error
              && forall j :: i <= j < k ==> ps[j] == Ok([]))
    decreases |ps| - i
  {
    if i == |ps| then Ok(None)
    else
      match ps[i]
      case Err(e) => Err(e)
      case Ok(changes) =>
        if |changes| == 2 then Ok(Some(changes[if preferUnstaged then 0 else 1]))
        else if |changes| == 1 then Ok(Some(changes[0]))
        else PickFrom(ps, i + 1, preferUnstaged)
  }

  const ChangesFailure := "Failed to get git changes"

  /**
   * `change(path, prefer_unstaged)` as the source writes its failure branch:
   * `VCSUnexpectedError("change", error=...)` hands "change" to the base
   * initialiser as a positional `error` next to the `error` keyword, so
   * Python raises `TypeError` instead of the intended error.
   */
  function ChangeAsWritten(filestates: Option<seq<seq<string>>>, preferUnstaged: bool, decode: Decoder): (r: Result<Option<FileChange>, Errors.Exception>)
    ensures filestates.None? ==> r == Err(Errors.Foreign("TypeError"))
    ensures filestates.Some? ==> r == PickFrom(ParseAll(filestates.value, decode), 0, preferUnstaged)
  {
    if filestates.Some? then PickFrom(ParseAll(filestates.value, decode), 0, preferUnstaged)
    else
      match Errors.NewUnexpected(Errors.Forwarded([Some("change")], Some(Some(ChangesFailure)), None), None)
      case Ok(e) => Err(Errors.Vcs(e))
      case Err(_) => Err(Errors.Foreign("TypeError"))
  }

  /** The error `change()` evidently means to raise: an unexpected error of method "change". */
  function ChangeFailure(): (e: Errors.VcsError)
    ensures e.kind == Errors.Unexpected(Some("change"))
    ensures e.error == Some(ChangesFailure) && e.rawError.None?
    ensures e.args == [ChangesFailure]
  {
    Errors.KeywordConstruction(Some(ChangesFailure), None, Errors.Unexpected(Some("change")));
    Errors.NewUnexpected(Errors.Keywords(Some(ChangesFailure), None), Some("change")).value
  }

  /** `change(path, prefer_unstaged)` with the failure raised as intended. */
  function Change(filestates: Option<seq<seq<string>>>, preferUnstaged: bool, decode: Decoder): (r: Result<Option<FileChange>, Errors.Exception>)
    ensures filestates.None? ==> r.Err? && Errors.IsInstance(r.error, Errors.VCSUnexpectedError)
    ensures filestates.Some? ==> r == PickFrom(ParseAll(filestates.value, decode), 0, preferUnstaged)
  {
    match filestates
    case None => Err(Errors.Vcs(ChangeFailure()))
    case Some(fs) => PickFrom(ParseAll(fs, decode), 0, preferUnstaged)
  }

  /** The lists of `xss` joined end to end, built from the last list backwards. */
  function Flatten<T>(xss: seq<seq<T>>): (r: seq<T>)
    ensures xss == [] ==> r == []
    ensures |xss| == 1 ==> r == xss[0]
    decreases |xss|
  {
    if xss == [] then [] else Flatten(xss[..|xss| - 1]) + xss[|xss| - 1]
  }

  /** Joining a list in front of others puts its elements first. */
  lemma {:induction false} FlattenCons<T>(x: seq<T>, xss: seq<seq<T>>)
    ensures Flatten([x] + xss) == x + Flatten(xss)
    decreases |xss|
  {
    if xss != [] {
      var n := |xss|;
      assert ([x] + xss)[..n] == [x] + xss[..n - 1];
      assert ([x] + xss)[n] == xss[n - 1];
      FlattenCons(x, xss[..n - 1]);
    }
  }

  /** The values of results that all succeeded. */
  function OkValues<T, E>(ps: seq<Result<T, E>>): (r: seq<T>)
    requires forall k :: 0 <= k < |ps| ==> ps[k].Ok?
    ensures |r| == |ps| && forall k :: 0 <= k < |ps| ==> Ok(r[k]) == ps[k]
  {
    seq(|ps|, k requires 0 <= k < |ps| => ps[k].value)
  }

  /** The values of results that all succeeded, split after the first. */
  lemma OkValuesCons<T, E>(ps: seq<Result<T, E>>)
    requires ps != [] && forall k :: 0 <= k < |ps| ==> ps[k].Ok?
    ensures OkValues(ps) == [ps[0].value] + OkValues(ps[1..])
  {
    assert forall j :: 1 <= j < |ps| ==> ps[j] == ps[1..][j - 1];
  }

  /** The records after the first, seen from the whole list. */
  lemma CollectStep<T, E>(ps: seq<Result<T, E>>)
    requires ps != []
    ensures forall j :: 1 <= j < |ps| ==> ps[j] == ps[1..][j - 1]
    ensures (forall j :: 0 <= j < |ps| ==> ps[j].Ok?) <==> ps[0].Ok? && forall j :: 0 <= j < |ps[1..]| ==> ps[1..][j].Ok?
  {
  }

  /** A record that succeeded, then the changes collected from the rest. */
  lemma CollectOkCase(ps: seq<Result<seq<FileChange>, Errors.Exception>>, first: seq<FileChange>, rest: seq<FileChange>)
    requires ps != [] && ps[0] == Ok(first) && |first| <= 2
    requires forall j :: 0 <= j < |ps| ==> ps[j].Ok?
    requires |rest| <= 2 * |ps[1..]| && rest == Flatten(OkValues(ps[1..]))
    requires forall k :: 0 <= k < |ps[1..]| ==> forall c :: c in ps[1..][k].value ==> c in rest
    ensures |first + rest| <= 2 * |ps|
    ensures first + rest == Flatten(OkValues(ps))
    ensures forall k :: 0 <= k < |ps| ==> forall c :: c in ps[k].value ==> c in first + rest
  {
    OkValuesCons(ps);
    FlattenCons(first, OkValues(ps[1..]));
    forall k | 1 <= k < |ps| ensures ps[k] == ps[1..][k - 1] {
    }
  }

  /** A record that succeeded, then the first error among the rest. */
  lemma CollectErrCase(ps: seq<Result<seq<FileChange>, Errors.Exception>>, r: Result<seq<FileChange>, Errors.Exception>)
    requires ps != [] && ps[0].Ok?
    requires exists k :: 0 <= k < |ps[1..]| && ps[1..][k] == r && forall j :: 0 <= j < k ==> ps[1..][j].Ok?
    ensures exists k :: 0 <= k < |ps| && ps[k] == r && forall j :: 0 <= j < k ==> ps[j].Ok?
  {
    var k :| 0 <= k < |ps[1..]| && ps[1..][k] == r && forall j :: 0 <= j < k ==> ps[1..][j].Ok?;
    assert ps[k + 1] == r;
    forall j | 0 <= j < k + 1 ensures ps[j].Ok? {
      if j > 0 {
        assert ps[j] == ps[1..][j - 1];
      }
    }
  }

  /**
   * `for record in filestates: changes.extend(...)`: every record's changes,
   * concatenated in record order; the first record that raises ends it.
   */
  function Collect(ps: seq<Result<seq<FileChange>, Errors.Exception>>): (r: Result<seq<FileChange>, Errors.Exception>)
    requires forall k :: 0 <= k < |ps| ==> ps[k].Ok? ==> |ps[k].value| <= 2
    ensures r.Ok? <==> forall j :: 0 <= j < |ps| ==> ps[j].Ok?
    ensures r.Ok? ==> |r.value| <= 2 * |ps|
    ensures r.Ok? ==> r.value == Flatten(OkValues(ps))
    ensures r.Ok? ==> forall k :: 0 <= k < |ps| ==> forall c :: c in ps[k].value ==> c in r.value
    ensures r.Err? ==> exists k :: 0 <= k < |ps| && ps[k] == r && forall j :: 0 <= j < k ==> ps[j].Ok?
    decreases |ps|
  {
    if ps == [] then Ok([])
    else
      match ps[0]
      case Err(e) => Err(e)
      case Ok(first) =>
        var rest := Collect(ps[1..]);
        CollectStep(ps);
        if rest.Err? then
          CollectErrCase(ps, rest);
          rest
        else
          CollectOkCase(ps, first, rest.value);
          Ok(first + rest.value)
  }

  /** The error the `changes` property raises when the status query fails. */
  function ChangesPropertyFailure(): (e: Errors.VcsError)
    ensures e.kind == Errors.Property("changes", Some("get"))
    ensures e.error == Some(ChangesFailure)
  {
    Errors.KeywordConstruction(Some(ChangesFailure), None, Errors.Property("changes", Errors.NormaliseOperation("get")));
    Errors.NormaliseWithPrefix("get");
    Errors.NewProperty("changes", "get", Errors.Keywords(Some(ChangesFailure), None)).value
  }

  /** The `changes` property. */
  function Changes(filestates: Option<seq<seq<string>>>, decode: Decoder): (r: Result<seq<FileChange>, Errors.Exception>)
    ensures filestates.None? ==> r == Err(Errors.Vcs(ChangesPropertyFailure()))
    ensures filestates.Some? ==> r == Collect(ParseAll(filestates.value, decode))
  {
    match filestates
    case None => Err(Errors.Vcs(ChangesPropertyFailure()))
    case Some(fs) => Collect(ParseAll(fs, decode))
  }

  // ---------------------------------------------------------------------------
  // Properties
  // ---------------------------------------------------------------------------

  /** The identity evaluation: a chunk without escapes reads as itself. */
  function Verbatim(chunk: string): Literal {
    Str(chunk)
  }

  lemma {:induction false} VerbatimChunks(chunks: seq<string>)
    ensures DecodeChunks(chunks, Verbatim) == Ok(Some(Concat(chunks)))
    decreases |chunks|
  {
    if chunks != [] {
      VerbatimChunks(chunks[1..]);
    }
  }

  /** Cutting into chunks loses nothing: evaluating each piece verbatim gives back the unquoted path. */
  lemma ChunkingIsLossless(path: string)
    ensures DecodePath(path, Verbatim) == Ok(Some(StripQuotes(path)))
  {
    VerbatimChunks(Chunks(StripQuotes(path), ChunkSize));
  }

  /** The quotes git adds around a path come off again. */
  lemma QuotesRemoved(inner: string, q: char)
    requires IsQuote(q) && |inner| >= 2
    ensures StripQuotes([q] + inner + [q]) == inner
  {
    var s := [q] + inner + [q];
    assert s[1..|s| - 1] == inner;
  }

  /**
   * A record of two table names converts: it raises exactly what decoding
   * its path raises, and otherwise gives the changes of its changed sides.
   */
  lemma TableRecord(path: string, ks: nat, ku: nat, decode: Decoder)
    requires ks < |ChangedStatus.Table| && ku < |ChangedStatus.Table|
    ensures var r := ParseChangeRecord([path, ChangedStatus.Table[ks].0, ChangedStatus.Table[ku].0], decode);
            && (r.Ok? <==> DecodePath(path, decode).Ok?)
            && (r.Err? ==> r == Err(DecodePath(path, decode).error))
            && (DecodePath(path, decode).Ok? && DecodePath(path, decode).value.Some? ==>
                  r.value == Expand(DecodePath(path, decode).value.value, ChangedStatus.Table[ks].1, ChangedStatus.Table[ku].1))
  {
    ChangedStatus.FromStringOfName(ks);
    ChangedStatus.FromStringOfName(ku);
  }

  /** A record with states from the status map raises only when evaluating its path raises. */
  lemma KnownRecordsConvert(rec: GitStatus.StatusRecord, decode: Decoder)
    requires GitStatus.KnownRecord(rec)
    ensures ParseChangeRecord(Fields(rec), decode).Ok? <==> DecodePath(rec.path, decode).Ok?
    ensures ParseChangeRecord(Fields(rec), decode).Err? ==>
              ParseChangeRecord(Fields(rec), decode).error == DecodePath(rec.path, decode).error
  {
    var ks :| 0 <= ks < |ChangedStatus.Table| && ChangedStatus.Table[ks].0 == rec.staged;
    var ku :| 0 <= ku < |ChangedStatus.Table| && ChangedStatus.Table[ku].0 == rec.unstaged;
    TableRecord(rec.path, ks, ku, decode);
  }

  /**
   * The state names `get_git_status` writes never make `changes` raise:
   * over its records, `changes` raises exactly when evaluating some path
   * raises.
   */
  lemma StatusRecordsRaiseOnlyOnPaths(recs: seq<GitStatus.StatusRecord>, decode: Decoder)
    requires forall k :: 0 <= k < |recs| ==> GitStatus.KnownRecord(recs[k])
    ensures Changes(Some(seq(|recs|, k requires 0 <= k < |recs| => Fields(recs[k]))), decode).Ok?
            <==> forall k :: 0 <= k < |recs| ==> DecodePath(recs[k].path, decode).Ok?
  {
    var fs := seq(|recs|, k requires 0 <= k < |recs| => Fields(recs[k]));
    forall j | 0 <= j < |fs|
      ensures ParseChangeRecord(fs[j], decode).Ok? <==> DecodePath(recs[j].path, decode).Ok?
    {
      KnownRecordsConvert(recs[j], decode);
    }
  }

  /**
   * A path whose chunks all evaluate, one of them to a value that is not a
   * string, makes the record raise `TypeError` from the join.
   */
  lemma NonTextPathRaises(record: seq<string>, decode: Decoder, i: nat)
    requires |record| == 3
    requires ChangedStatus.FromString(record[1]).Ok? && ChangedStatus.FromString(record[2]).Ok?
    requires var chunks := Chunks(StripQuotes(record[0]), ChunkSize);
             && (forall j :: 0 <= j < |chunks| ==> decode(chunks[j]).Evaluated())
             && i < |chunks| && decode(chunks[i]).NonStr?
    ensures ParseChangeRecord(record, decode) == Err(NotText)
  {
    DecodeChunksRaises(Chunks(StripQuotes(record[0]), ChunkSize), decode);
  }

  /** A short path between double quotes is evaluated as one chunk, without its quotes. */
  lemma QuotedChunk(path: string, inner: string)
    requires 2 <= |inner| <= ChunkSize && path == ['"'] + inner + ['"']
    ensures Chunks(StripQuotes(path), ChunkSize) == [inner]
  {
    assert path[1..|path| - 1] == inner;
  }

  /** The path `a','b` between git's quotes: its one chunk reads as a tuple, so the record raises. */
  lemma TuplePathRaises(decode: Decoder)
    requires decode("a','b") == NonStr
    ensures ParseChangeRecord(["\"a','b\"", "MODIFIED", "UNCHANGED"], decode) == Err(NotText)
  {
    var record := ["\"a','b\"", "MODIFIED", "UNCHANGED"];
    QuotedChunk(record[0], "a','b");
    TuplePathStates(record);
    OneChunkNonText(record, decode, "a','b");
  }

  /** A path read as a single chunk that is not a string makes the record raise. */
  lemma OneChunkNonText(record: seq<string>, decode: Decoder, chunk: string)
    requires |record| == 3
    requires ChangedStatus.FromString(record[1]).Ok? && ChangedStatus.FromString(record[2]).Ok?
    requires Chunks(StripQuotes(record[0]), ChunkSize) == [chunk] && decode(chunk) == NonStr
    ensures ParseChangeRecord(record, decode) == Err(NotText)
  {
    NonTextPathRaises(record, decode, 0);
  }

  /** The states of the tuple example are table names. */
  lemma TuplePathStates(record: seq<string>)
    requires record == ["\"a','b\"", "MODIFIED", "UNCHANGED"]
    ensures ChangedStatus.FromString(record[1]).Ok? && ChangedStatus.FromString(record[2]).Ok?
  {
    ChangedStatus.FromStringOfName(3);
    ChangedStatus.FromStringOfName(0);
  }


  /** An unquoted path evaluated verbatim, with two table names. */
  lemma ReadTableRecord(path: string, ks: nat, ku: nat, staged: string, unstaged: string)
    requires |path| <= 3 || !IsQuote(path[0])
    requires ks < |ChangedStatus.Table| && ku < |ChangedStatus.Table|
    requires ChangedStatus.Table[ks].0 == staged && ChangedStatus.Table[ku].0 == unstaged
    ensures ParseChangeRecord([path, staged, unstaged], Verbatim)
            == Ok(Expand(path, ChangedStatus.Table[ks].1, ChangedStatus.Table[ku].1))
  {
    ChunkingIsLossless(path);
    TableRecord(path, ks, ku, Verbatim);
  }

  /** An untracked file (`??`) gives one unstaged addition. */
  lemma UntrackedIsUnstagedAddition(path: string)
    requires |path| <= 3 || !IsQuote(path[0])
    ensures ParseChangeRecord([path, "UNCHANGED", "ADDED"], Verbatim)
            == Ok([FileChange(path, ChangedStatus.ADDED, false)])
  {
    ReadTableRecord(path, 0, 1, "UNCHANGED", "ADDED");
    assert Expand(path, 0, 1) == [FileChange(path, ChangedStatus.ADDED, false)];
  }

  /** A file staged as modified and otherwise unchanged (`M `) gives one staged modification. */
  lemma StagedModification(path: string)
    requires |path| <= 3 || !IsQuote(path[0])
    ensures ParseChangeRecord([path, "MODIFIED", "UNCHANGED"], Verbatim)
            == Ok([FileChange(path, ChangedStatus.MODIFIED, true)])
  {
    ReadTableRecord(path, 3, 0, "MODIFIED", "UNCHANGED");
    assert Expand(path, 3, 0) == [FileChange(path, ChangedStatus.MODIFIED, true)];
  }

  /** A path whose evaluation fails contributes nothing, whatever its states. */
  lemma DecodeFailureGivesNothing(record: seq<string>, decode: Decoder)
    requires |record| == 3 && DecodePath(record[0], decode) == Ok(None)
    requires ChangedStatus.FromString(record[1]).Ok? && ChangedStatus.FromString(record[2]).Ok?
    ensures ParseChangeRecord(record, decode) == Ok([])
  {
  }

  /**
   * With both sides changed, `change()` answers the side asked for:
   * the unstaged change when `prefer_unstaged`, the staged one otherwise.
   */
  lemma PreferredSide(record: seq<string>, rest: seq<seq<string>>, preferUnstaged: bool, decode: Decoder)
    requires ParseChangeRecord(record, decode).Ok? && |ParseChangeRecord(record, decode).value| == 2
    ensures Change(Some([record] + rest), preferUnstaged, decode).Ok?
    ensures var c := Change(Some([record] + rest), preferUnstaged, decode).value;
            c.Some? && c.value.staged == !preferUnstaged
  {
    assert ([record] + rest)[0] == record;
  }

  /** Whatever `change()` reports is one of the changes the `changes` property lists. */
  lemma ChangeIsAmongChanges(fs: seq<seq<string>>, preferUnstaged: bool, decode: Decoder)
    requires Changes(Some(fs), decode).Ok?
    requires Change(Some(fs), preferUnstaged, decode).Ok? && Change(Some(fs), preferUnstaged, decode).value.Some?
    ensures Change(Some(fs), preferUnstaged, decode).value.value in Changes(Some(fs), decode).value
  {
    PickedIsCollected(ParseAll(fs, decode), preferUnstaged);
  }

  /** The change picked from the records' parses is among their concatenation. */
  lemma PickedIsCollected(ps: seq<Result<seq<FileChange>, Errors.Exception>>, preferUnstaged: bool)
    requires forall k :: 0 <= k < |ps| ==> ps[k].Ok? ==> |ps[k].value| <= 2
    requires Collect(ps).Ok?
    requires PickFrom(ps, 0, preferUnstaged).Ok? && PickFrom(ps, 0, preferUnstaged).value.Some?
    ensures PickFrom(ps, 0, preferUnstaged).value.value in Collect(ps).value
  {
    var c := PickFrom(ps, 0, preferUnstaged).value.value;
    var k :| 0 <= k < |ps| && ps[k].Ok? && Picked(ps[k].value, preferUnstaged, c);
    assert c in ps[k].value;
  }

  /** The as-written failure branch never produces a VCS error; the corrected one always does. */
  lemma ChangeFailureRaisesTypeError(preferUnstaged: bool, decode: Decoder)
    ensures ChangeAsWritten(None, preferUnstaged, decode) == Err(Errors.Foreign("TypeError"))
    ensures !Errors.IsInstance(ChangeAsWritten(None, preferUnstaged, decode).error, Errors.VCSError)
    ensures Errors.IsInstance(Change(None, preferUnstaged, decode).error, Errors.VCSError)
  {
    Errors.Hierarchy(Errors.VCSUnexpectedError);
  }
}

=== FILE: changed_status.dfy ===
/**
 * The change-state code table of `ChangedStatus`: a fixed list of upper-case
 * names bound to small integers, with `EDITED` an alias of `MODIFIED`.
 * `from_string` looks a name up case-insensitively; `to_string` returns the
 * lower-cased first declared name carrying a code.
 */
module ChangedStatus {
  import opened Wrappers
  import Text

  const UNCHANGED := 0
  const ADDED := 1
  const REMOVED := 2
  const MODIFIED := 3
  const EDITED := 3
  const RENAMED := 10
  const COPIED := 11
  const IGNORED := 98
  const UNKNOWN := 99

  /**
   * The int-valued class attributes in declaration order, which is the order
   * `vars(cls)` lists them in. The class's other attributes (its module
   * name, docstring and the two class methods) are never ints.
   */
  const Table: seq<(string, int)> := [
    ("UNCHANGED", UNCHANGED),
    ("ADDED", ADDED),
    ("REMOVED", REMOVED),
    ("MODIFIED", MODIFIED),
    ("EDITED", EDITED),
    ("RENAMED", RENAMED),
    ("COPIED", COPIED),
    ("IGNORED", IGNORED),
    ("UNKNOWN", UNKNOWN)
  ]

  /** `name` is an int-valued attribute of the class. */
  predicate IsName(name: string) {
    exists k :: 0 <= k < |Table| && Table[k].0 == name
  }

  /** `code` is the value of some attribute of the table. */
  predicate IsCode(code: int) {
    exists k :: 0 <= k < |Table| && Table[k].1 == code
  }

  function LookupName(name: string, k: nat): (r: Option<int>)
    requires k <= |Table|
    ensures r.Some? <==> exists j :: k <= j < |Table| && Table[j].0 == name
    ensures r.Some? ==> exists j :: k <= j < |Table| && Table[j] == (name, r.value)
    decreases |Table| - k
  {
    if k == |Table| then None
    else if Table[k].0 == name then Some(Table[k].1)
    else LookupName(name, k + 1)
  }

  function LookupCode(code: int, k: nat): (r: Option<nat>)
    requires k <= |Table|
    ensures r.Some? ==> k <= r.value < |Table| && Table[r.value].1 == code
    ensures r.Some? ==> forall j :: k <= j < r.value ==> Table[j].1 != code
    ensures r.None? ==> forall j :: k <= j < |Table| ==> Table[j].1 != code
    decreases |Table| - k
  {
    if k == |Table| then None
    else if Table[k].1 == code then Some(k)
    else LookupCode(code, k + 1)
  }

  /**
   * `ChangedStatus.from_string`: the code of the attribute named by the
   * upper-cased input, or the `AttributeError` message.
   */
  function FromString(state: string): (r: Result<int, string>)
    ensures r.Ok? <==> IsName(Text.Upper(state))
    ensures r.Ok? ==> exists k :: 0 <= k < |Table| && Table[k] == (Text.Upper(state), r.value)
    ensures r.Err? ==> r.error == "Given state " + state + " does not exists"
  {
    match LookupName(Text.Upper(state), 0)
    case Some(code) => Ok(code)
    case None => Err("Given state " + state + " does not exists")
  }

  /**
   * `ChangedStatus.to_string`: the lower-cased name of the FIRST declared
   * attribute whose value is `state`, or the `AttributeError` message.
   */
  function ToString(state: int): (r: Result<string, string>)
    ensures r.Ok? <==> IsCode(state)
    ensures r.Ok? ==> exists k :: (0 <= k < |Table| && Table[k].1 == state && r.value == Text.Lower(Table[k].0)
                                   && forall j :: 0 <= j < k ==> Table[j].1 != state)
    ensures r.Err? ==> r.error == "Given state " + Text.IntToString(state) + " does not exists"
  {
    match LookupCode(state, 0)
    case Some(k) => Ok(Text.Lower(Table[k].0))
    case None => Err("Given state " + Text.IntToString(state) + " does not exists")
  }

  // ---------------------------------------------------------------------------
  // Properties
  // ---------------------------------------------------------------------------

  /** No lower-case ASCII letter in `s`. */
  predicate NoLowerCase(s: string) {
    forall i :: 0 <= i < |s| ==> !('a' <= s[i] <= 'z')
  }

  lemma UpperOfLower(s: string)
    requires NoLowerCase(s)
    ensures Text.Upper(Text.Lower(s)) == s
  {
    var r := Text.Upper(Text.Lower(s));
    assert |r| == |s|;
    forall i | 0 <= i < |s| ensures r[i] == s[i] {
    }
  }

  lemma TableShape()
    ensures forall k :: 0 <= k < |Table| ==> NoLowerCase(Table[k].0)
    ensures forall j, k :: 0 <= j < k < |Table| ==> Table[j].0 != Table[k].0
    ensures forall j, k :: 0 <= j < k < |Table| && Table[j].1 == Table[k].1 ==> j == 3 && k == 4
  {
  }

  /** Upper-casing `s` gives `t`, checked character by character. */
  lemma UpperIs(s: string, t: string)
    requires |s| == |t| && forall i :: 0 <= i < |s| ==> Text.UpperChar(s[i]) == t[i]
    ensures Text.Upper(s) == t
  {
  }

  /** An input whose upper-cased form is the k-th name converts to the k-th code. */
  lemma FromStringOfUpper(state: string, k: nat)
    requires k < |Table| && Text.Upper(state) == Table[k].0
    ensures FromString(state) == Ok(Table[k].1)
  {
    TableShape();
    var r := FromString(state);
    var j :| 0 <= j < |Table| && Table[j] == (Text.Upper(state), r.value);
    assert j == k;
  }

  /** An input whose upper-cased form names no attribute is refused. */
  lemma FromStringOfUnlisted(state: string)
    requires forall k :: 0 <= k < |Table| ==> Table[k].0 != Text.Upper(state)
    ensures FromString(state).Err?
  {
  }

  lemma FromStringAdded()
    ensures FromString("added") == Ok(ADDED)
  {
    UpperIs("added", "ADDED");
    FromStringOfUpper("added", 1);
  }

  lemma FromStringCapitalised()
    ensures FromString("Added") == Ok(ADDED)
  {
    UpperIs("Added", "ADDED");
    FromStringOfUpper("Added", 1);
  }

  lemma FromStringUpperCase()
    ensures FromString("ADDED") == Ok(ADDED)
  {
    UpperIs("ADDED", "ADDED");
    FromStringOfUpper("ADDED", 1);
  }

  lemma FromStringEdited()
    ensures FromString("edited") == Ok(MODIFIED)
  {
    UpperIs("edited", "EDITED");
    FromStringOfUpper("edited", 4);
  }

  /** The lookup ignores case: "added", "Added" and "ADDED" all give 1, and "edited" gives 3. */
  lemma FromStringIgnoresCase()
    ensures FromString("added") == Ok(ADDED)
    ensures FromString("Added") == Ok(ADDED)
    ensures FromString("ADDED") == Ok(ADDED)
    ensures FromString("edited") == Ok(MODIFIED)
  {
    FromStringAdded();
    FromStringCapitalised();
    FromStringUpperCase();
    FromStringEdited();
  }

  /** Every name has five to nine letters, and the only nine-letter one starts with 'U'. */
  lemma NameLengths()
    ensures forall k :: 0 <= k < |Table| ==> 5 <= |Table[k].0| <= 9
    ensures forall k :: 0 <= k < |Table| && |Table[k].0| == 9 ==> Table[k].0[0] == 'U'
  {
  }

  lemma FromStringRefusesMethodName()
    ensures FromString("from_string").Err?
  {
    NameLengths();
    assert |Text.Upper("from_string")| == 11;
    FromStringOfUnlisted("from_string");
  }

  lemma FromStringRefusesOtherMethodName()
    ensures FromString("to_string").Err?
  {
    var t := Text.Upper("to_string");
    assert t[0] == Text.UpperChar('t') == 'T';
    NameLengths();
    FromStringOfUnlisted("to_string");
  }

  lemma FromStringRefusesEmpty()
    ensures FromString("").Err?
  {
    NameLengths();
    FromStringOfUnlisted("");
  }

  /** Attributes that are not int constants, such as the class methods, are refused. */
  lemma FromStringRefusesNonConstants()
    ensures FromString("from_string").Err?
    ensures FromString("to_string").Err?
    ensures FromString("").Err?
  {
    FromStringRefusesMethodName();
    FromStringRefusesOtherMethodName();
    FromStringRefusesEmpty();
  }

  /** Every code converts to a name that converts back to the same code. */
  lemma CodeRoundTrip(code: int)
    requires IsCode(code)
    ensures ToString(code).Ok?
    ensures FromString(ToString(code).value) == Ok(code)
  {
    var k := LookupCode(code, 0).value;
    var name := Text.Lower(Table[k].0);
    assert ToString(code) == Ok(name);
    NoLowerCaseName(k);
    UpperOfLower(Table[k].0);
    FromStringOfUpper(name, k);
  }

  lemma NoLowerCaseName(k: nat)
    requires k < |Table|
    ensures NoLowerCase(Table[k].0)
  {
    TableShape();
  }

  /** The codes are exactly 0, 1, 2, 3, 10, 11, 98 and 99; any other int is refused. */
  lemma Codes(code: int)
    ensures IsCode(code) <==> code in {0, 1, 2, 3, 10, 11, 98, 99}
    ensures !IsCode(code) ==> ToString(code).Err?
  {
    if code in {0, 1, 2, 3, 10, 11, 98, 99} {
      var k := if code == 0 then 0 else if code == 1 then 1 else if code == 2 then 2
        else if code == 3 then 3 else if code == 10 then 5 else if code == 11 then 6
        else if code == 98 then 7 else 8;
      assert Table[k].1 == code;
    }
  }

  lemma LowerModified()
    ensures Text.Lower("MODIFIED") == "modified"
  {
  }

  /** The alias never comes back: code 3 prints as "modified", the first name declared for it. */
  lemma AliasPrintsAsFirstName()
    ensures ToString(MODIFIED) == Ok("modified")
    ensures FromString("edited") == Ok(MODIFIED)
  {
    assert Table[3] == ("MODIFIED", MODIFIED);
    ToStringOfEntry(3);
    assert ToString(MODIFIED) == Ok(Text.Lower("MODIFIED"));
    LowerModified();
    FromStringEdited();
  }

  /**
   * A known name converts to a code that prints as the lower-cased name,
   * except for the alias "edited", which prints as "modified".
   */
  lemma NameRoundTrip(name: string)
    requires IsName(Text.Upper(name))
    ensures FromString(name).Ok? && ToString(FromString(name).value).Ok?
    ensures Text.Upper(name) != "EDITED" ==> ToString(FromString(name).value) == Ok(Text.Lower(name))
    ensures Text.Upper(name) == "EDITED" ==> ToString(FromString(name).value) == Ok("modified")
  {
    var k :| 0 <= k < |Table| && Table[k].0 == Text.Upper(name);
    FromStringOfUpper(name, k);
    ToStringOfEntry(k);
    EditedIsFifth(k);
    if k != 4 {
      Text.LowerOfUpper(name);
      assert ToString(FromString(name).value) == Ok(Text.Lower(Table[k].0));
    }
  }

  /** "EDITED" is the fifth name and no other. */
  lemma EditedIsFifth(k: nat)
    requires k < |Table|
    ensures Table[k].0 == "EDITED" <==> k == 4
  {
    assert Table[4].0 == "EDITED";
    if k != 4 {
      NamesDistinct(k, 4);
    }
  }

  lemma NamesDistinct(j: nat, k: nat)
    requires j < |Table| && k < |Table| && j != k
    ensures Table[j].0 != Table[k].0
  {
    TableShape();
  }

  /** The k-th code prints as the k-th name lower-cased, except the alias's, which prints as "modified". */
  lemma ToStringOfEntry(k: nat)
    requires k < |Table|
    ensures k != 4 ==> ToString(Table[k].1) == Ok(Text.Lower(Table[k].0))
    ensures k == 4 ==> ToString(Table[k].1) == Ok("modified")
  {
    TableShape();
    var c := LookupCode(Table[k].1, 0).value;
    if k == 4 {
      assert c == 3;
      LowerModified();
    } else {
      assert c == k;
    }
  }

  lemma UpperOfUpperCase(s: string)
    requires NoLowerCase(s)
    ensures Text.Upper(s) == s
  {
    var r := Text.Upper(s);
    assert |r| == |s|;
    forall i | 0 <= i < |s| ensures r[i] == s[i] {
    }
  }

  /** Every declared name converts to its own code. */
  lemma FromStringOfName(k: nat)
    requires k < |Table|
    ensures FromString(Table[k].0) == Ok(Table[k].1)
  {
    TableShape();
    UpperOfUpperCase(Table[k].0);
    var r := FromString(Table[k].0);
    var j :| 0 <= j < |Table| && Table[j] == (Table[k].0, r.value);
    assert j == k;
  }
}

=== FILE: errors.dfy ===
/**
 * The VCS error taxonomy: a base error carrying an optional formatted message
 * and an optional raw tool message, and four subclasses (unexpected failure,
 * property failure, backend unavailable, authentication failure).
 *
 * Python forwards each subclass's leftover arguments to the base initialiser
 * `VCSError.__init__(error=None, raw_error=None)`. That binding is modelled
 * explicitly by `BindBase`, because passing a positional message together
 * with an `error=` keyword is a `TypeError` rather than an error object.
 */
module Errors {
  import opened Wrappers
  import Text

  /** The credential attributes an authentication error can carry. */
  datatype CredentialField = Username | Password | Email | Token

  /** Subclass-specific attributes; `None` for an attribute never set. */
  datatype Kind =
    | Base
    | Unexpected(methodName: Option<string>)
    | Property(name: string, operation: Option<string>)
    | BackendFail(directory: string, backendType: string, programs: seq<string>,
                  modules: seq<string>, isValidRepository: bool)
    | Auth(requiredCredentials: seq<CredentialField>, username: Option<string>,
           password: Option<string>, email: Option<string>, token: Option<string>)

  /** A `VCSError` instance: the exception's `args`, its two messages, and its subclass part. */
  datatype VcsError = VcsError(args: seq<string>, error: Option<string>, rawError: Option<string>, kind: Kind)

  /** What the source can raise: a VCS error, or an exception of another class (by name). */
  datatype Exception = Vcs(err: VcsError) | Foreign(className: string)

  /** The exception classes of the taxonomy. */
  datatype ErrorClass = VCSError | VCSUnexpectedError | VCSPropertyError | VCSBackendFail | VCSAuthError

  /** The direct base class of each class; `VCSError` derives from `Exception` only. */
  function Parent(c: ErrorClass): Option<ErrorClass> {
    if c == VCSError then None else Some(VCSError)
  }

  function ClassOf(e: VcsError): ErrorClass {
    match e.kind
    case Base => VCSError
    case Unexpected(_) => VCSUnexpectedError
    case Property(_, _) => VCSPropertyError
    case BackendFail(_, _, _, _, _) => VCSBackendFail
    case Auth(_, _, _, _, _) => VCSAuthError
  }

  /** `issubclass(c, d)`: `d` is `c` or one of its ancestors. */
  predicate IsSubclass(c: ErrorClass, d: ErrorClass) {
    c == d || (Parent(c).Some? && Parent(c).value == d)
  }

  /** `isinstance(x, cls)` for an exception and a class of the taxonomy. */
  predicate IsInstance(x: Exception, cls: ErrorClass) {
    x.Vcs? && IsSubclass(ClassOf(x.err), cls)
  }

  /** Every class of the taxonomy is a `VCSError`, and only `VCSError` is its own root. */
  lemma Hierarchy(c: ErrorClass)
    ensures IsSubclass(c, VCSError)
    ensures IsSubclass(VCSError, c) <==> c == VCSError
  {
  }

  /** Python truthiness of an optional string: present and non-empty. */
  predicate Truthy(s: Option<string>) {
    s.Some? && s.value != ""
  }

  /** The arguments a subclass forwards to `VCSError.__init__`: positionals, then the two keywords if given. */
  datatype Forwarded = Forwarded(positional: seq<Option<string>>,
                                 errorKw: Option<Option<string>>,
                                 rawErrorKw: Option<Option<string>>)

  /** Only keyword arguments, as almost every raise site passes them. */
  function Keywords(error: Option<string>, rawError: Option<string>): Forwarded {
    Forwarded([], Some(error), Some(rawError))
  }

  /**
   * Python's binding of forwarded arguments to `(error=None, raw_error=None)`:
   * at most two positionals, and no parameter given both positionally and by
   * keyword; otherwise a `TypeError` (its message here).
   */
  function BindBase(f: Forwarded): (r: Result<(Option<string>, Option<string>), string>)
    ensures r.Err? <==> |f.positional| > 2 || (|f.positional| >= 1 && f.errorKw.Some?)
                        || (|f.positional| >= 2 && f.rawErrorKw.Some?)
    ensures r.Ok? && |f.positional| >= 1 ==> r.value.0 == f.positional[0]
    ensures r.Ok? && |f.positional| == 0 ==> r.value.0 == f.errorKw.GetOr(None)
    ensures r.Ok? && |f.positional| == 2 ==> r.value.1 == f.positional[1]
    ensures r.Ok? && |f.positional| < 2 ==> r.value.1 == f.rawErrorKw.GetOr(None)
  {
    var n := |f.positional|;
    if n > 2 then Err("TypeError: __init__() takes from 1 to 3 positional arguments")
    else if n >= 1 && f.errorKw.Some? then Err("TypeError: __init__() got multiple values for argument 'error'")
    else if n >= 2 && f.rawErrorKw.Some? then Err("TypeError: __init__() got multiple values for argument 'raw_error'")
    else
      var error := if n >= 1 then f.positional[0] else f.errorKw.GetOr(None);
      var rawError := if n >= 2 then f.positional[1] else f.rawErrorKw.GetOr(None);
      Ok((error, rawError))
  }

  /** The exception's `args`: `error`, then `raw_error`, each only when truthy. */
  function ArgsOf(error: Option<string>, rawError: Option<string>): (args: seq<string>)
    ensures |args| <= 2
    ensures |args| == (if Truthy(error) then 1 else 0) + (if Truthy(rawError) then 1 else 0)
    ensures Truthy(error) ==> args[0] == error.value
    ensures Truthy(rawError) ==> args[|args| - 1] == rawError.value
  {
    (if Truthy(error) then [error.value] else []) + (if Truthy(rawError) then [rawError.value] else [])
  }

  /** `VCSError.__init__` followed by the subclass's own attributes. */
  function Build(f: Forwarded, kind: Kind): (r: Result<VcsError, string>)
    ensures r.Ok? <==> BindBase(f).Ok?
    ensures r.Ok? ==> r.value.kind == kind && r.value.error == BindBase(f).value.0
                      && r.value.rawError == BindBase(f).value.1
                      && r.value.args == ArgsOf(r.value.error, r.value.rawError)
  {
    match BindBase(f)
    case Ok((error, rawError)) => Ok(VcsError(ArgsOf(error, rawError), error, rawError, kind))
    case Err(msg) => Err(msg)
  }

  /** `VCSError(error, raw_error)`. */
  function NewVcsError(error: Option<string>, rawError: Option<string>): (e: VcsError)
    ensures e.kind == Base && e.error == error && e.rawError == rawError
    ensures e.args == ArgsOf(error, rawError)
  {
    VcsError(ArgsOf(error, rawError), error, rawError, Base)
  }

  /** `VCSUnexpectedError(*args, method=method, **kwargs)`. */
  function NewUnexpected(f: Forwarded, methodName: Option<string>): (r: Result<VcsError, string>)
    ensures r.Ok? <==> BindBase(f).Ok?
    ensures f.positional == [] ==> r.Ok?
    ensures r.Ok? ==> IsInstance(Vcs(r.value), VCSUnexpectedError) && r.value.kind.methodName == methodName
                      && r.value.error == BindBase(f).value.0 && r.value.rawError == BindBase(f).value.1
  {
    Build(f, Unexpected(methodName))
  }

  predicate IsF(c: char) {
    c == 'f'
  }

  /**
   * `VCSPropertyError.__init__`'s normalisation of `operation`: leading 'f'
   * characters are stripped ("fget" becomes "get"), and the attribute is set
   * only when the result is "get", "set" or "del".
   */
  function NormaliseOperation(operation: string): (r: Option<string>)
    ensures r.Some? ==> r.value in {"get", "set", "del"}
    ensures r.Some? <==> Text.LStripBy(operation, IsF) in {"get", "set", "del"}
    ensures r.Some? ==> r.value == Text.LStripBy(operation, IsF)
  {
    var op := Text.LStripBy(operation, IsF);
    if op in {"get", "set", "del"} then Some(op) else None
  }

  /** `VCSPropertyError(name, operation, *args, **kwargs)`. */
  function NewProperty(name: string, operation: string, f: Forwarded): (r: Result<VcsError, string>)
    ensures r.Ok? <==> BindBase(f).Ok?
    ensures r.Ok? ==> IsInstance(Vcs(r.value), VCSPropertyError) && r.value.kind.name == name
                      && r.value.kind.operation == NormaliseOperation(operation)
    ensures r.Ok? && r.value.kind.operation.Some? ==> r.value.kind.operation.value in {"get", "set", "del"}
  {
    Build(f, Property(name, NormaliseOperation(operation)))
  }

  /** `VCSBackendFail(directory, backend_type, *args, programs=(), modules=(), is_valid_repository=True, **kwargs)`. */
  function NewBackendFail(directory: string, backendType: string, f: Forwarded,
                          programs: seq<string>, modules: seq<string>, isValidRepository: bool): (r: Result<VcsError, string>)
    ensures r.Ok? <==> BindBase(f).Ok?
    ensures r.Ok? ==> IsInstance(Vcs(r.value), VCSBackendFail) && r.value.kind.directory == directory
                      && r.value.kind.backendType == backendType && r.value.kind.isValidRepository == isValidRepository
    ensures r.Ok? ==> (MissingDependencies(r.value) <==> programs != [] || modules != [])
  {
    Build(f, BackendFail(directory, backendType, programs, modules, isValidRepository))
  }

  /** `VCSAuthError(required_credentials, *args, username=None, ..., **kwargs)`. */
  function NewAuth(required: seq<CredentialField>, f: Forwarded, username: Option<string>,
                   password: Option<string>, email: Option<string>, token: Option<string>): (r: Result<VcsError, string>)
    ensures r.Ok? <==> BindBase(f).Ok?
    ensures r.Ok? ==> IsInstance(Vcs(r.value), VCSAuthError) && r.value.kind.requiredCredentials == required
    ensures r.Ok? ==> CredentialValue(r.value, Username) == username && CredentialValue(r.value, Password) == password
                      && CredentialValue(r.value, Email) == email && CredentialValue(r.value, Token) == token
  {
    Build(f, Auth(required, username, password, email, token))
  }

  /** `VCSBackendFail.missing_dependencies`: some program or module is listed. */
  function MissingDependencies(e: VcsError): (r: bool)
    requires e.kind.BackendFail?
    ensures r <==> |e.kind.programs| > 0 || |e.kind.modules| > 0
  {
    e.kind.programs != [] || e.kind.modules != []
  }

  /** The value `getattr(self, key, None)` finds for a credential field of an authentication error. */
  function CredentialValue(e: VcsError, field: CredentialField): Option<string>
    requires e.kind.Auth?
  {
    match field
    case Username => e.kind.username
    case Password => e.kind.password
    case Email => e.kind.email
    case Token => e.kind.token
  }

  /**
   * `VCSAuthError.are_credentials_inserted`, as the code computes it: true
   * exactly when EVERY required credential is unset (None). This is the
   * opposite of what its docstring promises.
   */
  function CredentialsInserted(e: VcsError): (r: bool)
    requires e.kind.Auth?
    ensures r <==> forall i :: 0 <= i < |e.kind.requiredCredentials| ==>
                     CredentialValue(e, e.kind.requiredCredentials[i]).None?
  {
    AllUnset(e, e.kind.requiredCredentials)
  }

  function AllUnset(e: VcsError, fields: seq<CredentialField>): (r: bool)
    requires e.kind.Auth?
    ensures r <==> forall i :: 0 <= i < |fields| ==> CredentialValue(e, fields[i]).None?
  {
    if fields == [] then true
    else CredentialValue(e, fields[0]).None? && AllUnset(e, fields[1..])
  }

  /**
   * `VCSAuthError.are_credentials_inserted` as its docstring promises: true
   * exactly when every required credential is set.
   */
  function CredentialsPresent(e: VcsError): (r: bool)
    requires e.kind.Auth?
    ensures r <==> forall i :: 0 <= i < |e.kind.requiredCredentials| ==>
                     CredentialValue(e, e.kind.requiredCredentials[i]).Some?
  {
    AllSet(e, e.kind.requiredCredentials)
  }

  function AllSet(e: VcsError, fields: seq<CredentialField>): (r: bool)
    requires e.kind.Auth?
    ensures r <==> forall i :: 0 <= i < |fields| ==> CredentialValue(e, fields[i]).Some?
  {
    if fields == [] then true
    else CredentialValue(e, fields[0]).Some? && AllSet(e, fields[1..])
  }

  // ---------------------------------------------------------------------------
  // Properties
  // ---------------------------------------------------------------------------

  /** The `args` of an error built from keywords only: `[error]` then `[raw_error]`, each only when truthy. */
  lemma KeywordConstruction(error: Option<string>, rawError: Option<string>, kind: Kind)
    ensures Build(Keywords(error, rawError), kind).Ok?
    ensures Build(Keywords(error, rawError), kind).value == VcsError(ArgsOf(error, rawError), error, rawError, kind)
    ensures !Truthy(error) && !Truthy(rawError) ==> ArgsOf(error, rawError) == []
    ensures Truthy(error) && Truthy(rawError) ==> ArgsOf(error, rawError) == [error.value, rawError.value]
  {
  }

  /** An operation not starting with 'f' is kept as it is, and so is it after one leading 'f'. */
  lemma NormaliseWithPrefix(op: string)
    requires op in {"get", "set", "del"}
    ensures NormaliseOperation(op) == Some(op)
    ensures NormaliseOperation("f" + op) == Some(op)
  {
    if op == "get" {
      assert op[0] == 'g';
    } else if op == "set" {
      assert op[0] == 's';
    } else {
      assert op[0] == 'd';
    }
    Text.LStripKeeps(op, IsF);
    assert "f" + op == ['f'] + op;
    Text.LStripDropsFirst('f', op, IsF);
  }

  /** "fget" becomes "get", "fset" becomes "set", "fdel" becomes "del", and anything else is not stored. */
  lemma OperationNormalisation()
    ensures NormaliseOperation("fget") == Some("get")
    ensures NormaliseOperation("get") == Some("get")
    ensures NormaliseOperation("fset") == Some("set")
    ensures NormaliseOperation("fdel") == Some("del")
    ensures NormaliseOperation("update") == None
  {
    NormaliseWithPrefix("get");
    NormaliseWithPrefix("set");
    NormaliseWithPrefix("del");
    assert Text.LStripBy("update", IsF) == "update";
  }

  /** A backend failure built with the defaults reports no missing dependency and a valid repository. */
  lemma BackendFailDefaults(directory: string, backendType: string)
    ensures NewBackendFail(directory, backendType, Forwarded([], None, None), [], [], true).Ok?
    ensures var e := NewBackendFail(directory, backendType, Forwarded([], None, None), [], [], true).value;
            !MissingDependencies(e) && e.kind.isValidRepository
  {
  }

  /**
   * With both required credentials inserted the check as written answers
   * false, and with none set it answers true; the corrected check answers
   * the other way round in both cases.
   */
  lemma CredentialsInsertedInverted(user: string, password: string)
    ensures var e := VcsError([], None, None, Auth([Username, Password], Some(user), Some(password), None, None));
            !CredentialsInserted(e) && CredentialsPresent(e)
    ensures var e := VcsError([], None, None, Auth([Username, Password], None, None, None, None));
            CredentialsInserted(e) && !CredentialsPresent(e)
  {
  }

  /** Whenever some credential is required, the two checks never both answer true. */
  lemma CheckedAnswersDisagree(e: VcsError)
    requires e.kind.Auth? && |e.kind.requiredCredentials| > 0
    ensures !(CredentialsInserted(e) && CredentialsPresent(e))
  {
  }
}

=== FILE: features.dfy ===
/**
 * The capability model of the backend API: the `feature` decorator that tags
 * an operation with a logical name, an enabled flag and an `extra` metadata
 * map; the class-creation hook that re-exposes a renamed feature under its
 * logical name; the base class's declared features; and the static feature
 * group table.
 */
module Features {
  import opened Wrappers
  import Text
  import Errors

  /** The metadata values the backends store in `extra`: a tuple of names, or a flag. */
  datatype Extra = Names(names: seq<string>) | Flag(flag: bool)

  /** The attributes `feature` sets on a function: `enabled` and `extra` (with `_is_feature`). */
  datatype FeatureInfo = FeatureInfo(enabled: bool, extra: map<string, Extra>)

  /** A function object: its `__name__`, and its feature attributes once decorated. */
  datatype Callable = Callable(name: string, feature: Option<FeatureInfo>)

  /** The arguments of `feature(name=None, enabled=True, extra=None)`. */
  datatype FeatureArgs = FeatureArgs(name: Option<string>, enabled: bool, extra: Option<map<string, Extra>>)

  const DefaultArgs := FeatureArgs(None, true, None)

  /**
   * `feature(...)(func)`: mark `func` as a feature with the given flag and
   * metadata (an absent `extra` becomes the empty map), and rename it only
   * when a name is given.
   */
  function Decorate(args: FeatureArgs, f: Callable): (r: Callable)
    ensures r.feature.Some?
    ensures r.feature.value.enabled == args.enabled
    ensures args.extra.Some? ==> r.feature.value.extra == args.extra.value
    ensures args.extra.None? ==> r.feature.value.extra == map[]
    ensures args.name.Some? ==> r.name == args.name.value
    ensures args.name.None? ==> r.name == f.name
  {
    var extra := match args.extra case Some(e) => e case None => map[];
    var name := match args.name case Some(n) => n case None => f.name;
    Callable(name, Some(FeatureInfo(args.enabled, extra)))
  }

  /** `@feature()` with no arguments: enabled, no metadata, name unchanged. */
  lemma DecorateDefaults(f: Callable)
    ensures Decorate(DefaultArgs, f) == Callable(f.name, Some(FeatureInfo(true, map[])))
  {
  }

  // ---------------------------------------------------------------------------
  // Re-exposing renamed features at class creation
  // ---------------------------------------------------------------------------

  /** A class attribute as `getattr(cls, key)` returns it. */
  datatype Attr = Function(fn: Callable) | Property(getter: Callable) | Data

  /**
   * `getattr(attr, "_is_feature", False)`: only decorated functions (and
   * class methods, which forward attribute lookups to their function) are
   * features; a property object is not, even when its getter is.
   */
  predicate IsFeature(a: Attr) {
    a.Function? && a.fn.feature.Some?
  }

  /** Keys the hook looks at: those not starting with an underscore. */
  predicate Scanned(key: string) {
    !Text.StartsWith(key, "_")
  }

  /** The attribute at `key` is a feature whose `__name__` differs from `key`. */
  predicate Renamed(ns: map<string, Attr>, key: string)
    requires key in ns
  {
    Scanned(key) && IsFeature(ns[key]) && ns[key].fn.name != key
  }

  /** `dir(cls)`: every attribute name of the class, in some order. */
  predicate IsListing(ns: map<string, Attr>, listing: seq<string>) {
    forall i :: 0 <= i < |listing| ==> listing[i] in ns
  }

  function ExposeFrom(ns: map<string, Attr>, listing: seq<string>, i: nat, acc: map<string, Attr>): (r: map<string, Attr>)
    requires IsListing(ns, listing) && i <= |listing|
    ensures acc.Keys <= r.Keys
    ensures forall k :: k in r && k !in acc ==> ExposedFrom(ns, listing, i, k)
    decreases |listing| - i
  {
    if i == |listing| then acc
    else
      var key := listing[i];
      if Renamed(ns, key) then ExposeFrom(ns, listing, i + 1, acc[ns[key].fn.name := ns[key]])
      else ExposeFrom(ns, listing, i + 1, acc)
  }

  /**
   * `VCSBackendBase.__init_subclass__`: for every listed key whose attribute
   * is a renamed feature, also bind that attribute under its logical name.
   * The attributes are read before any is written.
   */
  function Expose(ns: map<string, Attr>, listing: seq<string>): (r: map<string, Attr>)
    requires IsListing(ns, listing)
    ensures ns.Keys <= r.Keys
    ensures forall k :: k in r && k !in ns ==> exists j :: 0 <= j < |listing| && Renamed(ns, listing[j]) && ns[listing[j]].fn.name == k
  {
    ExposeFrom(ns, listing, 0, ns)
  }

  /** The logical names the hook binds from index `i` on. */
  predicate ExposedFrom(ns: map<string, Attr>, listing: seq<string>, i: nat, name: string)
    requires IsListing(ns, listing)
  {
    exists j :: i <= j < |listing| && Renamed(ns, listing[j]) && ns[listing[j]].fn.name == name
  }

  /** `name` holds a feature whose own name is `name`. */
  predicate BoundUnderOwnName(acc: map<string, Attr>, name: string) {
    name in acc && IsFeature(acc[name]) && acc[name].fn.name == name
  }

  lemma {:induction false} ExposeKeepsOwnNames(ns: map<string, Attr>, listing: seq<string>, i: nat,
                                               acc: map<string, Attr>, name: string)
    requires IsListing(ns, listing) && i <= |listing|
    requires BoundUnderOwnName(acc, name)
    ensures BoundUnderOwnName(ExposeFrom(ns, listing, i, acc), name)
    decreases |listing| - i
  {
    if i < |listing| {
      var key := listing[i];
      if Renamed(ns, key) {
        ExposeKeepsOwnNames(ns, listing, i + 1, acc[ns[key].fn.name := ns[key]], name);
      } else {
        ExposeKeepsOwnNames(ns, listing, i + 1, acc, name);
      }
    }
  }

  lemma {:induction false} ExposeReachesFrom(ns: map<string, Attr>, listing: seq<string>, i: nat,
                                             acc: map<string, Attr>, j: nat)
    requires IsListing(ns, listing) && i <= j < |listing|
    requires Renamed(ns, listing[j])
    ensures BoundUnderOwnName(ExposeFrom(ns, listing, i, acc), ns[listing[j]].fn.name)
    decreases |listing| - i
  {
    var key := listing[i];
    var next := if Renamed(ns, key) then acc[ns[key].fn.name := ns[key]] else acc;
    assert ExposeFrom(ns, listing, i, acc) == ExposeFrom(ns, listing, i + 1, next);
    if i == j {
      ExposeKeepsOwnNames(ns, listing, i + 1, next, ns[listing[j]].fn.name);
    } else {
      ExposeReachesFrom(ns, listing, i + 1, next, j);
    }
  }

  /**
   * After class creation, every renamed feature's logical name is bound to a
   * feature carrying that logical name.
   */
  lemma ExposedUnderLogicalName(ns: map<string, Attr>, listing: seq<string>, j: nat)
    requires IsListing(ns, listing) && j < |listing|
    requires Renamed(ns, listing[j])
    ensures BoundUnderOwnName(Expose(ns, listing), ns[listing[j]].fn.name)
  {
    ExposeReachesFrom(ns, listing, 0, ns, j);
  }

  lemma {:induction false} ExposeUniqueFrom(ns: map<string, Attr>, listing: seq<string>, i: nat,
                                            acc: map<string, Attr>, name: string, a: Attr)
    requires IsListing(ns, listing) && i <= |listing|
    requires forall j :: i <= j < |listing| && Renamed(ns, listing[j]) && ns[listing[j]].fn.name == name
               ==> ns[listing[j]] == a
    requires (name in acc && acc[name] == a) || ExposedFrom(ns, listing, i, name)
    ensures name in ExposeFrom(ns, listing, i, acc) && ExposeFrom(ns, listing, i, acc)[name] == a
    decreases |listing| - i
  {
    if i < |listing| {
      var key := listing[i];
      if Renamed(ns, key) {
        var acc' := acc[ns[key].fn.name := ns[key]];
        if ns[key].fn.name != name && !(name in acc && acc[name] == a) {
          var j :| i <= j < |listing| && Renamed(ns, listing[j]) && ns[listing[j]].fn.name == name;
          assert j != i;
        }
        ExposeUniqueFrom(ns, listing, i + 1, acc', name, a);
      } else {
        if !(name in acc && acc[name] == a) {
          var j :| i <= j < |listing| && Renamed(ns, listing[j]) && ns[listing[j]].fn.name == name;
          assert j != i;
        }
        ExposeUniqueFrom(ns, listing, i + 1, acc, name, a);
      }
    }
  }

  /** When no other renamed feature claims the same logical name, that name reaches exactly the renamed attribute. */
  lemma ExposedExactly(ns: map<string, Attr>, listing: seq<string>, j: nat)
    requires IsListing(ns, listing) && j < |listing|
    requires Renamed(ns, listing[j])
    requires forall k :: 0 <= k < |listing| && Renamed(ns, listing[k]) && ns[listing[k]].fn.name == ns[listing[j]].fn.name
               ==> ns[listing[k]] == ns[listing[j]]
    ensures ns[listing[j]].fn.name in Expose(ns, listing)
    ensures Expose(ns, listing)[ns[listing[j]].fn.name] == ns[listing[j]]
  {
    ExposeUniqueFrom(ns, listing, 0, ns, ns[listing[j]].fn.name, ns[listing[j]]);
  }

  lemma {:induction false} ExposeLeavesOthersFrom(ns: map<string, Attr>, listing: seq<string>, i: nat,
                                                  acc: map<string, Attr>, key: string)
    requires IsListing(ns, listing) && i <= |listing|
    requires !ExposedFrom(ns, listing, i, key)
    ensures key in ExposeFrom(ns, listing, i, acc) <==> key in acc
    ensures key in acc ==> ExposeFrom(ns, listing, i, acc)[key] == acc[key]
    decreases |listing| - i
  {
    if i < |listing| {
      var k := listing[i];
      if Renamed(ns, k) {
        assert ns[k].fn.name != key;
        ExposeLeavesOthersFrom(ns, listing, i + 1, acc[ns[k].fn.name := ns[k]], key);
      } else {
        ExposeLeavesOthersFrom(ns, listing, i + 1, acc, key);
      }
    }
  }

  /** Names that are no renamed feature's logical name keep their attribute, and no such name is added. */
  lemma ExposeLeavesOthers(ns: map<string, Attr>, listing: seq<string>, key: string)
    requires IsListing(ns, listing)
    requires !ExposedFrom(ns, listing, 0, key)
    ensures key in Expose(ns, listing) <==> key in ns
    ensures key in ns ==> Expose(ns, listing)[key] == ns[key]
  {
    ExposeLeavesOthersFrom(ns, listing, 0, ns, key);
  }

  // ---------------------------------------------------------------------------
  // The base class's features and the group table
  // ---------------------------------------------------------------------------

  /** `extra={"states": ()}`. */
  const NoStates: map<string, Extra> := map["states" := Names([])]

  /**
   * The features `VCSBackendBase` declares, keyed by attribute name. All are
   * disabled in the base class; property features sit on the accessor
   * functions, recorded here as `(attribute, accessor)`.
   */
  const BaseFeatures: map<(string, string), FeatureInfo> := map[
    ("create", "") := FeatureInfo(false, map[]),
    ("changes", "fget") := FeatureInfo(false, NoStates),
    ("change", "") := FeatureInfo(false, NoStates),
    ("branch", "fget") := FeatureInfo(false, map[]),
    ("branch", "fset") := FeatureInfo(false, map[]),
    ("branches", "fget") := FeatureInfo(false, map[]),
    ("editable_branches", "fget") := FeatureInfo(false, map[]),
    ("create_branch", "") := FeatureInfo(false, map[]),
    ("delete_branch", "") := FeatureInfo(false, map[]),
    ("stage", "") := FeatureInfo(false, map[]),
    ("unstage", "") := FeatureInfo(false, map[]),
    ("stage_all", "") := FeatureInfo(false, map[]),
    ("unstage_all", "") := FeatureInfo(false, map[]),
    ("commit", "") := FeatureInfo(false, map[]),
    ("fetch", "") := FeatureInfo(false, map[]),
    ("pull", "") := FeatureInfo(false, map[]),
    ("push", "") := FeatureInfo(false, map[])
  ]

  /** A member of a feature group: an operation, or one accessor of a property. */
  datatype GroupMember = Op(name: string) | Accessor(name: string, accessor: string)

  function MemberKey(m: GroupMember): (string, string) {
    match m
    case Op(n) => (n, "")
    case Accessor(n, a) => (n, a)
  }

  /** `GROUPS_MAPPING`. */
  const Groups: map<string, seq<GroupMember>> := map[
    "create" := [Op("create")],
    "status" := [Accessor("branch", "fget"), Op("change"), Accessor("changes", "fget")],
    "branches" := [Accessor("branch", "fget"), Accessor("branch", "fset"), Accessor("remote_branch", "fget"),
                   Accessor("branches", "fget"), Accessor("editable_branches", "fget"),
                   Op("create_branch"), Op("delete_branch")],
    "diff" := [],
    "stage-unstage" := [Op("stage"), Op("unstage"), Op("stage_all"), Op("unstage_all"), Op("undo_stage")],
    "commit" := [Op("commit"), Op("undo_commit")],
    "remote" := [Op("fetch"), Op("push"), Op("pull")],
    "undo" := [Op("undo_commit"), Op("undo_stage"), Op("undo_change"), Op("undo_change_all")],
    "history" := [],
    "merge" := []
  ]

  /** Group members the base class does not declare as features. */
  const UndeclaredMembers: set<(string, string)> := {
    ("remote_branch", "fget"), ("undo_stage", ""), ("undo_commit", ""), ("undo_change", ""), ("undo_change_all", "")
  }

  /** A group member the base class declares as a feature, or one of the members it leaves to backends. */
  predicate Known(m: GroupMember) {
    MemberKey(m) in BaseFeatures || MemberKey(m) in UndeclaredMembers
  }

  lemma CreateGroupKnown()
    ensures forall k :: 0 <= k < |Groups["create"]| ==> Known(Groups["create"][k])
  {
  }

  lemma StatusGroupKnown()
    ensures forall k :: 0 <= k < |Groups["status"]| ==> Known(Groups["status"][k])
  {
  }

  lemma BranchesGroupKnown()
    ensures forall k :: 0 <= k < |Groups["branches"]| ==> Known(Groups["branches"][k])
  {
  }

  lemma StageUnstageGroupKnown()
    ensures forall k :: 0 <= k < |Groups["stage-unstage"]| ==> Known(Groups["stage-unstage"][k])
  {
  }

  lemma CommitGroupKnown()
    ensures forall k :: 0 <= k < |Groups["commit"]| ==> Known(Groups["commit"][k])
  {
  }

  lemma RemoteGroupKnown()
    ensures forall k :: 0 <= k < |Groups["remote"]| ==> Known(Groups["remote"][k])
  {
  }

  lemma UndoGroupKnown()
    ensures forall k :: 0 <= k < |Groups["undo"]| ==> Known(Groups["undo"][k])
  {
  }

  /**
   * Every group member is a feature the base class declares, except
   * `remote_branch` and the four undo operations, which only concrete
   * backends may provide; and every base feature is disabled.
   */
  lemma GroupsAgainstBaseFeatures()
    ensures forall g, k :: g in Groups && 0 <= k < |Groups[g]| ==> Known(Groups[g][k])
    ensures forall key :: key in UndeclaredMembers ==> key !in BaseFeatures
    ensures forall key :: key in BaseFeatures ==> !BaseFeatures[key].enabled
  {
    GroupMembersKnown();
    UndeclaredAreNotBase();
    BaseFeaturesDisabled();
  }

  lemma UndeclaredAreNotBase()
    ensures forall key :: key in UndeclaredMembers ==> key !in BaseFeatures
  {
  }

  lemma BaseFeaturesDisabled()
    ensures forall key :: key in BaseFeatures ==> !BaseFeatures[key].enabled
  {
  }

  lemma GroupMembersKnown()
    ensures forall g, k :: g in Groups && 0 <= k < |Groups[g]| ==> Known(Groups[g][k])
  {
    forall g, k | g in Groups && 0 <= k < |Groups[g]| ensures Known(Groups[g][k]) {
      if g == "create" {
        CreateGroupKnown();
      } else if g == "status" {
        StatusGroupKnown();
      } else if g == "branches" {
        BranchesGroupKnown();
      } else if g == "stage-unstage" {
        StageUnstageGroupKnown();
      } else if g == "commit" {
        CommitGroupKnown();
      } else if g == "remote" {
        RemoteGroupKnown();
      } else if g == "undo" {
        UndoGroupKnown();
      }
    }
  }

  /**
   * The base `editable_branches` getter: whatever `branches` gives, the same
   * list or the same error.
   */
  function DefaultEditableBranches(branches: Result<seq<string>, Errors.VcsError>): (r: Result<seq<string>, Errors.VcsError>)
    ensures r.Ok? <==> branches.Ok?
    ensures r.Ok? ==> forall b :: b in r.value <==> b in branches.value
    ensures r.Ok? ==> |r.value| == |branches.value|
    ensures r.Ok? ==> r.value == branches.value
    ensures r.Err? ==> r.error == branches.error
  {
    branches
  }
}

=== FILE: git_commands.dfy ===
/**
 * The small git commands of `GitBackend` whose logic lives in the backend
 * itself rather than in git's output: `create_branch`, `delete_branch`,
 * `commit` (building git's argument list from the message) and the
 * argument check and clamping at the start of `undo_commit`.
 *
 * Running git is a parameter: a `Runner` maps the invocation (argument list
 * and the `env` argument of `_run`) to git's exit code, or to None when git
 * could not be started, which `_run` turns into `VCSBackendFail`.
 */
module GitCommands {
  import opened Wrappers
  import Text
  import Errors

  /** One call of `_run(args, env)`. */
  datatype Invocation = Invocation(args: seq<string>, env: Option<string>)

  /** Git's exit code for each invocation; None when `run_helper` could not run git. */
  type Runner = Invocation -> Option<int>

  /** The `_run` calls a command made, in order, and what it returned or raised. */
  datatype Outcome<T> = Outcome(issued: seq<Invocation>, result: Result<T, Errors.Exception>)

  /** `VCSBackendFail(self.repodir, type(self), programs=("git",))`, raised by `_run`'s integrity check. */
  function GitMissing(repodir: string): (e: Errors.VcsError)
    ensures e.kind == Errors.BackendFail(repodir, "GitBackend", ["git"], [], true)
    ensures e.args == [] && Errors.MissingDependencies(e)
  {
    Errors.NewBackendFail(repodir, "GitBackend", Errors.Forwarded([], None, None), ["git"], [], true).value
  }

  /** `self._run(args, env)[0]`: the exit code, or the integrity check's error. */
  function ExitCode(run: Runner, repodir: string, inv: Invocation): Result<int, Errors.Exception> {
    match run(inv)
    case Some(code) => Ok(code)
    case None => Err(Errors.Vcs(GitMissing(repodir)))
  }

  // ---------------------------------------------------------------------------
  // create_branch / delete_branch
  // ---------------------------------------------------------------------------

  /** `git checkout -b name` from the current branch, `git checkout --orphan name` otherwise. */
  function Checkout(name: string, fromCurrent: bool): Invocation {
    Invocation(["checkout", if fromCurrent then "-b" else "--orphan", name], None)
  }

  /** `git rm -r .`, which empties the index of a new orphan branch. */
  const RemoveAll := Invocation(["rm", "-r", "."], None)

  /**
   * `create_branch(branchname, from_current)`: the checkout, then for an
   * orphan branch only, and only when the checkout succeeded, the removal of
   * every tracked file. True exactly when each command it ran exited with 0.
   */
  function CreateBranch(run: Runner, repodir: string, name: string, fromCurrent: bool): (o: Outcome<bool>)
    ensures |o.issued| >= 1 && o.issued[0] == Checkout(name, fromCurrent)
    ensures |o.issued| == 2 <==> !fromCurrent && run(Checkout(name, fromCurrent)) == Some(0)
    ensures |o.issued| <= 2 && (|o.issued| == 2 ==> o.issued[1] == RemoveAll)
    ensures o.result == Ok(true) <==> forall k :: 0 <= k < |o.issued| ==> run(o.issued[k]) == Some(0)
    ensures o.result.Err? <==> run(o.issued[|o.issued| - 1]).None?
    ensures o.result.Err? ==> o.result.error == Errors.Vcs(GitMissing(repodir))
  {
    var checkout := Checkout(name, fromCurrent);
    match ExitCode(run, repodir, checkout)
    case Err(e) => Outcome([checkout], Err(e))
    case Ok(code) =>
      if code != 0 then Outcome([checkout], Ok(false))
      else if fromCurrent then Outcome([checkout], Ok(true))
      else
        match ExitCode(run, repodir, RemoveAll)
        case Err(e) => Outcome([checkout, RemoveAll], Err(e))
        case Ok(removed) => Outcome([checkout, RemoveAll], Ok(removed == 0))
  }

  /**
   * A branch created from the current one never touches the working tree,
   * so whatever `git rm` would do has no bearing on the result; an orphan
   * branch is created only if the tree could be emptied.
   */
  lemma CreateBranchNeedsRemovalOnlyForOrphans(run: Runner, repodir: string, name: string)
    ensures CreateBranch(run, repodir, name, true).result == Ok(true)
            <==> run(Checkout(name, true)) == Some(0)
    ensures CreateBranch(run, repodir, name, false).result == Ok(true)
            <==> run(Checkout(name, false)) == Some(0) && run(RemoveAll) == Some(0)
  {
    var o := CreateBranch(run, repodir, name, false);
    if run(Checkout(name, false)) == Some(0) {
      assert o.issued[1] == RemoveAll;
    }
  }

  /** `git branch -d name`. */
  function BranchDelete(name: string): Invocation {
    Invocation(["branch", "-d", name], None)
  }

  /** `delete_branch(branchname)`: true exactly when `git branch -d` exits with 0. */
  function DeleteBranch(run: Runner, repodir: string, name: string): (o: Outcome<bool>)
    ensures o.issued == [Invocation(["branch", "-d", name], None)]
    ensures o.result.Ok? <==> run(o.issued[0]).Some?
    ensures o.result.Ok? ==> (o.result.value <==> run(o.issued[0]) == Some(0))
    ensures o.result.Err? ==> o.result.error == Errors.Vcs(GitMissing(repodir))
  {
    var inv := BranchDelete(name);
    match ExitCode(run, repodir, inv)
    case Err(e) => Outcome([inv], Err(e))
    case Ok(code) => Outcome([inv], Ok(code == 0))
  }

  // ---------------------------------------------------------------------------
  // commit
  // ---------------------------------------------------------------------------

  /** What separates the paragraphs of a commit message. */
  const ParagraphBreak := "\n\n"

  /** `-m paragraph` for each paragraph, in order. */
  function MessageFlags(paragraphs: seq<string>): (flags: seq<string>)
    ensures |flags| == 2 * |paragraphs|
    ensures forall i :: 0 <= i < |paragraphs| ==> flags[2 * i] == "-m" && flags[2 * i + 1] == paragraphs[i]
  {
    if |paragraphs| == 0 then []
    else
      var rest := MessageFlags(paragraphs[1..]);
      var flags := ["-m", paragraphs[0]] + rest;
      forall i | 1 <= i < |paragraphs|
        ensures flags[2 * i] == "-m" && flags[2 * i + 1] == paragraphs[i]
      {
        assert flags[2 * i] == rest[2 * (i - 1)] && flags[2 * i + 1] == rest[2 * (i - 1) + 1];
        assert paragraphs[1..][i - 1] == paragraphs[i];
      }
      flags
  }

  /** The value of every `-m` flag, in order: how git reads the paragraphs back. */
  function FlagValues(flags: seq<string>): seq<string>
    decreases |flags|
  {
    if |flags| >= 2 && flags[0] == "-m" then [flags[1]] + FlagValues(flags[2..])
    else []
  }

  /** Reading the flags back gives the paragraphs they were built from. */
  lemma {:induction false} FlagValuesOfMessageFlags(paragraphs: seq<string>)
    ensures FlagValues(MessageFlags(paragraphs)) == paragraphs
    decreases |paragraphs|
  {
    if |paragraphs| > 0 {
      var flags := MessageFlags(paragraphs);
      assert flags == ["-m", paragraphs[0]] + MessageFlags(paragraphs[1..]);
      assert flags[2..] == MessageFlags(paragraphs[1..]);
      FlagValuesOfMessageFlags(paragraphs[1..]);
    }
  }

  /**
   * The argument list `commit` builds for a message given as text: "commit",
   * then `-m` and one paragraph for each piece of `message.split("\n\n")`.
   */
  function CommitArgs(message: string): (args: seq<string>)
    ensures |args| >= 3 && args[0] == "commit" && args[1] == "-m"
  {
    ["commit"] + MessageFlags(Text.Split(message, ParagraphBreak))
  }

  /**
   * Nothing of the message is lost: git receives its paragraphs in order,
   * none of them containing a paragraph break, and joining them with blank
   * lines gives the message back.
   */
  lemma CommitArgsRoundTrip(message: string)
    ensures var paragraphs := FlagValues(CommitArgs(message)[1..]);
            Text.Join(paragraphs, ParagraphBreak) == message
            && forall k :: 0 <= k < |paragraphs| ==> Text.Find(paragraphs[k], ParagraphBreak).None?
  {
    var paragraphs := Text.Split(message, ParagraphBreak);
    assert CommitArgs(message)[1..] == MessageFlags(paragraphs);
    FlagValuesOfMessageFlags(paragraphs);
  }

  /** The `_run` call of the path branch: `["commit", "-F"]`, with the path as its `env` argument. */
  function FileCommitAsWritten(path: string): Invocation {
    Invocation(["commit", "-F"], Some(path))
  }

  /** `git commit -F path`: the message read from the file. */
  function FileCommit(path: string): Invocation {
    Invocation(["commit", "-F", path], None)
  }

  /** One command whose exit status is the result: `not retcode`. */
  function Succeeds(run: Runner, repodir: string, inv: Invocation): (o: Outcome<bool>)
    ensures o.issued == [inv]
    ensures o.result == Ok(true) <==> run(inv) == Some(0)
    ensures o.result.Err? <==> run(inv).None?
    ensures o.result.Err? ==> o.result.error == Errors.Vcs(GitMissing(repodir))
  {
    match ExitCode(run, repodir, inv)
    case Err(e) => Outcome([inv], Err(e))
    case Ok(code) => Outcome([inv], Ok(code == 0))
  }

  /**
   * `commit(message, is_path)` as written. `isFile` stands for
   * `osp.isfile(message)`, consulted only when `is_path` is None. The path
   * branch passes the message as `_run`'s second positional parameter,
   * which is `env`. Starting a process with a string for its environment
   * raises `AttributeError`, which `run_helper` turns into a missing exit
   * code, so `_run` raises its integrity error and git never runs.
   */
  function CommitAsWritten(run: Runner, repodir: string, message: string, isPath: Option<bool>, isFile: bool): (o: Outcome<bool>)
    ensures isPath.GetOr(isFile) ==> o.issued == [FileCommitAsWritten(message)]
    ensures isPath.GetOr(isFile) ==> o.result == Err(Errors.Vcs(GitMissing(repodir)))
    ensures !isPath.GetOr(isFile) ==> o.issued == [Invocation(CommitArgs(message), None)]
    ensures !isPath.GetOr(isFile) ==> (o.result == Ok(true) <==> run(o.issued[0]) == Some(0))
    ensures !isPath.GetOr(isFile) ==> (o.result.Err? <==> run(o.issued[0]).None?)
    ensures o.result.Err? ==> o.result.error == Errors.Vcs(GitMissing(repodir))
  {
    if isPath.GetOr(isFile) then Outcome([FileCommitAsWritten(message)], Err(Errors.Vcs(GitMissing(repodir))))
    else Succeeds(run, repodir, Invocation(CommitArgs(message), None))
  }

  /**
   * The path never reaches git's argument list: every path gives git the
   * same arguments, `commit -F` with no file name.
   */
  lemma FileCommitDropsPath(run: Runner, repodir: string, path: string, other: string)
    ensures CommitAsWritten(run, repodir, path, Some(true), false).issued[0].args
            == CommitAsWritten(run, repodir, other, Some(true), false).issued[0].args
            == ["commit", "-F"]
    ensures path != "commit" && path != "-F" ==> path !in CommitAsWritten(run, repodir, path, Some(true), false).issued[0].args
  {
  }

  /**
   * As written, committing from a file fails with the integrity error
   * whatever git would have done; the corrected commit runs `git commit -F
   * path` and succeeds when git exits with 0.
   */
  lemma FileCommitNeverRuns(run: Runner, repodir: string, path: string)
    requires run(FileCommit(path)) == Some(0)
    ensures CommitAsWritten(run, repodir, path, Some(true), false).result.Err?
    ensures Errors.IsInstance(CommitAsWritten(run, repodir, path, Some(true), false).result.error, Errors.VCSBackendFail)
    ensures Commit(run, repodir, path, Some(true), false).result == Ok(true)
  {
  }

  /**
   * `commit(message, is_path)` with the file name passed as `-F`'s value.
   * A message given as text reaches git as its paragraphs, in order.
   */
  function Commit(run: Runner, repodir: string, message: string, isPath: Option<bool>, isFile: bool): (o: Outcome<bool>)
    ensures |o.issued| == 1 && o.issued[0].env.None?
    ensures isPath.GetOr(isFile) ==> o.issued[0].args == ["commit", "-F", message]
    ensures !isPath.GetOr(isFile) ==> |o.issued[0].args| >= 3 && o.issued[0].args[0] == "commit"
                                      && Text.Join(FlagValues(o.issued[0].args[1..]), ParagraphBreak) == message
    ensures o.result == Ok(true) <==> run(o.issued[0]) == Some(0)
    ensures o.result.Err? <==> run(o.issued[0]).None?
    ensures o.result.Err? ==> o.result.error == Errors.Vcs(GitMissing(repodir))
  {
    CommitArgsRoundTrip(message);
    if isPath.GetOr(isFile) then Succeeds(run, repodir, FileCommit(message))
    else Succeeds(run, repodir, Invocation(CommitArgs(message), None))
  }

  /** The correction touches only the path branch; a message given as text is committed as before. */
  lemma CommitCorrectionIsLocal(run: Runner, repodir: string, message: string, isPath: Option<bool>, isFile: bool)
    requires !isPath.GetOr(isFile)
    ensures Commit(run, repodir, message, isPath, isFile) == CommitAsWritten(run, repodir, message, isPath, isFile)
  {
  }

  // ---------------------------------------------------------------------------
  // undo_commit: argument check and clamping
  // ---------------------------------------------------------------------------

  /** A finished git process: exit code, standard output and standard error. */
  datatype Completed = Completed(code: int, out: string, err: string)

  /** The command counting the commits of the current branch. */
  const CountCommits := Invocation(["rev-list", "HEAD", "--count", "--first-parent"], None)

  predicate IsBlankOrNewline(c: char) {
    c == ' ' || c == '\n'
  }

  /** `out.strip(b" \n")`, then the count when `isdigit()` holds. */
  function CountOf(out: string): (n: Option<nat>)
    ensures n.Some? <==> Text.IsDigitString(Text.RStripBy(Text.LStripBy(out, IsBlankOrNewline), IsBlankOrNewline))
  {
    var t := Text.RStripBy(Text.LStripBy(out, IsBlankOrNewline), IsBlankOrNewline);
    if Text.IsDigitString(t) then Some(Text.DigitsValue(t)) else None
  }

  /** The count of a branch as `rev-list --count` prints it: its value, a newline. */
  lemma CountOfPrinted(n: nat)
    ensures CountOf(Text.NatToString(n) + "\n") == Some(n)
  {
    var s := Text.NatToString(n);
    var out := s + "\n";
    assert !IsBlankOrNewline(s[0]) && !IsBlankOrNewline(s[|s| - 1]);
    assert Text.LStripBy(out, IsBlankOrNewline) == out;
    assert out[..|out| - 1] == s;
    assert Text.RStripBy(out, IsBlankOrNewline) == Text.RStripBy(s, IsBlankOrNewline);
    assert Text.RStripBy(s, IsBlankOrNewline) == s;
    Text.DigitsValueOfNatToString(n);
  }

  const CountFailurePrefix := "Failed get the number of commits in branch "

  /** The error `undo_commit` evidently means to raise when the count cannot be read. */
  function CountFailure(branch: string, err: string): (e: Errors.VcsError)
    ensures e.kind == Errors.Unexpected(Some("undo_commit"))
    ensures e.error == Some(CountFailurePrefix + branch) && e.rawError == Some(err)
  {
    Errors.KeywordConstruction(Some(CountFailurePrefix + branch), Some(err), Errors.Unexpected(Some("undo_commit")));
    Errors.NewUnexpected(Errors.Keywords(Some(CountFailurePrefix + branch), Some(err)), Some("undo_commit")).value
  }

  /**
   * The number of commits `undo_commit(commits)` goes on to undo, as
   * written. `counted` is the result of `rev-list --count` (None when git
   * could not be run) and `branch` the current branch's name. The failure
   * passes "undo_commit" positionally next to the `error` keyword, which is
   * a `TypeError`; a request for more commits than the branch has is
   * clamped to one less than the count, but a request for exactly the count
   * is not.
   */
  function UndoCountAsWritten(commits: int, counted: Option<Completed>, repodir: string, branch: string): (r: Result<int, Errors.Exception>)
    ensures commits < 1 ==> r == Err(Errors.Foreign("ValueError"))
    ensures commits >= 1 && counted.None? ==> r == Err(Errors.Vcs(GitMissing(repodir)))
    ensures commits >= 1 && counted.Some? && counted.value.code != 0 ==> r == Err(Errors.Foreign("TypeError"))
    ensures r.Ok? <==> commits >= 1 && counted.Some? && counted.value.code == 0
    ensures r.Ok? ==> r.value <= commits
    ensures r.Ok? && r.value != commits ==> CountOf(counted.value.out).Some? && r.value == CountOf(counted.value.out).value - 1
    ensures r.Ok? && CountOf(counted.value.out).Some? ==> r.value <= CountOf(counted.value.out).value
  {
    if commits < 1 then Err(Errors.Foreign("ValueError"))
    else
      match counted
      case None => Err(Errors.Vcs(GitMissing(repodir)))
      case Some(c) =>
        if c.code != 0 then
          match Errors.NewUnexpected(Errors.Forwarded([Some("undo_commit")], Some(Some(CountFailurePrefix + branch)), Some(Some(c.err))), None)
          case Ok(e) => Err(Errors.Vcs(e))
          case Err(_) => Err(Errors.Foreign("TypeError"))
        else
          match CountOf(c.out)
          case Some(n) => if commits > n then Ok(n - 1) else Ok(commits)
          case None => Ok(commits)
  }

  /**
   * A branch of three commits and a request to undo three: nothing is
   * clamped, and the reset then names `HEAD~3`, a commit the branch does not
   * have (its first-parent history ends at `HEAD~2`).
   */
  lemma UndoWholeBranchIsNotClamped(repodir: string, branch: string)
    ensures CountOf("3\n") == Some(3)
    ensures UndoCountAsWritten(3, Some(Completed(0, "3\n", "")), repodir, branch) == Ok(3)
  {
    var out := "3\n";
    assert out[0] == '3' && out == "3" + ['\n'];
    Text.LStripKeeps(out, IsBlankOrNewline);
    Text.RStripDropsLast("3", '\n', IsBlankOrNewline);
    Text.RStripKeeps("3", IsBlankOrNewline);
    assert Text.DigitsValue("3") == 3;
  }

  /** A failed count raises `TypeError` rather than the intended `VCSUnexpectedError`. */
  lemma CountFailureRaisesTypeError(commits: int, c: Completed, repodir: string, branch: string)
    requires commits >= 1 && c.code != 0
    ensures UndoCountAsWritten(commits, Some(c), repodir, branch) == Err(Errors.Foreign("TypeError"))
    ensures !Errors.IsInstance(UndoCountAsWritten(commits, Some(c), repodir, branch).error, Errors.VCSError)
  {
  }

  /**
   * `undo_commit(commits)` up to the reset, as evidently intended: requests
   * below one are refused, a failed count raises the unexpected error, and
   * a request reaching back to or past the first commit is clamped so that
   * `HEAD~commits` stays inside the branch's first-parent history.
   */
  function UndoCount(commits: int, counted: Option<Completed>, repodir: string, branch: string): (r: Result<int, Errors.Exception>)
    ensures commits < 1 ==> r == Err(Errors.Foreign("ValueError"))
    ensures commits >= 1 && counted.None? ==> r == Err(Errors.Vcs(GitMissing(repodir)))
    ensures commits >= 1 && counted.Some? && counted.value.code != 0
            ==> r == Err(Errors.Vcs(CountFailure(branch, counted.value.err)))
    ensures r.Ok? <==> commits >= 1 && counted.Some? && counted.value.code == 0
    ensures r.Ok? ==> r.value <= commits
    ensures r.Ok? && r.value != commits ==> CountOf(counted.value.out).Some? && r.value == CountOf(counted.value.out).value - 1
    ensures r.Ok? && CountOf(counted.value.out).Some? ==> r.value < CountOf(counted.value.out).value
  {
    if commits < 1 then Err(Errors.Foreign("ValueError"))
    else
      match counted
      case None => Err(Errors.Vcs(GitMissing(repodir)))
      case Some(c) =>
        if c.code != 0 then Err(Errors.Vcs(CountFailure(branch, c.err)))
        else
          match CountOf(c.out)
          case Some(n) => if commits >= n then Ok(n - 1) else Ok(commits)
          case None => Ok(commits)
  }

  /**
   * With a readable count the clamp is exactly `min(commits, count - 1)`:
   * a request inside the history is kept as it is.
   */
  lemma UndoCountIsMinimum(commits: int, n: nat, repodir: string, branch: string)
    requires commits >= 1
    ensures UndoCount(commits, Some(Completed(0, Text.NatToString(n) + "\n", "")), repodir, branch)
            == Ok(if commits < n then commits else n - 1)
  {
    CountOfPrinted(n);
  }

  /** The correction changes only the request for exactly the whole branch and the failure's error. */
  lemma UndoCorrectionIsLocal(commits: int, c: Completed, repodir: string, branch: string)
    requires commits >= 1 && c.code == 0
    requires CountOf(c.out).None? || commits != CountOf(c.out).value
    ensures UndoCount(commits, Some(c), repodir, branch) == UndoCountAsWritten(commits, Some(c), repodir, branch)
  {
  }
}

=== FILE: git_status.dfy ===
/**
 * Reading the output of `git status -b -uall --porcelain=v1`: the branch
 * header, one record `(path, staged state, unstaged state)` per file line,
 * and, for a path other than ".", one record summing up every change under
 * that path.
 */
module GitStatus {
  import opened Wrappers
  import Text
  import ChangedStatus
  import StatusHeader

  /** `_GIT_STATUS_MAP`: the state name of a status column, and "??" for untracked files. */
  function StatusMap(code: string): (r: Option<string>)
    ensures r.Some? <==> code in {" ", "A", "D", "M", "R", "C", "??"}
    ensures r.Some? ==> ChangedStatus.IsName(r.value)
    ensures code == "D" || code == "R" ==> r == Some("REMOVED")
    ensures code == "A" || code == "??" ==> r == Some("ADDED")
  {
    assert ChangedStatus.Table[0].0 == "UNCHANGED" && ChangedStatus.Table[1].0 == "ADDED";
    assert ChangedStatus.Table[2].0 == "REMOVED" && ChangedStatus.Table[3].0 == "MODIFIED";
    assert ChangedStatus.Table[6].0 == "COPIED";
    if code == " " then Some("UNCHANGED")
    else if code == "A" then Some("ADDED")
    else if code == "D" then Some("REMOVED")
    else if code == "M" then Some("MODIFIED")
    else if code == "R" then Some("REMOVED")
    else if code == "C" then Some("COPIED")
    else if code == "??" then Some("ADDED")
    else None
  }

  /** `_GIT_STATUS_MAP.get(c, "UNKNOWN")` for one column character. */
  function ColumnState(c: char): string {
    StatusMap([c]).GetOr("UNKNOWN")
  }

  /** The code each column character stands for, once the name goes through `from_string`. */
  function ColumnCode(c: char): int {
    if c == ' ' then ChangedStatus.UNCHANGED
    else if c == 'A' then ChangedStatus.ADDED
    else if c == 'D' || c == 'R' then ChangedStatus.REMOVED
    else if c == 'M' then ChangedStatus.MODIFIED
    else if c == 'C' then ChangedStatus.COPIED
    else ChangedStatus.UNKNOWN
  }

  /** Every state name the reader produces is a `ChangedStatus` name, and names the code of its column. */
  lemma ColumnStateIsKnown(c: char)
    ensures ChangedStatus.FromString(ColumnState(c)) == Ok(ColumnCode(c))
  {
    var k := if c == ' ' then 0 else if c == 'A' then 1 else if c == 'D' || c == 'R' then 2
      else if c == 'M' then 3 else if c == 'C' then 6 else 8;
    assert ColumnState(c) == ChangedStatus.Table[k].0;
    ChangedStatus.FromStringOfName(k);
  }

  lemma ColumnStateIsName(c: char)
    ensures ChangedStatus.IsName(ColumnState(c))
  {
    var k := if c == ' ' then 0 else if c == 'A' then 1 else if c == 'D' || c == 'R' then 2
      else if c == 'M' then 3 else if c == 'C' then 6 else 8;
    assert ColumnState(c) == ChangedStatus.Table[k].0;
  }

  /** A record of `get_git_status`: the path, then the staged (index) and unstaged (work tree) state names. */
  datatype StatusRecord = StatusRecord(path: string, staged: string, unstaged: string)

  /** Both state names of a record are names `ChangedStatus.from_string` accepts. */
  predicate KnownRecord(rec: StatusRecord) {
    ChangedStatus.IsName(rec.staged) && ChangedStatus.IsName(rec.unstaged)
  }

  /** `line[3:]`. */
  function PathPart(line: string): string {
    if |line| >= 3 then line[3..] else ""
  }

  /** `"R" in line[:2] or "C" in line[:2]`. */
  predicate RenamedOrCopied(line: string) {
    exists i :: 0 <= i < |line| && i < 2 && (line[i] == 'R' || line[i] == 'C')
  }

  const IndexErrorMessage := "IndexError: string index out of range"

  /**
   * One file line: untracked files ("??") are added in the work tree and
   * unchanged in the index; renames and copies are skipped; any other line
   * reads its two status columns. A line too short to hold both columns
   * raises `IndexError`.
   */
  function ParseFileLine(line: string): (r: Result<Option<StatusRecord>, string>)
    ensures r.Err? <==> !Text.StartsWith(line, "??") && !RenamedOrCopied(line) && |line| < 2
    ensures r.Err? ==> r.error == IndexErrorMessage
    ensures r.Ok? && r.value.None? <==> !Text.StartsWith(line, "??") && RenamedOrCopied(line)
    ensures r.Ok? && r.value.Some? ==> r.value.value.path == PathPart(line)
    ensures r.Ok? && r.value.Some? ==> KnownRecord(r.value.value)
  {
    if Text.StartsWith(line, "??") then
      ColumnStateIsName(' ');
      ColumnStateIsName('A');
      Ok(Some(StatusRecord(PathPart(line), ColumnState(' '), StatusMap("??").value)))
    else if RenamedOrCopied(line) then Ok(None)
    else if |line| < 2 then Err(IndexErrorMessage)
    else
      ColumnStateIsName(line[0]);
      ColumnStateIsName(line[1]);
      Ok(Some(StatusRecord(PathPart(line), ColumnState(line[0]), ColumnState(line[1]))))
  }

  /** The file lines in order; the first `IndexError` aborts the whole reading. */
  function ParseFileLines(lines: seq<string>): (r: Result<seq<StatusRecord>, string>)
    ensures r.Ok? <==> forall i :: 0 <= i < |lines| ==> ParseFileLine(lines[i]).Ok?
    ensures r.Ok? ==> |r.value| <= |lines|
    ensures r.Ok? ==> forall k :: 0 <= k < |r.value| ==> KnownRecord(r.value[k])
  {
    if lines == [] then Ok([])
    else
      match ParseFileLine(lines[0])
      case Err(e) => Err(e)
      case Ok(rec) =>
        match ParseFileLines(lines[1..])
        case Err(e) =>
          assert !ParseFileLine(lines[1..][0]).Ok? || exists i :: 0 <= i < |lines[1..]| && !ParseFileLine(lines[1..][i]).Ok?;
          Err(e)
        case Ok(rest) => Ok((if rec.Some? then [rec.value] else []) + rest)
  }

  // ---------------------------------------------------------------------------
  // Summing up the changes under a path
  // ---------------------------------------------------------------------------

  /** One step of the summary loop: a disagreement turns the column into "MODIFIED" for good. */
  function Merge(acc: string, state: string): string {
    if "MODIFIED" != acc && acc != state then "MODIFIED" else acc
  }

  function FoldColumn(acc: string, states: seq<string>): string
    decreases |states|
  {
    if states == [] then acc else FoldColumn(Merge(acc, states[0]), states[1..])
  }

  predicate AllEqual(states: seq<string>, s: string) {
    forall i :: 0 <= i < |states| ==> states[i] == s
  }

  /** The summary of a column is the common state when every record agrees, and "MODIFIED" otherwise. */
  lemma {:induction false} FoldColumnAgreement(acc: string, states: seq<string>)
    ensures FoldColumn(acc, states) == if AllEqual(states, acc) then acc else "MODIFIED"
    decreases |states|
  {
    if states != [] {
      FoldColumnAgreement(Merge(acc, states[0]), states[1..]);
      if AllEqual(states, acc) {
        assert AllEqual(states[1..], acc);
      } else if states[0] == acc {
        assert !AllEqual(states[1..], acc) by {
          var i :| 0 <= i < |states| && states[i] != acc;
          assert states[1..][i - 1] == states[i];
        }
      }
    }
  }

  function StagedColumn(changes: seq<StatusRecord>): (r: seq<string>)
    ensures |r| == |changes| && forall i :: 0 <= i < |changes| ==> r[i] == changes[i].staged
  {
    seq(|changes|, i requires 0 <= i < |changes| => changes[i].staged)
  }

  function UnstagedColumn(changes: seq<StatusRecord>): (r: seq<string>)
    ensures |r| == |changes| && forall i :: 0 <= i < |changes| ==> r[i] == changes[i].unstaged
  {
    seq(|changes|, i requires 0 <= i < |changes| => changes[i].unstaged)
  }

  /**
   * The summing-up step: for a path other than "." with more than one
   * change, a single record for the path whose columns are the common state
   * or "MODIFIED"; otherwise the changes unchanged.
   */
  function Summarise(changes: seq<StatusRecord>, pathspec: string): (r: seq<StatusRecord>)
    ensures pathspec == "." || |changes| <= 1 ==> r == changes
    ensures pathspec != "." && |changes| > 1 ==> |r| == 1 && r[0].path == pathspec
    ensures pathspec != "." && |changes| > 1 ==>
              r[0].staged == (if AllEqual(StagedColumn(changes), changes[0].staged) then changes[0].staged else "MODIFIED")
    ensures pathspec != "." && |changes| > 1 ==>
              r[0].unstaged == (if AllEqual(UnstagedColumn(changes), changes[0].unstaged) then changes[0].unstaged else "MODIFIED")
  {
    if pathspec != "." && |changes| > 1 then
      FoldColumnAgreement(changes[0].staged, StagedColumn(changes));
      FoldColumnAgreement(changes[0].unstaged, UnstagedColumn(changes));
      [StatusRecord(pathspec, FoldColumn(changes[0].staged, StagedColumn(changes)),
                    FoldColumn(changes[0].unstaged, UnstagedColumn(changes)))]
    else changes
  }

  /** A summary record's states are still `ChangedStatus` names. */
  lemma SummaryStatesKnown(changes: seq<StatusRecord>, pathspec: string)
    requires forall k :: 0 <= k < |changes| ==> KnownRecord(changes[k])
    ensures forall k :: 0 <= k < |Summarise(changes, pathspec)| ==> KnownRecord(Summarise(changes, pathspec)[k])
  {
    assert ChangedStatus.Table[3].0 == "MODIFIED";
  }

  // ---------------------------------------------------------------------------
  // The whole output
  // ---------------------------------------------------------------------------

  /** The three values `get_git_status` returns when git ran: `(local, remote)`, `(behind, ahead)`, the records. */
  datatype StatusReport = StatusReport(local: Option<string>, remote: Option<string>,
                                       behind: nat, ahead: nat, changes: seq<StatusRecord>)

  /**
   * The text reading of `get_git_status`: strip, split into lines, then read
   * the lines. Output that is blank once stripped gives None.
   */
  function ParseStatusText(text: string, pathspec: string): (r: Result<Option<StatusReport>, string>)
    ensures Text.Strip(text) == [] ==> r == Ok(None)
    ensures r == Ok(None) <==> Text.SplitLines(Text.Strip(text)) == []
    ensures r.Ok? && r.value.Some? ==> forall k :: 0 <= k < |r.value.value.changes| ==> KnownRecord(r.value.value.changes[k])
  {
    ReadStatusLines(Text.SplitLines(Text.Strip(text)), pathspec)
  }

  /**
   * The lines of the stripped output, under `if lines:`: the first line is
   * the branch header when it matches, every other line is a file line, and
   * the records are summed up for a path other than ".". No lines fall
   * through to the triple of Nones.
   */
  function ReadStatusLines(lines: seq<string>, pathspec: string): (r: Result<Option<StatusReport>, string>)
    ensures lines == [] <==> r == Ok(None)
    ensures lines != [] && StatusHeader.MatchHeader(lines[0]).Some? ==>
              (r.Ok? <==> ParseFileLines(lines[1..]).Ok?)
              && (r.Ok? ==> r.value.Some? && r.value.value.local == Some(StatusHeader.MatchHeader(lines[0]).value.local)
                            && r.value.value.remote == StatusHeader.MatchHeader(lines[0]).value.remote)
    ensures lines != [] && StatusHeader.MatchHeader(lines[0]).None? ==>
              (r.Ok? <==> ParseFileLines(lines).Ok?)
              && (r.Ok? ==> r.value.Some? && r.value.value.local.None? && r.value.value.remote.None?
                            && r.value.value.behind == 0 && r.value.value.ahead == 0)
    ensures r.Ok? && r.value.Some? ==> forall k :: 0 <= k < |r.value.value.changes| ==> KnownRecord(r.value.value.changes[k])
    ensures lines != [] && StatusHeader.MatchHeader(lines[0]).Some? && r.Ok? ==>
              r.value.value.changes == Summarise(ParseFileLines(lines[1..]).value, pathspec)
              && (r.value.value.behind, r.value.value.ahead) == StatusHeader.HeaderCounts(lines[0])
    ensures lines != [] && StatusHeader.MatchHeader(lines[0]).None? && r.Ok? ==>
              r.value.value.changes == Summarise(ParseFileLines(lines).value, pathspec)
  {
    if lines == [] then Ok(None)
    else
      var header := StatusHeader.MatchHeader(lines[0]);
      var files := if header.Some? then lines[1..] else lines;
      match ParseFileLines(files)
      case Err(e) => Err(e)
      case Ok(changes) =>
        SummaryStatesKnown(changes, pathspec);
        var summary := Summarise(changes, pathspec);
        if header.Some? then
          var counts := StatusHeader.HeaderCounts(lines[0]);
          Ok(Some(StatusReport(Some(header.value.local), header.value.remote, counts.0, counts.1, summary)))
        else Ok(Some(StatusReport(None, None, 0, 0, summary)))
  }

  /** How running `git status` went: git not found, the run failed, or it exited with a code and output. */
  datatype GitRun = NoGit | RunFailed | Exited(returncode: int, output: string)

  /**
   * `get_git_status`: `None` (the triple of Nones) unless git ran, exited
   * with 0 and wrote some non-blank output; then the text reading, whose
   * `IndexError` propagates.
   */
  function GetGitStatus(run: GitRun, pathspec: string): (r: Result<Option<StatusReport>, string>)
    ensures !(run.Exited? && run.returncode == 0) ==> r == Ok(None)
    ensures run.Exited? && Text.SplitLines(Text.Strip(run.output)) == [] ==> r == Ok(None)
    ensures r.Ok? && r.value.Some? ==> run.Exited? && run.returncode == 0 && Text.SplitLines(Text.Strip(run.output)) != []
    ensures run.Exited? && run.returncode == 0 ==> r == ParseStatusText(run.output, pathspec)
    ensures r.Ok? && r.value.Some? ==> forall k :: 0 <= k < |r.value.value.changes| ==> KnownRecord(r.value.value.changes[k])
  {
    if !run.Exited? || run.returncode != 0 then Ok(None)
    else ParseStatusText(run.output, pathspec)
  }

  // ---------------------------------------------------------------------------
  // The text git writes, and reading it back
  // ---------------------------------------------------------------------------

  /** One file line as git writes it: the index column, the work-tree column, a space, the path. */
  datatype Entry = Entry(x: char, y: char, path: string)

  /** No character of `s` is whitespace in the sense of `str.strip`. */
  predicate Solid(s: string) {
    forall i :: 0 <= i < |s| ==> !Text.IsSpace(s[i])
  }

  /**
   * An entry the reader keeps: neither column is a rename or copy, neither
   * is a line boundary, and the path is non-empty, free of line boundaries
   * and does not end in whitespace.
   */
  predicate KeptEntry(e: Entry) {
    && e.x != 'R' && e.x != 'C' && e.y != 'R' && e.y != 'C'
    && !Text.IsLineBreak(e.x) && !Text.IsLineBreak(e.y)
    && |e.path| > 0 && !Text.IsSpace(e.path[|e.path| - 1])
    && (forall i :: 0 <= i < |e.path| ==> !Text.IsLineBreak(e.path[i]))
  }

  function RenderEntry(e: Entry): string {
    [e.x, e.y, ' '] + e.path
  }

  /** The record the reader should make of an entry. */
  function ExpectedRecord(e: Entry): StatusRecord {
    if e.x == '?' && e.y == '?' then StatusRecord(e.path, "UNCHANGED", "ADDED")
    else StatusRecord(e.path, ColumnState(e.x), ColumnState(e.y))
  }

  function RenderLines(es: seq<Entry>): (r: seq<string>)
    ensures |r| == |es| && forall i :: 0 <= i < |es| ==> r[i] == RenderEntry(es[i])
  {
    if es == [] then [] else [RenderEntry(es[0])] + RenderLines(es[1..])
  }

  function ExpectedRecords(es: seq<Entry>): (r: seq<StatusRecord>)
    ensures |r| == |es| && forall i :: 0 <= i < |es| ==> r[i] == ExpectedRecord(es[i])
  {
    if es == [] then [] else [ExpectedRecord(es[0])] + ExpectedRecords(es[1..])
  }

  /** The whole output: the header line, the file lines, each ended by a newline. */
  function RenderStatus(b: StatusHeader.BranchState, es: seq<Entry>): string {
    Text.Join([StatusHeader.RenderHeader(b)] + RenderLines(es), "\n") + "\n"
  }

  /** Branch names the round trip covers: git reference names without any whitespace. */
  predicate PlainName(s: string) {
    StatusHeader.RefName(s) && Solid(s)
  }

  predicate PlainState(b: StatusHeader.BranchState) {
    && StatusHeader.ValidState(b)
    && PlainName(b.local)
    && (b.upstream.Some? ==> PlainName(b.upstream.value))
  }

  lemma ReadEntry(e: Entry)
    requires KeptEntry(e)
    ensures ParseFileLine(RenderEntry(e)) == Ok(Some(ExpectedRecord(e)))
  {
    var line := RenderEntry(e);
    assert line[0] == e.x && line[1] == e.y;
    assert PathPart(line) == e.path;
    if e.x == '?' && e.y == '?' {
      assert Text.StartsWith(line, "??");
    } else {
      assert !Text.StartsWith(line, "??");
    }
  }

  lemma {:induction false} ReadEntries(es: seq<Entry>)
    requires forall i :: 0 <= i < |es| ==> KeptEntry(es[i])
    ensures ParseFileLines(RenderLines(es)) == Ok(ExpectedRecords(es))
    decreases |es|
  {
    if es != [] {
      ReadEntry(es[0]);
      ReadEntries(es[1..]);
      assert RenderLines(es)[1..] == RenderLines(es[1..]);
    }
  }

  predicate NoBreak(s: string) {
    forall i :: 0 <= i < |s| ==> !Text.IsLineBreak(s[i])
  }

  lemma NoBreakConcat(a: string, b: string)
    requires NoBreak(a) && NoBreak(b)
    ensures NoBreak(a + b)
  {
    forall i | 0 <= i < |a + b| ensures !Text.IsLineBreak((a + b)[i]) {
      if i < |a| {
        assert (a + b)[i] == a[i];
      } else {
        assert (a + b)[i] == b[i - |a|];
      }
    }
  }

  lemma SolidHasNoBreak(s: string)
    requires Solid(s)
    ensures NoBreak(s)
  {
  }

  lemma DigitsHaveNoBreak(n: nat)
    ensures NoBreak(Text.NatToString(n))
  {
  }

  lemma FieldHasNoBreak(w: string, n: nat)
    requires NoBreak(w)
    ensures NoBreak(StatusHeader.Field(w, n))
  {
    DigitsHaveNoBreak(n);
    NoBreakConcat(w, " ");
    NoBreakConcat(w + " ", Text.NatToString(n));
  }

  lemma TrackTextHasNoBreak(ahead: nat, behind: nat)
    ensures NoBreak(StatusHeader.TrackText(ahead, behind))
  {
    FieldHasNoBreak("ahead", ahead);
    FieldHasNoBreak("behind", behind);
    var fa := StatusHeader.Field("ahead", ahead);
    var fb := StatusHeader.Field("behind", behind);
    NoBreakConcat(", ", fb);
    NoBreakConcat(fa, ", " + fb);
    var body := StatusHeader.BracketBody(ahead, behind);
    NoBreakConcat(" [", body);
    NoBreakConcat(" [" + body, "]");
  }

  /** The header git writes is one line that does not end in whitespace. */
  lemma HeaderLine(b: StatusHeader.BranchState)
    requires PlainState(b)
    ensures NoBreak(StatusHeader.RenderHeader(b))
    ensures |StatusHeader.RenderHeader(b)| > 0 && !Text.IsSpace(StatusHeader.RenderHeader(b)[0])
    ensures !Text.IsSpace(StatusHeader.RenderHeader(b)[|StatusHeader.RenderHeader(b)| - 1])
  {
    var l := b.local;
    SolidHasNoBreak(l);
    NoBreakConcat("## ", l);
    match b.upstream {
      case None =>
      case Some(u) =>
        var t := StatusHeader.TrackText(b.ahead, b.behind);
        SolidHasNoBreak(u);
        TrackTextHasNoBreak(b.ahead, b.behind);
        NoBreakConcat("## " + l, "...");
        NoBreakConcat("## " + l + "...", u);
        NoBreakConcat("## " + l + "..." + u, t);
        var h := "## " + l + "..." + u + t;
        if |t| > 0 {
          assert h[|h| - 1] == t[|t| - 1];
        } else {
          assert h[|h| - 1] == u[|u| - 1];
        }
    }
  }

  /** File lines hold no line boundary. */
  lemma EntryLineHasNoBreak(e: Entry)
    requires KeptEntry(e)
    ensures NoBreak(RenderEntry(e))
    ensures |RenderEntry(e)| > 0 && !Text.IsSpace(RenderEntry(e)[|RenderEntry(e)| - 1])
  {
    var line := RenderEntry(e);
    forall j | 0 <= j < |line| ensures !Text.IsLineBreak(line[j]) {
      if j >= 3 {
        assert line[j] == e.path[j - 3];
      }
    }
  }

  /** Lines that survive being joined, newline-terminated and stripped. */
  predicate Joinable(lines: seq<string>) {
    && |lines| > 0 && lines[0] != [] && !Text.IsSpace(lines[0][0])
    && (forall k :: 0 <= k < |lines| ==> NoBreak(lines[k]))
    && lines[|lines| - 1] != [] && !Text.IsSpace(lines[|lines| - 1][|lines[|lines| - 1]| - 1])
  }

  /** Joinable lines come back out of `strip().splitlines()`. */
  lemma SplitJoinedLines(lines: seq<string>)
    requires Joinable(lines)
    ensures Text.SplitLines(Text.Strip(Text.Join(lines, "\n") + "\n")) == lines
  {
    Text.JoinEnds(lines, "\n");
    Text.StripFinalNewline(Text.Join(lines, "\n"));
    Text.SplitLinesOfJoin(lines, Text.IsLineBreak);
  }

  lemma LinesJoinable(h: string, es: seq<Entry>)
    requires NoBreak(h) && |h| > 0 && !Text.IsSpace(h[0]) && !Text.IsSpace(h[|h| - 1])
    requires forall i :: 0 <= i < |es| ==> KeptEntry(es[i])
    ensures Joinable([h] + RenderLines(es))
  {
    RenderedLinesHaveNoBreak(es);
    if es != [] {
      EntryLineHasNoBreak(es[|es| - 1]);
    }
    JoinableCons(h, RenderLines(es));
  }

  /** A first line and further lines, none holding a line boundary, the outer ends free of whitespace. */
  lemma JoinableCons(h: string, rest: seq<string>)
    requires NoBreak(h) && |h| > 0 && !Text.IsSpace(h[0]) && !Text.IsSpace(h[|h| - 1])
    requires forall k :: 0 <= k < |rest| ==> NoBreak(rest[k])
    requires rest != [] ==> |rest[|rest| - 1]| > 0 && !Text.IsSpace(rest[|rest| - 1][|rest[|rest| - 1]| - 1])
    ensures Joinable([h] + rest)
  {
    LinesHaveNoBreak(h, rest);
    if rest != [] {
      LastLineSolid(h, rest, rest[|rest| - 1]);
    } else {
      assert [h] + rest == [h];
    }
  }

  lemma RenderedLinesHaveNoBreak(es: seq<Entry>)
    requires forall i :: 0 <= i < |es| ==> KeptEntry(es[i])
    ensures forall k :: 0 <= k < |RenderLines(es)| ==> NoBreak(RenderLines(es)[k])
  {
    forall k | 0 <= k < |es| ensures NoBreak(RenderLines(es)[k]) {
      EntryLineHasNoBreak(es[k]);
    }
  }

  lemma LinesHaveNoBreak(h: string, rest: seq<string>)
    requires NoBreak(h)
    requires forall k :: 0 <= k < |rest| ==> NoBreak(rest[k])
    ensures forall k :: 0 <= k < |[h] + rest| ==> NoBreak(([h] + rest)[k])
  {
    forall k | 0 <= k < |[h] + rest| ensures NoBreak(([h] + rest)[k]) {
      if k > 0 {
        assert ([h] + rest)[k] == rest[k - 1];
      }
    }
  }

  /** The last of the lines is the last file line, which does not end in whitespace. */
  lemma LastLineSolid(h: string, rest: seq<string>, last: string)
    requires rest != [] && rest[|rest| - 1] == last
    requires |last| > 0 && !Text.IsSpace(last[|last| - 1])
    ensures var lines := [h] + rest;
            lines[|lines| - 1] != [] && !Text.IsSpace(lines[|lines| - 1][|lines[|lines| - 1]| - 1])
  {
    assert ([h] + rest)[|rest|] == last;
  }

  lemma RenderedJoinable(b: StatusHeader.BranchState, es: seq<Entry>)
    requires PlainState(b)
    requires forall i :: 0 <= i < |es| ==> KeptEntry(es[i])
    ensures Joinable([StatusHeader.RenderHeader(b)] + RenderLines(es))
  {
    HeaderLine(b);
    LinesJoinable(StatusHeader.RenderHeader(b), es);
  }

  /** The lines git writes, split back out of the output. */
  lemma SplitRendered(b: StatusHeader.BranchState, es: seq<Entry>)
    requires PlainState(b)
    requires forall i :: 0 <= i < |es| ==> KeptEntry(es[i])
    ensures Text.SplitLines(Text.Strip(RenderStatus(b, es))) == [StatusHeader.RenderHeader(b)] + RenderLines(es)
  {
    RenderedJoinable(b, es);
    SplitJoinedLines([StatusHeader.RenderHeader(b)] + RenderLines(es));
  }

  /** Reading a text whose lines are a matched header and file lines the reader accepts. */
  lemma ReadHeaderAndFiles(text: string, h: string, files: seq<string>, records: seq<StatusRecord>)
    requires Text.SplitLines(Text.Strip(text)) == [h] + files
    requires StatusHeader.MatchHeader(h).Some?
    requires ParseFileLines(files) == Ok(records)
    ensures ParseStatusText(text, ".")
            == Ok(Some(StatusReport(Some(StatusHeader.MatchHeader(h).value.local), StatusHeader.MatchHeader(h).value.remote,
                                    StatusHeader.HeaderCounts(h).0, StatusHeader.HeaderCounts(h).1, records)))
  {
    assert ([h] + files)[0] == h && ([h] + files)[1..] == files;
  }

  /**
   * Reading back what git writes: for a branch with plain names and file
   * lines that are neither renames nor copies, the reader returns the local
   * and upstream branch, the behind and ahead distances, and one record per
   * file line in order.
   */
  lemma StatusRoundTrip(b: StatusHeader.BranchState, es: seq<Entry>)
    requires PlainState(b)
    requires forall i :: 0 <= i < |es| ==> KeptEntry(es[i])
    ensures ParseStatusText(RenderStatus(b, es), ".")
            == Ok(Some(StatusReport(Some(b.local), b.upstream, b.behind, b.ahead, ExpectedRecords(es))))
  {
    SplitRendered(b, es);
    StatusHeader.HeaderRoundTrip(b);
    ReadEntries(es);
    ReadHeaderAndFiles(RenderStatus(b, es), StatusHeader.RenderHeader(b), RenderLines(es), ExpectedRecords(es));
  }

  /** A `git status` run that exits with 0 reports the branch and the records of what git wrote. */
  lemma GitStatusRoundTrip(b: StatusHeader.BranchState, es: seq<Entry>)
    requires PlainState(b)
    requires forall i :: 0 <= i < |es| ==> KeptEntry(es[i])
    ensures GetGitStatus(Exited(0, RenderStatus(b, es)), ".")
            == Ok(Some(StatusReport(Some(b.local), b.upstream, b.behind, b.ahead, ExpectedRecords(es))))
  {
    StatusRoundTrip(b, es);
  }
}

=== FILE: history.dfy ===
/**
 * The commit history reader: `GitBackend._parse_history_record`, which turns
 * one NUL-separated block of `git log` output into a commit dictionary, and
 * `get_last_commits`, which splits the whole output and drops empty blocks.
 *
 * Each block git writes for a commit is
 *   id:<hash>\nauthor_username:<name>\nauthor_email:<mail>\ncommit_date:<unix time>\ntitle:<subject>\ndescription:\n<body>
 * and every block is followed by a NUL byte and a newline. Everything after
 * the first "\ndescription:\n" is the description, verbatim; the lines before
 * it are matched against the expected keys, each key at most once.
 */
module History {
  import opened Wrappers
  import Text
  import Errors
  import GitCommands

  /**
   * The keys the header lines may set, in the order they are tried: the
   * `attrs` of the `get_last_commits` feature without "description".
   */
  const Keys: seq<string> := ["id", "title", "content", "author_username", "author_email", "commit_date"]

  /** The marker introducing the description. */
  const Marker := "\ndescription:\n"

  /**
   * A commit dictionary. A key the header never set is None; `content` is
   * always the title (or "") and the description joined by a newline;
   * `commitDate` is the Unix time when the date field is all digits, and
   * absent otherwise.
   */
  datatype Commit = Commit(id: Option<string>, title: Option<string>, description: string, content: string,
                           authorUsername: Option<string>, authorEmail: Option<string>, commitDate: Option<nat>)

  /** `line.startswith(key + ":")`. */
  predicate Labelled(line: string, key: string) {
    Text.StartsWith(line, key + ":")
  }

  /** The first pending key labelling `line`. */
  function MatchKey(line: string, pending: seq<string>): (r: Option<nat>)
    ensures r.Some? ==> r.value < |pending| && Labelled(line, pending[r.value])
    ensures r.Some? ==> forall j :: 0 <= j < r.value ==> !Labelled(line, pending[j])
    ensures r.None? ==> forall j :: 0 <= j < |pending| ==> !Labelled(line, pending[j])
  {
    if pending == [] then None
    else if Labelled(line, pending[0]) then Some(0)
    else
      match MatchKey(line, pending[1..])
      case None => None
      case Some(k) => Some(k + 1)
  }

  /** `keys.remove(keys[k])` for keys without repetition. */
  function Without(pending: seq<string>, k: nat): (r: seq<string>)
    requires k < |pending|
    ensures |r| == |pending| - 1
    ensures forall x :: x in r ==> x in pending
  {
    pending[..k] + pending[k + 1..]
  }

  /** The value a labelled line gives its key: everything after "key:". */
  function ValueOf(line: string, key: string): string
    requires Labelled(line, key)
  {
    line[|key| + 1..]
  }

  /**
   * The header loop: each non-empty line sets the first pending key that
   * labels it, and that key stops being pending; other lines are ignored.
   * A key already set and no longer pending keeps its value.
   */
  function ScanFields(lines: seq<string>, pending: seq<string>, found: map<string, string>): (r: map<string, string>)
    ensures r.Keys <= found.Keys + set k | k in pending
    ensures forall key :: key in found && key !in pending ==> key in r && r[key] == found[key]
    decreases |lines|
  {
    if lines == [] then found
    else
      var line := lines[0];
      var m := if line == [] then None else MatchKey(line, pending);
      if m.None? then ScanFields(lines[1..], pending, found)
      else
        var key := pending[m.value];
        ScanFields(lines[1..], Without(pending, m.value), found[key := ValueOf(line, key)])
  }

  /** `b.strip(b"\x00")`. */
  function StripNul(s: string): (r: string)
    ensures |r| <= |s|
    ensures r == [] || (r[0] != '\0' && r[|r| - 1] != '\0')
  {
    Text.RStripBy(Text.LStripBy(s, c => c == '\0'), c => c == '\0')
  }

  /** Stripping NULs cuts a slice out of the text, and only NULs fall outside it. */
  lemma StripNulSlice(s: string)
    ensures exists i, j :: 0 <= i <= j <= |s| && StripNul(s) == s[i..j]
              && forall k :: (0 <= k < i || j <= k < |s|) ==> s[k] == '\0'
  {
    var l := Text.LStripBy(s, c => c == '\0');
    var r := Text.RStripBy(l, c => c == '\0');
    var i, j := |s| - |l|, |s| - |l| + |r|;
    assert r == s[i..j];
    assert forall k :: j <= k < |s| ==> s[k] == l[k - i];
  }

  /** The header part and the description of a stripped record. */
  function SplitDescription(record: string): (r: (string, string))
    ensures Text.Find(record, Marker).None? ==> r == (record, "")
    ensures Text.Find(record, Marker).Some? ==>
              var i := Text.Find(record, Marker).value;
              r.0 == record[..i] && r.1 == StripNul(record[i + |Marker|..])
  {
    match Text.Find(record, Marker)
    case None => (record, "")
    case Some(i) => (record[..i], StripNul(record[i + |Marker|..]))
  }

  function Lookup(fields: map<string, string>, key: string): (r: Option<string>)
    ensures r.Some? <==> key in fields
    ensures r.Some? ==> r.value == fields[key]
  {
    if key in fields then Some(fields[key]) else None
  }

  /** The dictionary built from the header fields and the description. */
  function ToCommit(fields: map<string, string>, description: string): (c: Commit)
    ensures c.description == description
    ensures c.content == c.title.GetOr("") + "\n" + description
    ensures c.commitDate.Some? <==> "commit_date" in fields && Text.IsDigitString(fields["commit_date"])
  {
    var title := Lookup(fields, "title");
    var date := Lookup(fields, "commit_date");
    Commit(Lookup(fields, "id"), title, description, title.GetOr("") + "\n" + description,
           Lookup(fields, "author_username"), Lookup(fields, "author_email"),
           if date.Some? && Text.IsDigitString(date.value) then Some(Text.DigitsValue(date.value)) else None)
  }

  /**
   * `_parse_history_record`: None for the empty dictionary a blank record
   * gives. Otherwise the description is what follows the first marker,
   * and the content joins title and description.
   */
  function ParseHistoryRecord(record: string): (r: Option<Commit>)
    ensures r.None? <==> Text.LStripBytes(record) == []
    ensures r.Some? ==> r.value.content == r.value.title.GetOr("") + "\n" + r.value.description
    ensures r.Some? ==> r.value.description == SplitDescription(Text.LStripBytes(record)).1
  {
    var stripped := Text.LStripBytes(record);
    if stripped == [] then None
    else
      var parts := SplitDescription(stripped);
      var fields := ScanFields(Text.SplitByteLines(parts.0), Keys, map[]);
      Some(ToCommit(fields, parts.1))
  }

  /** The output of one git invocation: exit code, standard output, standard error. */
  datatype RunOutput = RunOutput(returncode: int, output: string, err: string)

  const HistoryFailure := "Failed to get git history"

  /** The error `get_last_commits` raises when git fails. */
  function HistoryError(err: string): (e: Errors.VcsError)
    ensures e.kind == Errors.Unexpected(Some("get_last_commits"))
    ensures e.error == Some(HistoryFailure) && e.rawError == Some(err)
  {
    Errors.KeywordConstruction(Some(HistoryFailure), Some(err), Errors.Unexpected(Some("get_last_commits")));
    Errors.NewUnexpected(Errors.Keywords(Some(HistoryFailure), Some(err)), Some("get_last_commits")).value
  }

  /** `filter(None, ...)`: the values present, in order. */
  function Present<T>(os: seq<Option<T>>): (r: seq<T>)
    ensures |r| <= |os|
    ensures forall i :: 0 <= i < |r| ==> Some(r[i]) in os
    ensures forall j :: 0 <= j < |os| && os[j].Some? ==> os[j].value in r
  {
    if os == [] then [] else (if os[0].Some? then [os[0].value] else []) + Present(os[1..])
  }

  /** Nothing present leaves nothing. */
  lemma {:induction false} PresentOfNone<T>(os: seq<Option<T>>)
    requires forall k :: 0 <= k < |os| ==> os[k].None?
    ensures Present(os) == []
  {
    if os != [] {
      assert os[0].None?;
      forall k | 0 <= k < |os[1..]| ensures os[1..][k].None? {
        assert os[1..][k] == os[k + 1];
      }
      PresentOfNone(os[1..]);
    }
  }

  /**
   * Dropping the absent values works piece by piece: the present values of
   * a concatenation are those of each part, in order.
   */
  lemma {:induction false} PresentAppend<T>(a: seq<Option<T>>, b: seq<Option<T>>)
    ensures Present(a + b) == Present(a) + Present(b)
    decreases |a|
  {
    if a != [] {
      assert (a + b)[0] == a[0];
      assert (a + b)[1..] == a[1..] + b;
      PresentAppend(a[1..], b);
    } else {
      assert a + b == b;
    }
  }

  /** Values `cs` each present, followed by one absent value, leave exactly `cs`. */
  lemma {:induction false} PresentOfSomes<T>(os: seq<Option<T>>, cs: seq<T>)
    requires |os| == |cs| + 1
    requires forall k :: 0 <= k < |cs| ==> os[k] == Some(cs[k])
    requires os[|cs|].None?
    ensures Present(os) == cs
    decreases |cs|
  {
    if cs == [] {
      assert os[1..] == [];
    } else {
      assert os[0] == Some(cs[0]);
      forall k | 0 <= k < |cs[1..]| ensures os[1..][k] == Some(cs[1..][k]) {
        assert os[1..][k] == os[k + 1];
      }
      assert os[1..][|cs[1..]|] == os[|cs|];
      PresentOfSomes(os[1..], cs[1..]);
      Text.ConsOfTail(cs);
    }
  }

  /** The generator `(f(x) for x in xs)`. */
  function MapAll<A, B>(f: A -> B, xs: seq<A>): (r: seq<B>)
    ensures |r| == |xs|
    ensures forall k :: 0 <= k < |xs| ==> r[k] == f(xs[k])
  {
    seq(|xs|, k requires 0 <= k < |xs| => f(xs[k]))
  }

  /** Mapping over consecutive pieces maps each piece. */
  lemma MapAllAppend<A, B>(f: A -> B, a: seq<A>, b: seq<A>)
    ensures MapAll(f, a + b) == MapAll(f, a) + MapAll(f, b)
  {
    assert forall k :: 0 <= k < |b| ==> (a + b)[|a| + k] == b[k];
  }

  /** The parsed blocks, without the empty ones. */
  function ParseBlocks(blocks: seq<string>): (r: seq<Commit>)
    ensures |r| <= |blocks|
  {
    Present(MapAll(ParseHistoryRecord, blocks))
  }

  /** A commit is kept exactly when some block parses to it. */
  lemma ParseBlocksKeeps(blocks: seq<string>)
    ensures forall c :: c in ParseBlocks(blocks) <==> exists k :: 0 <= k < |blocks| && ParseHistoryRecord(blocks[k]) == Some(c)
  {
    var os := MapAll(ParseHistoryRecord, blocks);
    assert forall k :: 0 <= k < |blocks| ==> os[k] == ParseHistoryRecord(blocks[k]);
  }

  /** The commits of consecutive blocks come in block order. */
  lemma ParseBlocksAppend(a: seq<string>, b: seq<string>)
    ensures ParseBlocks(a + b) == ParseBlocks(a) + ParseBlocks(b)
  {
    var oa, ob := MapAll(ParseHistoryRecord, a), MapAll(ParseHistoryRecord, b);
    MapAllAppend(ParseHistoryRecord, a, b);
    PresentAppend(oa, ob);
  }

  /** One block gives its commit, or nothing when it is empty. */
  lemma ParseBlock(block: string)
    ensures ParseBlocks([block]) == (match ParseHistoryRecord(block) case Some(c) => [c] case None => [])
  {
    assert MapAll(ParseHistoryRecord, [block]) == [ParseHistoryRecord(block)];
    assert [ParseHistoryRecord(block)][1..] == [];
  }

  /** Blocks that are all blank give no commits. */
  lemma BlankBlocks(blocks: seq<string>)
    requires forall i :: 0 <= i < |blocks| ==> Text.LStripBytes(blocks[i]) == []
    ensures ParseBlocks(blocks) == []
  {
    var os := MapAll(ParseHistoryRecord, blocks);
    forall k | 0 <= k < |os| ensures os[k].None? {
      assert os[k] == ParseHistoryRecord(blocks[k]);
    }
    PresentOfNone(os);
  }

  /**
   * `get_last_commits(commits)`: fewer than one commit is a `ValueError`;
   * git that could not be run (`log` is None) raises `_run`'s integrity
   * error; a failing git run raises an unexpected error carrying git's
   * message; otherwise the output is split at each NUL and every non-blank
   * block read as a commit.
   */
  function GetLastCommits(repodir: string, commits: int, log: Option<RunOutput>): (r: Result<seq<Commit>, Errors.Exception>)
    ensures commits < 1 ==> r == Err(Errors.Foreign("ValueError"))
    ensures commits >= 1 && log.None? ==> r == Err(Errors.Vcs(GitCommands.GitMissing(repodir)))
    ensures commits >= 1 && log.Some? && log.value.returncode != 0 ==> r == Err(Errors.Vcs(HistoryError(log.value.err)))
    ensures r.Ok? ==> log.Some? && log.value.returncode == 0 && |r.value| <= |Text.Split(log.value.output, "\0")|
    ensures r.Ok? ==> r.value == ParseBlocks(Text.Split(log.value.output, "\0"))
  {
    if commits < 1 then Err(Errors.Foreign("ValueError"))
    else
      match log
      case None => Err(Errors.Vcs(GitCommands.GitMissing(repodir)))
      case Some(run) =>
        if run.returncode != 0 then Err(Errors.Vcs(HistoryError(run.err)))
        else Ok(ParseBlocks(Text.Split(run.output, "\0")))
  }

  // ---------------------------------------------------------------------------
  // What git writes, and reading it back
  // ---------------------------------------------------------------------------

  /** One commit as git knows it: the fields the format string asks for. */
  datatype LogEntry = LogEntry(hash: string, author: string, email: string, date: nat, subject: string, body: string)

  /** A one-line field: no byte line boundary and no NUL. */
  predicate OneLine(s: string) {
    forall i :: 0 <= i < |s| ==> !Text.IsByteLineBreak(s[i]) && s[i] != '\0'
  }

  /** The fields git writes for a commit: one-line header values, and a body without NUL. */
  predicate WellFormed(e: LogEntry) {
    && OneLine(e.hash) && OneLine(e.author) && OneLine(e.email) && OneLine(e.subject)
    && (forall i :: 0 <= i < |e.body| ==> e.body[i] != '\0')
  }

  /** The header lines of a block, in the order the format string writes them. */
  function HeaderLines(e: LogEntry): seq<string> {
    ["id:" + e.hash, "author_username:" + e.author, "author_email:" + e.email,
     "commit_date:" + Text.NatToString(e.date), "title:" + e.subject]
  }

  /** The block git writes for one commit, before its NUL. */
  function RenderRecord(e: LogEntry): string {
    Text.Join(HeaderLines(e), "\n") + Marker + e.body
  }

  /** The commit the reader should make of a log entry. */
  function Expected(e: LogEntry): Commit {
    Commit(Some(e.hash), Some(e.subject), e.body, e.subject + "\n" + e.body,
           Some(e.author), Some(e.email), Some(e.date))
  }

  /** The blocks git writes, one per entry. */
  function Records(es: seq<LogEntry>): (rs: seq<string>)
    ensures |rs| == |es| && forall k :: 0 <= k < |es| ==> rs[k] == RenderRecord(es[k])
  {
    seq(|es|, k requires 0 <= k < |es| => RenderRecord(es[k]))
  }

  /** Blocks, each followed by a NUL and a newline. */
  function JoinLog(rs: seq<string>): string {
    if rs == [] then "" else rs[0] + "\0\n" + JoinLog(rs[1..])
  }

  /** `git log` output: every block followed by a NUL and a newline. */
  function RenderLog(es: seq<LogEntry>): string {
    JoinLog(Records(es))
  }

  function ExpectedLog(es: seq<LogEntry>): (r: seq<Commit>)
    ensures |r| == |es| && forall k :: 0 <= k < |es| ==> r[k] == Expected(es[k])
  {
    if es == [] then [] else [Expected(es[0])] + ExpectedLog(es[1..])
  }

  lemma OneLinePrefixed(p: string, v: string)
    requires OneLine(p) && OneLine(v)
    ensures OneLine(p + v)
  {
    forall i | 0 <= i < |p + v| ensures !Text.IsByteLineBreak((p + v)[i]) && (p + v)[i] != '\0' {
      if i < |p| {
        assert (p + v)[i] == p[i];
      } else {
        assert (p + v)[i] == v[i - |p|];
      }
    }
  }

  lemma HeaderLinesShape(e: LogEntry)
    requires WellFormed(e)
    ensures forall k :: 0 <= k < 5 ==> OneLine(HeaderLines(e)[k]) && HeaderLines(e)[k] != []
    ensures forall k :: 1 <= k < 5 ==> HeaderLines(e)[k][0] != Marker[1]
  {
    var d := Text.NatToString(e.date);
    assert OneLine(d);
    OneLinePrefixed("id:", e.hash);
    OneLinePrefixed("author_username:", e.author);
    OneLinePrefixed("author_email:", e.email);
    OneLinePrefixed("commit_date:", d);
    OneLinePrefixed("title:", e.subject);
  }

  /** The description marker found in a block is the one after the header. */
  lemma SplitRecord(e: LogEntry)
    requires WellFormed(e)
    ensures SplitDescription(RenderRecord(e)) == (Text.Join(HeaderLines(e), "\n"), e.body)
  {
    var lines := HeaderLines(e);
    HeaderLinesShape(e);
    Text.MarkerAfterLines(lines, Marker, e.body);
    var s := RenderRecord(e);
    var h := Text.Join(lines, "\n");
    assert s[..|h|] == h;
    assert s[|h| + |Marker|..] == e.body;
    NoNulUnstripped(e.body);
  }

  lemma NoNulUnstripped(s: string)
    requires forall i :: 0 <= i < |s| ==> s[i] != '\0'
    ensures StripNul(s) == s
  {
  }

  /** The header lines come back out of `splitlines()`. */
  lemma HeaderSplits(e: LogEntry)
    requires WellFormed(e)
    ensures Text.SplitByteLines(Text.Join(HeaderLines(e), "\n")) == HeaderLines(e)
  {
    HeaderLinesShape(e);
    Text.SplitLinesOfJoin(HeaderLines(e), Text.IsByteLineBreak);
  }

  /** A line labelled with `key` and not with `other`, when the two labels differ at position `p`. */
  lemma Unlabelled(line: string, key: string, other: string, p: nat)
    requires Labelled(line, key)
    requires p < |key| + 1 && p < |other| + 1 && (key + ":")[p] != (other + ":")[p]
    ensures !Labelled(line, other)
  {
    assert line[p] == (key + ":")[p];
    if |other| + 1 <= |line| {
      assert line[..|other| + 1][p] == line[p];
    }
  }

  lemma Label(key: string, v: string)
    ensures Labelled(key + ":" + v, key) && ValueOf(key + ":" + v, key) == v
  {
    assert (key + ":" + v)[..|key| + 1] == key + ":";
    assert (key + ":" + v)[|key| + 1..] == v;
  }

  /** One step of the header loop on a line that some pending key labels. */
  lemma ScanStep(lines: seq<string>, pending: seq<string>, found: map<string, string>, k: nat, v: string)
    requires lines != [] && lines[0] != [] && MatchKey(lines[0], pending) == Some(k) && ValueOf(lines[0], pending[k]) == v
    ensures ScanFields(lines, pending, found) == ScanFields(lines[1..], Without(pending, k), found[pending[k] := v])
  {
  }

  /** The key at position 2 of `pending` labels a line the first two do not. */
  lemma ThirdKey(line: string, pending: seq<string>)
    requires |pending| >= 3 && !Labelled(line, pending[0]) && !Labelled(line, pending[1]) && Labelled(line, pending[2])
    ensures MatchKey(line, pending) == Some(2)
  {
    assert MatchKey(line, pending[2..]) == Some(0);
    assert pending[1..][1..] == pending[2..];
    assert MatchKey(line, pending[1..]) == Some(1);
  }

  /** The keys still pending after each header line. */
  const AfterId: seq<string> := ["title", "content", "author_username", "author_email", "commit_date"]
  const AfterAuthor: seq<string> := ["title", "content", "author_email", "commit_date"]
  const AfterEmail: seq<string> := ["title", "content", "commit_date"]
  const AfterDate: seq<string> := ["title", "content"]

  lemma PendingShrinks()
    ensures Without(Keys, 0) == AfterId && Without(AfterId, 2) == AfterAuthor
    ensures Without(AfterAuthor, 2) == AfterEmail && Without(AfterEmail, 2) == AfterDate
  {
  }

  /** Each header line is claimed by its own key, which is still pending when the line comes. */
  lemma HeaderMatches(e: LogEntry)
    ensures var lines := HeaderLines(e);
            && MatchKey(lines[0], Keys) == Some(0) && ValueOf(lines[0], "id") == e.hash
            && MatchKey(lines[1], AfterId) == Some(2) && ValueOf(lines[1], "author_username") == e.author
            && MatchKey(lines[2], AfterAuthor) == Some(2) && ValueOf(lines[2], "author_email") == e.email
            && MatchKey(lines[3], AfterEmail) == Some(2) && ValueOf(lines[3], "commit_date") == Text.NatToString(e.date)
            && MatchKey(lines[4], AfterDate) == Some(0) && ValueOf(lines[4], "title") == e.subject
  {
    var lines := HeaderLines(e);
    Label("id", e.hash);
    Label("author_username", e.author);
    Label("author_email", e.email);
    Label("commit_date", Text.NatToString(e.date));
    Label("title", e.subject);
    Unlabelled(lines[1], "author_username", "title", 0);
    Unlabelled(lines[1], "author_username", "content", 0);
    ThirdKey(lines[1], AfterId);
    Unlabelled(lines[2], "author_email", "title", 0);
    Unlabelled(lines[2], "author_email", "content", 0);
    ThirdKey(lines[2], AfterAuthor);
    Unlabelled(lines[3], "commit_date", "title", 0);
    Unlabelled(lines[3], "commit_date", "content", 2);
    ThirdKey(lines[3], AfterEmail);
  }

  /** The last two header lines: the date, then the title. */
  lemma ScanTail(lines: seq<string>, found: map<string, string>, d: string, t: string)
    requires |lines| == 2
    requires lines[0] != [] && MatchKey(lines[0], AfterEmail) == Some(2) && ValueOf(lines[0], "commit_date") == d
    requires lines[1] != [] && MatchKey(lines[1], AfterDate) == Some(0) && ValueOf(lines[1], "title") == t
    ensures ScanFields(lines, AfterEmail, found) == found["commit_date" := d]["title" := t]
  {
    PendingShrinks();
    ScanStep(lines, AfterEmail, found, 2, d);
    ScanStep(lines[1..], AfterDate, found["commit_date" := d], 0, t);
  }

  /** The header loop sets each of the five keys from its own line. */
  lemma ScanHeader(e: LogEntry)
    ensures ScanFields(HeaderLines(e), Keys, map[])
            == map["id" := e.hash, "author_username" := e.author, "author_email" := e.email,
                   "commit_date" := Text.NatToString(e.date), "title" := e.subject]
  {
    var lines := HeaderLines(e);
    HeaderMatches(e);
    PendingShrinks();
    var m0 := map["id" := e.hash];
    var m1 := m0["author_username" := e.author];
    var m2 := m1["author_email" := e.email];
    ScanStep(lines, Keys, map[], 0, e.hash);
    ScanStep(lines[1..], AfterId, m0, 2, e.author);
    ScanStep(lines[2..], AfterAuthor, m1, 2, e.email);
    ScanTail(lines[3..], m2, Text.NatToString(e.date), e.subject);
  }

  /** Reading a block that needs no stripping, from its two parts and the header fields. */
  lemma ParseFromParts(s: string, h: string, body: string, fields: map<string, string>)
    requires s != [] && !Text.IsByteSpace(s[0])
    requires SplitDescription(s) == (h, body)
    requires ScanFields(Text.SplitByteLines(h), Keys, map[]) == fields
    ensures ParseHistoryRecord(s) == Some(ToCommit(fields, body))
  {
    assert Text.LStripBytes(s) == s;
  }

  lemma ExpectedFields(e: LogEntry)
    ensures ToCommit(map["id" := e.hash, "author_username" := e.author, "author_email" := e.email,
                         "commit_date" := Text.NatToString(e.date), "title" := e.subject], e.body) == Expected(e)
  {
    Text.DigitsValueOfNatToString(e.date);
  }

  /**
   * Reading back one block git writes: every header field, the body as the
   * description verbatim (even when it holds lines that look like header
   * fields), the content, and the date.
   */
  lemma RecordRoundTrip(e: LogEntry)
    requires WellFormed(e)
    ensures ParseHistoryRecord(RenderRecord(e)) == Some(Expected(e))
  {
    var h := Text.Join(HeaderLines(e), "\n");
    RecordStart(e);
    SplitRecord(e);
    HeaderSplits(e);
    ScanHeader(e);
    ExpectedFields(e);
    ParseFromParts(RenderRecord(e), h, e.body,
                   map["id" := e.hash, "author_username" := e.author, "author_email" := e.email,
                       "commit_date" := Text.NatToString(e.date), "title" := e.subject]);
  }

  /** The newline git writes after a NUL does not disturb the next block. */
  lemma LeadingNewline(e: LogEntry)
    requires WellFormed(e)
    ensures ParseHistoryRecord("\n" + RenderRecord(e)) == ParseHistoryRecord(RenderRecord(e))
  {
    RecordStart(e);
    LeadStripped("\n", RenderRecord(e));
  }

  /** A block git writes starts with "id:", so it needs no stripping. */
  lemma RecordStart(e: LogEntry)
    requires WellFormed(e)
    ensures RenderRecord(e) != [] && !Text.IsByteSpace(RenderRecord(e)[0])
  {
    HeaderLinesShape(e);
    Text.JoinEnds(HeaderLines(e), "\n");
    assert RenderRecord(e)[0] == Text.Join(HeaderLines(e), "\n")[0] == 'i';
  }

  /** Stripping a piece whose block starts with a non-space removes exactly its lead. */
  lemma LeadStripped(lead: string, s: string)
    requires lead == "" || lead == "\n"
    requires s != [] && !Text.IsByteSpace(s[0])
    ensures Text.LStripBytes(s) == s
    ensures Text.LStripBytes(lead + s) == s
  {
    if lead == "\n" {
      assert (lead + s)[1..] == s;
    } else {
      assert lead + s == s;
    }
  }

  /** A body holding a line "title:..." stays in the description and does not replace the title. */
  lemma DescriptionIsNotReparsed(e: LogEntry, fake: string)
    requires WellFormed(e) && OneLine(fake)
    requires e.body == "title:" + fake + "\n"
    ensures ParseHistoryRecord(RenderRecord(e)).Some?
    ensures ParseHistoryRecord(RenderRecord(e)).value.title == Some(e.subject)
    ensures ParseHistoryRecord(RenderRecord(e)).value.description == "title:" + fake + "\n"
  {
    RecordRoundTrip(e);
  }

  /** The NUL-separated pieces of the log, the first led by `lead` and the others by the newline git writes after each NUL. */
  function LogParts(rs: seq<string>, lead: string): (r: seq<string>)
    ensures |r| == |rs| + 1
  {
    if rs == [] then [lead] else [lead + rs[0]] + LogParts(rs[1..], "\n")
  }

  lemma {:induction false} LogIsJoinedParts(rs: seq<string>, lead: string)
    ensures lead + JoinLog(rs) == Text.Join(LogParts(rs, lead), "\0")
    decreases |rs|
  {
    if rs != [] {
      LogIsJoinedParts(rs[1..], "\n");
      var rest := LogParts(rs[1..], "\n");
      assert LogParts(rs, lead)[1..] == rest;
      assert lead + JoinLog(rs) == (lead + rs[0]) + "\0" + ("\n" + JoinLog(rs[1..]));
    }
  }

  lemma NoNulInRecord(e: LogEntry)
    requires WellFormed(e)
    ensures forall j :: 0 <= j < |RenderRecord(e)| ==> RenderRecord(e)[j] != '\0'
  {
    HeaderLinesShape(e);
    NoNulInJoin(HeaderLines(e));
    var h := Text.Join(HeaderLines(e), "\n");
    var s := RenderRecord(e);
    forall j | 0 <= j < |s| ensures s[j] != '\0' {
      if j < |h| {
        assert s[j] == h[j];
      } else if j < |h| + |Marker| {
        assert s[j] == Marker[j - |h|];
      } else {
        assert s[j] == e.body[j - |h| - |Marker|];
      }
    }
  }

  lemma {:induction false} NoNulInJoin(lines: seq<string>)
    requires forall k :: 0 <= k < |lines| ==> OneLine(lines[k])
    ensures forall j :: 0 <= j < |Text.Join(lines, "\n")| ==> Text.Join(lines, "\n")[j] != '\0'
    decreases |lines|
  {
    if |lines| > 1 {
      NoNulInJoin(lines[1..]);
      var t := Text.Join(lines[1..], "\n");
      var s := Text.Join(lines, "\n");
      assert s == lines[0] + "\n" + t;
      forall j | 0 <= j < |s| ensures s[j] != '\0' {
        if j < |lines[0]| {
          assert s[j] == lines[0][j];
        } else if j > |lines[0]| {
          assert s[j] == t[j - |lines[0]| - 1];
        }
      }
    }
  }

  /** Blocks without NUL give pieces without NUL. */
  lemma {:induction false} PartsHaveNoNul(rs: seq<string>, lead: string)
    requires forall k, j :: 0 <= k < |rs| && 0 <= j < |rs[k]| ==> rs[k][j] != '\0'
    requires lead == "" || lead == "\n"
    ensures forall k, j :: 0 <= k < |LogParts(rs, lead)| && 0 <= j < |LogParts(rs, lead)[k]| ==> LogParts(rs, lead)[k][j] != '\0'
    decreases |rs|
  {
    if rs != [] {
      forall k, j | 0 <= k < |rs[1..]| && 0 <= j < |rs[1..][k]| ensures rs[1..][k][j] != '\0' {
        assert rs[1..][k] == rs[k + 1];
      }
      PartsHaveNoNul(rs[1..], "\n");
      var first := lead + rs[0];
      forall j | 0 <= j < |first| ensures first[j] != '\0' {
        if j >= |lead| {
          assert first[j] == rs[0][j - |lead|];
        }
      }
      assert LogParts(rs, lead) == [first] + LogParts(rs[1..], "\n");
    }
  }

  lemma RecordsHaveNoNul(es: seq<LogEntry>)
    requires forall k :: 0 <= k < |es| ==> WellFormed(es[k])
    ensures forall k, j :: 0 <= k < |Records(es)| && 0 <= j < |Records(es)[k]| ==> Records(es)[k][j] != '\0'
  {
    forall k | 0 <= k < |es| ensures forall j :: 0 <= j < |Records(es)[k]| ==> Records(es)[k][j] != '\0' {
      NoNulInRecord(es[k]);
    }
  }

  /** Piece `k` of the log: the lead or a newline, then block `k`; the last piece is the lead or a newline alone. */
  lemma {:induction false} LogPartAt(rs: seq<string>, lead: string, k: nat)
    requires k <= |rs|
    ensures k < |rs| ==> LogParts(rs, lead)[k] == (if k == 0 then lead else "\n") + rs[k]
    ensures k == |rs| ==> LogParts(rs, lead)[k] == (if k == 0 then lead else "\n")
    decreases k
  {
    if k > 0 {
      LogPartAt(rs[1..], "\n", k - 1);
      assert LogParts(rs, lead)[k] == LogParts(rs[1..], "\n")[k - 1];
      assert k < |rs| ==> rs[1..][k - 1] == rs[k];
    }
  }

  /**
   * Pieces each read as the matching value, followed by one piece read as
   * nothing, give exactly those values.
   */
  lemma ReadPieces<C>(f: string -> Option<C>, parts: seq<string>, cs: seq<C>)
    requires |parts| == |cs| + 1
    requires forall k :: 0 <= k < |cs| ==> f(parts[k]) == Some(cs[k])
    requires f(parts[|cs|]).None?
    ensures Present(MapAll(f, parts)) == cs
  {
    PresentOfSomes(MapAll(f, parts), cs);
  }

  /** `f` reads each block, with or without a newline in front, as the matching value. */
  ghost predicate ReadsBack<C>(f: string -> Option<C>, rs: seq<string>, cs: seq<C>) {
    && |rs| == |cs|
    && forall k :: 0 <= k < |rs| ==> f(rs[k]) == Some(cs[k]) && f("\n" + rs[k]) == Some(cs[k])
  }

  /** `f` reads a blank piece as nothing. */
  ghost predicate SkipsBlanks<C>(f: string -> Option<C>) {
    f("").None? && f("\n").None?
  }

  /**
   * Blocks that read back as the matching values, where a blank piece
   * reads as nothing: the log's pieces read as exactly those values.
   */
  lemma ReadRecords<C>(f: string -> Option<C>, rs: seq<string>, cs: seq<C>)
    requires ReadsBack(f, rs, cs) && SkipsBlanks(f)
    ensures Present(MapAll(f, LogParts(rs, ""))) == cs
  {
    var parts := LogParts(rs, "");
    forall k | 0 <= k < |cs| ensures f(parts[k]) == Some(cs[k]) {
      LogPartAt(rs, "", k);
      if k == 0 {
        assert "" + rs[k] == rs[k];
      }
    }
    LogPartAt(rs, "", |rs|);
    ReadPieces(f, parts, cs);
  }

  /** Each block git writes, with or without the newline before it, reads as the commit expected of its entry. */
  lemma RecordsRead(es: seq<LogEntry>)
    requires forall k :: 0 <= k < |es| ==> WellFormed(es[k])
    ensures ReadsBack(ParseHistoryRecord, Records(es), ExpectedLog(es))
  {
    BlocksRead(es);
  }

  lemma BlocksRead(es: seq<LogEntry>)
    requires forall k :: 0 <= k < |es| ==> WellFormed(es[k])
    ensures forall k :: 0 <= k < |es| ==> ParseHistoryRecord(Records(es)[k]) == Some(ExpectedLog(es)[k])
    ensures forall k :: 0 <= k < |es| ==> ParseHistoryRecord("\n" + Records(es)[k]) == Some(ExpectedLog(es)[k])
  {
    forall k | 0 <= k < |es|
      ensures ParseHistoryRecord(Records(es)[k]) == Some(ExpectedLog(es)[k])
              && ParseHistoryRecord("\n" + Records(es)[k]) == Some(ExpectedLog(es)[k])
    {
      EntryReadsBack(es[k]);
    }
  }

  /** One entry's block reads back with or without the newline before it. */
  lemma EntryReadsBack(e: LogEntry)
    requires WellFormed(e)
    ensures ParseHistoryRecord(RenderRecord(e)) == Some(Expected(e))
    ensures ParseHistoryRecord("\n" + RenderRecord(e)) == Some(Expected(e))
  {
    RecordRoundTrip(e);
    LeadingNewline(e);
  }

  /** Blank pieces read as nothing. */
  lemma BlankPieces()
    ensures SkipsBlanks(ParseHistoryRecord)
  {
    Text.BlankStrips("");
    Text.BlankStrips("\n");
  }

  /** Splitting the log at each NUL gives back its pieces. */
  lemma SplitLog(es: seq<LogEntry>)
    requires forall k :: 0 <= k < |es| ==> WellFormed(es[k])
    ensures Text.Split(RenderLog(es), "\0") == LogParts(Records(es), "")
  {
    LogIsJoinedParts(Records(es), "");
    Text.EmptyPrefix(RenderLog(es));
    RecordsHaveNoNul(es);
    PartsHaveNoNul(Records(es), "");
    Text.SplitOfJoin(LogParts(Records(es), ""), '\0');
  }

  /**
   * Reading back the whole `git log` output: one commit per entry, in
   * order; the blank piece after the last NUL gives nothing.
   */
  lemma LogRoundTrip(repodir: string, commits: int, es: seq<LogEntry>, err: string)
    requires commits >= 1
    requires forall k :: 0 <= k < |es| ==> WellFormed(es[k])
    ensures GetLastCommits(repodir, commits, Some(RunOutput(0, RenderLog(es), err))) == Ok(ExpectedLog(es))
  {
    SplitLog(es);
    ReadLog(es);
  }

  /** The pieces of the log read as one commit per entry. */
  lemma ReadLog(es: seq<LogEntry>)
    requires forall k :: 0 <= k < |es| ==> WellFormed(es[k])
    ensures ParseBlocks(LogParts(Records(es), "")) == ExpectedLog(es)
  {
    RecordsRead(es);
    BlankPieces();
    ReadRecords(ParseHistoryRecord, Records(es), ExpectedLog(es));
  }

  /** A second "title:" line is ignored: once a key is set it is no longer pending. */
  lemma FirstLabelWins(a: string, b: string)
    ensures ScanFields(["title:" + a, "title:" + b], Keys, map[]) == map["title" := a]
  {
    var l0, l1 := "title:" + a, "title:" + b;
    Label("title", a);
    Label("title", b);
    Unlabelled(l0, "title", "id", 0);
    assert MatchKey(l0, Keys[1..]) == Some(0);
    var rest := ["id", "content", "author_username", "author_email", "commit_date"];
    assert Without(Keys, 1) == rest;
    Unlabelled(l1, "title", "id", 0);
    Unlabelled(l1, "title", "content", 0);
    Unlabelled(l1, "title", "author_username", 0);
    Unlabelled(l1, "title", "author_email", 0);
    Unlabelled(l1, "title", "commit_date", 0);
    assert MatchKey(l1, rest).None?;
    ScanStep([l0, l1], Keys, map[], 1, a);
  }
}

=== FILE: manager.dfy ===
/**
 * `VCSBackendManager`: holds the registered backend constructors and the one
 * active backend. Binding a directory probes the constructors in
 * registration order; each constructor's outcome is a tagged value instead of
 * a raised exception.
 */
module Manager {
  import opened Wrappers
  import Errors

  /** A constructed backend; `repodir` is the directory it reports (for git, the work-tree root). */
  datatype Backend = Backend(vcsName: string, repodir: string)

  /** What calling a backend class with a path does: return an instance, or raise. */
  datatype Construction = Constructed(backend: Backend) | Raised(exc: Errors.Exception)

  /** A registered backend class, seen as its constructor. */
  type Constructor = string -> Construction

  datatype Manager = Manager(backends: seq<Constructor>, active: Option<Backend>)

  const NoBackendMessage := "Valid backend not found for the given directory"

  /** The raise the setter ends with when no constructor succeeds. */
  function NoValidBackend(): Errors.Exception {
    Errors.Vcs(Errors.NewVcsError(Some(NoBackendMessage), None))
  }

  /** The `except VCSBackendFail` and `except VCSError` clauses: both move on to the next constructor. */
  predicate Swallowed(c: Construction) {
    c.Raised? && (Errors.IsInstance(c.exc, Errors.VCSBackendFail) || Errors.IsInstance(c.exc, Errors.VCSError))
  }

  /** The manager's `repodir` getter: the active backend's directory, or None. */
  function Repodir(m: Manager): (r: Option<string>)
    ensures r.Some? <==> m.active.Some?
    ensures r.Some? ==> r.value == m.active.value.repodir
  {
    match m.active
    case Some(b) => Some(b.repodir)
    case None => None
  }

  /** Outcome of the probe loop from index `i` on. */
  datatype Probe = Selected(backend: Backend, index: nat) | Exhausted | Propagated(exc: Errors.Exception, index: nat)

  function ProbeFrom(cs: seq<Constructor>, path: string, i: nat): (r: Probe)
    requires i <= |cs|
    ensures r.Selected? ==> i <= r.index < |cs| && cs[r.index](path) == Constructed(r.backend)
    ensures r.Propagated? ==> i <= r.index < |cs| && cs[r.index](path) == Raised(r.exc) && !Swallowed(cs[r.index](path))
    ensures !r.Exhausted? ==> forall j :: i <= j < r.index ==> Swallowed(cs[j](path))
    ensures r.Exhausted? ==> forall j :: i <= j < |cs| ==> Swallowed(cs[j](path))
    decreases |cs| - i
  {
    if i == |cs| then Exhausted
    else
      match cs[i](path)
      case Constructed(b) => Selected(b, i)
      case Raised(exc) =>
        if Swallowed(cs[i](path)) then ProbeFrom(cs, path, i + 1) else Propagated(exc, i)
  }

  /**
   * The `repodir` setter. The active backend is dropped first; an empty path
   * leaves none. Otherwise the first constructor that returns wins, VCS
   * errors move on to the next one, any other exception escapes, and when
   * every constructor fails the setter raises "Valid backend not found".
   * Returns the manager after the call and the exception raised, if any.
   */
  function SetRepodir(m: Manager, path: string): (r: (Manager, Option<Errors.Exception>))
    ensures r.0.backends == m.backends
    ensures path == "" ==> r.0.active.None? && r.1.None?
    ensures r.1.None? ==> path == "" || (r.0.active.Some? && exists i :: (0 <= i < |m.backends|
              && m.backends[i](path) == Constructed(r.0.active.value)
              && forall j :: 0 <= j < i ==> Swallowed(m.backends[j](path))))
    ensures r.1.Some? ==> r.0.active.None?
    ensures path != "" && (forall j :: 0 <= j < |m.backends| ==> Swallowed(m.backends[j](path))) ==> r.1 == Some(NoValidBackend())
    ensures r.1.Some? && r.1.value != NoValidBackend() ==> exists i :: (0 <= i < |m.backends|
              && m.backends[i](path) == Raised(r.1.value) && !Swallowed(m.backends[i](path))
              && forall j :: 0 <= j < i ==> Swallowed(m.backends[j](path)))
  {
    var cleared := m.(active := None);
    if path == "" then (cleared, None)
    else
      match ProbeFrom(m.backends, path, 0)
      case Selected(b, _) => (m.(active := Some(b)), None)
      case Exhausted => (cleared, Some(NoValidBackend()))
      case Propagated(exc, i) =>
        assert !Swallowed(m.backends[i](path));
        assert exc != NoValidBackend();
        (cleared, Some(exc))
  }

  /** `VCSBackendManager(repodir, *backends)`: store the constructors, then run the setter. */
  function Create(repodir: string, backends: seq<Constructor>): (r: (Manager, Option<Errors.Exception>))
    ensures r.0.backends == backends
    ensures repodir == "" ==> r.0.active.None? && r.1.None?
    ensures r.1.Some? ==> r.0.active.None?
    ensures r.1.None? && repodir != "" ==> r.0.active.Some? && Repodir(r.0).Some?
  {
    SetRepodir(Manager(backends, None), repodir)
  }

  /** `register_backend`: append at the end of the probe order; the active backend is untouched. */
  function Register(m: Manager, c: Constructor): (r: Manager)
    ensures r.backends == m.backends + [c] && r.active == m.active
  {
    m.(backends := m.backends + [c])
  }

  // ---------------------------------------------------------------------------
  // Properties
  // ---------------------------------------------------------------------------

  /** An empty path leaves no active backend, and `repodir` then reads as None. */
  lemma EmptyPathUnbinds(m: Manager)
    ensures Repodir(SetRepodir(m, "").0).None?
    ensures SetRepodir(m, "").1.None?
  {
  }

  /**
   * The winner is the FIRST constructor that returns: it becomes active and
   * the setter raises nothing, whatever the later constructors would do.
   */
  lemma {:induction false} FirstConstructedWins(m: Manager, path: string, i: nat, b: Backend)
    requires path != ""
    requires i < |m.backends| && m.backends[i](path) == Constructed(b)
    requires forall j :: 0 <= j < i ==> Swallowed(m.backends[j](path))
    ensures SetRepodir(m, path) == (m.(active := Some(b)), None)
    ensures Repodir(SetRepodir(m, path).0) == Some(b.repodir)
  {
    ProbeReaches(m.backends, path, 0, i);
  }

  lemma {:induction false} ProbeReaches(cs: seq<Constructor>, path: string, k: nat, i: nat)
    requires k <= i < |cs|
    requires forall j :: k <= j < i ==> Swallowed(cs[j](path))
    ensures ProbeFrom(cs, path, k) == ProbeFrom(cs, path, i)
    decreases i - k
  {
    if k < i {
      ProbeReaches(cs, path, k + 1, i);
    }
  }

  /** A non-VCS exception escapes from the setter, and the previous backend is already gone. */
  lemma {:induction false} ForeignExceptionEscapes(m: Manager, path: string, i: nat, name: string)
    requires path != ""
    requires i < |m.backends| && m.backends[i](path) == Raised(Errors.Foreign(name))
    requires forall j :: 0 <= j < i ==> Swallowed(m.backends[j](path))
    ensures SetRepodir(m, path).1 == Some(Errors.Foreign(name))
    ensures SetRepodir(m, path).0.active.None?
  {
    ProbeReaches(m.backends, path, 0, i);
  }

  /** Every error of the taxonomy is swallowed by the probe loop. */
  lemma VcsErrorsAreSwallowed(e: Errors.VcsError)
    ensures Swallowed(Raised(Errors.Vcs(e)))
  {
    Errors.Hierarchy(Errors.ClassOf(e));
  }

  /**
   * Registering a constructor never changes an outcome the earlier
   * constructors already decide: it is consulted only after every earlier
   * constructor raised a VCS error.
   */
  lemma {:induction false} RegisterKeepsEarlierOutcome(m: Manager, c: Constructor, path: string)
    requires SetRepodir(m, path).1 != Some(NoValidBackend())
    ensures SetRepodir(Register(m, c), path) == (Register(SetRepodir(m, path).0, c), SetRepodir(m, path).1)
  {
    if path != "" {
      ProbeExtend(m.backends, c, path, 0);
    }
  }

  lemma {:induction false} ProbeExtend(cs: seq<Constructor>, c: Constructor, path: string, i: nat)
    requires i <= |cs|
    requires !ProbeFrom(cs, path, i).Exhausted?
    ensures ProbeFrom(cs + [c], path, i) == ProbeFrom(cs, path, i)
    decreases |cs| - i
  {
    assert (cs + [c])[i] == cs[i];
    if cs[i](path).Raised? && Swallowed(cs[i](path)) {
      ProbeExtend(cs, c, path, i + 1);
    }
  }

  /** When every registered constructor refuses, a newly registered one is tried and decides. */
  lemma {:induction false} RegisterTriedLast(m: Manager, c: Constructor, path: string, b: Backend)
    requires path != ""
    requires forall j :: 0 <= j < |m.backends| ==> Swallowed(m.backends[j](path))
    requires c(path) == Constructed(b)
    ensures SetRepodir(m, path).1 == Some(NoValidBackend())
    ensures SetRepodir(Register(m, c), path) == (Register(m, c).(active := Some(b)), None)
  {
    var cs := m.backends + [c];
    assert forall j :: 0 <= j < |m.backends| ==> cs[j] == m.backends[j];
    FirstConstructedWins(Register(m, c), path, |m.backends|, b);
  }
}

=== FILE: remote.dfy ===
/**
 * Remote operations (fetch, pull, push) on a POSIX system:
 * `git_remote_operation_posix`, which drives git in a pseudo-terminal
 * through its username and password prompts and classifies how it ended,
 * and `GitBackend._remote_operation`, which turns that classification into
 * the operation's result or error.
 *
 * The terminal session is not run here: a `Session` records what each
 * `expect` call observed and the state of the child process after it.
 */
module Remote {
  import opened Wrappers
  import Text
  import Errors
  import GitCommands

  /** What one `expect` call returned: its pattern (index 0), end of file (1), or the timeout (2). */
  datatype Expectation = Prompt | Eof | Timeout

  /**
   * The child process as pexpect reports it: whether it is still alive, its
   * exit status and terminating signal (None while unknown), and the text it
   * wrote before the last `expect` returned.
   */
  datatype Child = Child(alive: bool, exitStatus: Option<int>, signalStatus: Option<int>, before: string)

  /**
   * A session: the username-prompt `expect` and the child after it, the
   * password-prompt `expect`, and the child once it has ended (after the
   * final `expect` for end of file and the `wait`).
   */
  datatype Session = Session(first: Expectation, afterFirst: Child, second: Expectation, final: Child)

  /**
   * The value the function returns: True (the operation went through),
   * False (the credentials were refused), git's message, or None.
   */
  datatype Status = Authenticated | Rejected | Message(text: string) | Failed

  /** Python truthiness of an exit status or signal number. */
  predicate Set(n: Option<int>) {
    n.Some? && n.value != 0
  }

  /** What git says when the server refuses the credentials, compared in lower case. */
  const DeniedMarker := "http basic: access denied"

  /** `message.lower().find(b"http basic: access denied") != -1`. */
  predicate Denied(message: string) {
    Text.Find(Text.Lower(message), DeniedMarker).Some?
  }

  /** The result and the lines written to git's terminal, in order. */
  datatype Outcome = Outcome(status: Status, sent: seq<string>)

  /**
   * `git_remote_operation_posix(repopath, command, username, password)`.
   * Without git it returns None. At the username prompt it sends the
   * username; if instead the child has already ended, that ending decides
   * (killed: None; failed: its message; otherwise True). A child still
   * alive after the first `expect` gets a second one, for the password
   * prompt, even when no username was asked for. Without a password prompt
   * the result is None. After the password, a clean exit is True, a
   * refusal is False, and any other ending is git's message.
   */
  function PosixOperation(gitFound: bool, s: Session, username: string, password: string): (r: Outcome)
    ensures !gitFound ==> r == Outcome(Failed, [])
    ensures |r.sent| <= 2
    ensures gitFound && s.first == Prompt ==> |r.sent| >= 1 && r.sent[0] == username
    ensures gitFound && s.first != Prompt ==> r.sent == [] || r.sent == [password]
    ensures r.status.Rejected? ==> |r.sent| > 0 && r.sent[|r.sent| - 1] == password && Denied(s.final.before)
                                   && (Set(s.final.exitStatus) || Set(s.final.signalStatus))
    ensures r.status.Rejected? || (r.status.Authenticated? && |r.sent| > 0) ==> gitFound && s.second == Prompt
    ensures r.status.Message? ==> r.status.text == s.afterFirst.before || r.status.text == s.final.before
    ensures gitFound && s.first != Prompt && !s.afterFirst.alive ==> r.sent == []
    ensures gitFound && s.first != Prompt && !s.afterFirst.alive && Set(s.afterFirst.signalStatus)
            ==> r == Outcome(Failed, [])
    ensures gitFound && s.first != Prompt && !s.afterFirst.alive && !Set(s.afterFirst.signalStatus)
            ==> r.status == (if Set(s.afterFirst.exitStatus) then Message(s.afterFirst.before) else Authenticated)
    ensures gitFound && (s.first == Prompt || s.afterFirst.alive) && s.second != Prompt ==> r.status.Failed?
    ensures gitFound && (s.first == Prompt || s.afterFirst.alive) && s.second != Prompt
            ==> r.sent == (if s.first == Prompt then [username] else [])
    ensures gitFound && (s.first == Prompt || s.afterFirst.alive) && s.second == Prompt
            ==> r.sent == (if s.first == Prompt then [username] else []) + [password]
    ensures gitFound && (s.first == Prompt || s.afterFirst.alive) && s.second == Prompt
              && !Set(s.final.exitStatus) && !Set(s.final.signalStatus)
            ==> r.status.Authenticated?
    ensures gitFound && (s.first == Prompt || s.afterFirst.alive) && s.second == Prompt
              && (Set(s.final.exitStatus) || Set(s.final.signalStatus))
            ==> r.status == (if Denied(s.final.before) then Rejected else Message(s.final.before))
  {
    if !gitFound then Outcome(Failed, [])
    else
      var sentUser := if s.first == Prompt then [username] else [];
      if s.first != Prompt && !s.afterFirst.alive then
        if Set(s.afterFirst.signalStatus) then Outcome(Failed, [])
        else if Set(s.afterFirst.exitStatus) then Outcome(Message(s.afterFirst.before), [])
        else Outcome(Authenticated, [])
      else if s.second != Prompt then Outcome(Failed, sentUser)
      else
        var sent := sentUser + [password];
        if !(Set(s.final.exitStatus) || Set(s.final.signalStatus)) then Outcome(Authenticated, sent)
        else if Denied(s.final.before) then Outcome(Rejected, sent)
        else Outcome(Message(s.final.before), sent)
  }

  // ---------------------------------------------------------------------------
  // The scenarios of the credential exchange
  // ---------------------------------------------------------------------------

  /** A child that exits cleanly without prompting: success, and no credential is written. */
  lemma NoPromptNoCredentials(before: string, second: Expectation, final: Child, username: string, password: string)
    ensures PosixOperation(true, Session(Eof, Child(false, Some(0), None, before), second, final), username, password)
            == Outcome(Authenticated, [])
  {
  }

  /** A child that fails without prompting: its message is the result. */
  lemma NoPromptFailure(code: int, before: string, second: Expectation, final: Child, username: string, password: string)
    requires code != 0
    ensures PosixOperation(true, Session(Eof, Child(false, Some(code), None, before), second, final), username, password)
            == Outcome(Message(before), [])
  {
  }

  /** The marker git writes is found whatever its case and wherever it sits in the message. */
  lemma DeniedAnywhere(pre: string, m: string, post: string)
    requires Text.Lower(m) == DeniedMarker
    ensures Denied(pre + m + post)
  {
    Text.LowerFinds(pre, m, post, DeniedMarker);
  }

  /**
   * Both prompts answered and git ending with the refusal in any
   * capitalisation (git writes "HTTP Basic: Access denied") somewhere in its
   * output: the credentials were refused, and the username then the
   * password were written.
   */
  lemma RefusedCredentials(s: Session, pre: string, refusal: string, post: string, username: string, password: string)
    requires s.first == Prompt && s.second == Prompt
    requires Text.Lower(refusal) == DeniedMarker
    requires Set(s.final.exitStatus) && s.final.before == pre + refusal + post
    ensures PosixOperation(true, s, username, password) == Outcome(Rejected, [username, password])
  {
    DeniedAnywhere(pre, refusal, post);
  }

  /** Both prompts answered and a clean exit: success. */
  lemma AcceptedCredentials(s: Session, username: string, password: string)
    requires s.first == Prompt && s.second == Prompt
    requires !Set(s.final.exitStatus) && !Set(s.final.signalStatus)
    ensures PosixOperation(true, s, username, password) == Outcome(Authenticated, [username, password])
  {
  }

  /**
   * A timeout at the username prompt followed by no password prompt gives
   * None. A child still alive after that timeout does get a second
   * `expect`, so a password prompt arriving later is still answered.
   */
  lemma TimeoutAtUsername(s: Session, username: string, password: string)
    requires s.first == Timeout && s.afterFirst.alive
    ensures s.second != Prompt ==> PosixOperation(true, s, username, password) == Outcome(Failed, [])
    ensures s.second == Prompt ==> PosixOperation(true, s, username, password).sent == [password]
  {
  }

  /** Only the lower-cased message decides between a refusal and another failure. */
  lemma RefusalIgnoresCase(s: Session, t: Session, username: string, password: string)
    requires s.first == t.first && s.afterFirst == t.afterFirst && s.second == t.second
    requires s.final.exitStatus == t.final.exitStatus && s.final.signalStatus == t.final.signalStatus
    requires Text.Lower(s.final.before) == Text.Lower(t.final.before)
    ensures PosixOperation(true, s, username, password).status.Rejected?
            <==> PosixOperation(true, t, username, password).status.Rejected?
    ensures PosixOperation(true, s, username, password).sent == PosixOperation(true, t, username, password).sent
  {
  }

  // ---------------------------------------------------------------------------
  // From the session's status to the operation's result
  // ---------------------------------------------------------------------------

  /** The stored credentials `credentials.get(key, "")` reads; a missing key reads as "". */
  datatype Credentials = Credentials(username: Option<string>, password: Option<string>)

  function GetOr(o: Option<string>, default: string): string {
    if o.Some? then o.value else default
  }

  /** `credentials.get("username", "") or get_git_username(repo) or ""`: the username handed to git. */
  function SessionUsername(c: Credentials, gitUsername: Option<string>): (r: string)
    ensures GetOr(c.username, "") != "" ==> r == c.username.value
    ensures GetOr(c.username, "") == "" && gitUsername.Some? && gitUsername.value != "" ==> r == gitUsername.value
    ensures r == "" ==> GetOr(c.username, "") == "" && (gitUsername.None? || gitUsername.value == "")
  {
    if GetOr(c.username, "") != "" then c.username.value
    else if gitUsername.Some? && gitUsername.value != "" then gitUsername.value
    else ""
  }

  /** What a remote operation returns: a boolean, or (as the source writes it) a git exit code. */
  datatype Returned = Flag(b: bool) | ExitCode(code: int)

  /** Python truthiness of the returned value, which is how `pull` and `push` callers read it. */
  predicate Succeeded(r: Returned) {
    match r
    case Flag(b) => b
    case ExitCode(code) => code != 0
  }

  /**
   * After a success: a username stored without a password that differs from
   * git's configured one is written to the repository configuration.
   */
  predicate NeedsConfig(c: Credentials, gitUsername: Option<string>) {
    GetOr(c.username, "") != "" && GetOr(c.password, "") == "" && gitUsername != Some(c.username.value)
  }

  /** The error for a failure other than refused credentials. */
  function RemoteFailure(operation: string): (e: Errors.VcsError)
    ensures e.kind == Errors.Unexpected(Some(operation))
    ensures e.error == Some("Failed to " + operation + " from remote")
  {
    Errors.KeywordConstruction(Some("Failed to " + operation + " from remote"), None, Errors.Unexpected(Some(operation)));
    Errors.NewUnexpected(Errors.Keywords(Some("Failed to " + operation + " from remote"), None), Some(operation)).value
  }

  /**
   * `_remote_operation(operation)` as the source writes it. After a success
   * that needs the configuration update it returns git's exit code, or
   * `_run`'s integrity error when git could not be run for it. On
   * refused credentials it calls `VCSAuthError` without the required
   * `required_credentials` argument, which raises `TypeError`.
   */
  function RemoteOperationAsWritten(operation: string, repodir: string, c: Credentials, gitUsername: Option<string>,
                                    status: Status, configExit: Option<int>): (r: Result<Returned, Errors.Exception>)
    ensures status.Authenticated? && !NeedsConfig(c, gitUsername) ==> r == Ok(Flag(true))
    ensures status.Authenticated? && NeedsConfig(c, gitUsername) && configExit.Some? ==> r == Ok(ExitCode(configExit.value))
    ensures status.Authenticated? && NeedsConfig(c, gitUsername) && configExit.None?
            ==> r == Err(Errors.Vcs(GitCommands.GitMissing(repodir)))
    ensures status.Rejected? ==> r == Err(Errors.Foreign("TypeError"))
    ensures status.Message? || status.Failed? ==> r == Err(Errors.Vcs(RemoteFailure(operation)))
  {
    match status
    case Authenticated =>
      if !NeedsConfig(c, gitUsername) then Ok(Flag(true))
      else
        (match configExit
         case Some(code) => Ok(ExitCode(code))
         case None => Err(Errors.Vcs(GitCommands.GitMissing(repodir))))
    case Rejected => Err(Errors.Foreign("TypeError"))
    case _ => Err(Errors.Vcs(RemoteFailure(operation)))
  }

  /** The authentication error the refusal branch evidently means to raise. */
  function RefusedError(c: Credentials, gitUsername: Option<string>): (e: Errors.VcsError)
    ensures e.kind.Auth? && e.kind.requiredCredentials == [Errors.Username, Errors.Password]
    ensures e.kind.username == Some(SessionUsername(c, gitUsername)) && e.kind.password == c.password
    ensures e.error == Some("Wrong credentials")
  {
    var kind := Errors.Auth([Errors.Username, Errors.Password], Some(SessionUsername(c, gitUsername)), c.password, None, None);
    Errors.KeywordConstruction(Some("Wrong credentials"), None, kind);
    Errors.NewAuth([Errors.Username, Errors.Password], Errors.Keywords(Some("Wrong credentials"), None),
                   Some(SessionUsername(c, gitUsername)), c.password, None, None).value
  }

  /**
   * `_remote_operation(operation)` as evidently intended: the configuration
   * update reports whether it succeeded, and refused credentials raise an
   * authentication error naming the git backend's required credentials.
   * A configuration update git could not run for still raises `_run`'s
   * integrity error.
   */
  function RemoteOperation(operation: string, repodir: string, c: Credentials, gitUsername: Option<string>,
                           status: Status, configExit: Option<int>): (r: Result<Returned, Errors.Exception>)
    ensures r.Ok? <==> status.Authenticated? && (NeedsConfig(c, gitUsername) ==> configExit.Some?)
    ensures r.Ok? ==> r.value.Flag? && (Succeeded(r.value) <==> !NeedsConfig(c, gitUsername) || configExit == Some(0))
    ensures status.Authenticated? && NeedsConfig(c, gitUsername) && configExit.None?
            ==> r == Err(Errors.Vcs(GitCommands.GitMissing(repodir)))
    ensures status.Rejected? ==> r.Err? && Errors.IsInstance(r.error, Errors.VCSAuthError)
    ensures status.Message? || status.Failed? ==> r.Err? && Errors.IsInstance(r.error, Errors.VCSUnexpectedError)
  {
    match status
    case Authenticated =>
      if !NeedsConfig(c, gitUsername) then Ok(Flag(true))
      else
        (match configExit
         case Some(code) => Ok(Flag(code == 0))
         case None => Err(Errors.Vcs(GitCommands.GitMissing(repodir))))
    case Rejected => Err(Errors.Vcs(RefusedError(c, gitUsername)))
    case _ => Err(Errors.Vcs(RemoteFailure(operation)))
  }

  /**
   * The whole POSIX path of `pull`/`push`/`fetch` as the source writes it:
   * the session run with the username chosen from the stored credentials
   * and git's configuration, then its status turned into the result by
   * `RemoteOperationAsWritten`. A refused session raises `TypeError`.
   */
  function RunRemoteAsWritten(operation: string, repodir: string, c: Credentials, gitUsername: Option<string>,
                              gitFound: bool, s: Session, configExit: Option<int>): (r: Result<Returned, Errors.Exception>)
    ensures r.Ok? ==> gitFound
    ensures !gitFound ==> r == Err(Errors.Vcs(RemoteFailure(operation)))
    ensures gitFound && s.first == Prompt && s.second == Prompt && Set(s.final.exitStatus) && Denied(s.final.before)
            ==> r == Err(Errors.Foreign("TypeError"))
  {
    var o := PosixOperation(gitFound, s, SessionUsername(c, gitUsername), GetOr(c.password, ""));
    RemoteOperationAsWritten(operation, repodir, c, gitUsername, o.status, configExit)
  }

  /**
   * The same POSIX path with the corrected `RemoteOperation`: a refused
   * session raises an authentication error, and the configuration update
   * reports a flag.
   */
  function RunRemote(operation: string, repodir: string, c: Credentials, gitUsername: Option<string>,
                     gitFound: bool, s: Session, configExit: Option<int>): (r: Result<Returned, Errors.Exception>)
    ensures r.Ok? ==> gitFound
    ensures !gitFound ==> r.Err? && Errors.IsInstance(r.error, Errors.VCSUnexpectedError)
    ensures gitFound && s.first == Prompt && s.second == Prompt && Set(s.final.exitStatus) && Denied(s.final.before)
            ==> r.Err? && Errors.IsInstance(r.error, Errors.VCSAuthError)
  {
    var o := PosixOperation(gitFound, s, SessionUsername(c, gitUsername), GetOr(c.password, ""));
    RemoteOperation(operation, repodir, c, gitUsername, o.status, configExit)
  }

  // ---------------------------------------------------------------------------
  // The two defects of the refusal and configuration branches
  // ---------------------------------------------------------------------------

  /**
   * As written, a successful remote operation whose configuration update
   * also succeeds returns 0, which callers read as failure; a failing
   * update returns a non-zero code, read as success.
   */
  lemma ConfigExitCodeInverted(operation: string, repodir: string, user: string)
    requires user != ""
    ensures var c := Credentials(Some(user), None);
            && !Succeeded(RemoteOperationAsWritten(operation, repodir, c, None, Authenticated, Some(0)).value)
            && Succeeded(RemoteOperationAsWritten(operation, repodir, c, None, Authenticated, Some(1)).value)
            && Succeeded(RemoteOperation(operation, repodir, c, None, Authenticated, Some(0)).value)
            && !Succeeded(RemoteOperation(operation, repodir, c, None, Authenticated, Some(1)).value)
  {
  }

  /**
   * As written, refused credentials surface as `TypeError`, which is not a
   * `VCSAuthError` the caller can catch to ask for credentials again; the
   * corrected branch raises one.
   */
  lemma RefusalIsNotAnAuthError(operation: string, repodir: string, c: Credentials, gitUsername: Option<string>,
                                configExit: Option<int>)
    ensures !Errors.IsInstance(RemoteOperationAsWritten(operation, repodir, c, gitUsername, Rejected, configExit).error,
                               Errors.VCSError)
    ensures Errors.IsInstance(RemoteOperation(operation, repodir, c, gitUsername, Rejected, configExit).error,
                              Errors.VCSAuthError)
  {
  }

  /** Apart from those two branches, the corrected operation agrees with the source. */
  lemma CorrectionsAreLocal(operation: string, repodir: string, c: Credentials, gitUsername: Option<string>,
                            status: Status, configExit: Option<int>)
    requires !status.Rejected?
    requires status.Authenticated? && NeedsConfig(c, gitUsername) ==> configExit.None?
    ensures RemoteOperation(operation, repodir, c, gitUsername, status, configExit)
            == RemoteOperationAsWritten(operation, repodir, c, gitUsername, status, configExit)
  {
  }

  /**
   * The whole POSIX path agrees with the source for every session that is
   * not refused, whenever no configuration update is due.
   */
  lemma RunRemoteCorrectionIsLocal(operation: string, repodir: string, c: Credentials, gitUsername: Option<string>,
                                   gitFound: bool, s: Session, configExit: Option<int>)
    requires !NeedsConfig(c, gitUsername)
    requires !PosixOperation(gitFound, s, SessionUsername(c, gitUsername), GetOr(c.password, "")).status.Rejected?
    ensures RunRemote(operation, repodir, c, gitUsername, gitFound, s, configExit)
            == RunRemoteAsWritten(operation, repodir, c, gitUsername, gitFound, s, configExit)
  {
    var o := PosixOperation(gitFound, s, SessionUsername(c, gitUsername), GetOr(c.password, ""));
    CorrectionsAreLocal(operation, repodir, c, gitUsername, o.status, configExit);
  }
}

=== FILE: status_header.dfy ===
/**
 * The branch header of `git status -b --porcelain=v1`, read with the pattern
 *
 *   ^## (.+?)(?:\.\.\.(.+?))?(?: \[(.+? \d+)(?:, )?(.+? \d+)?]|(?: \((.+?)\)))?$
 *
 * The match is modelled as the search Python's backtracking engine performs,
 * in its priority order: lazy groups try the shortest text first, `\d+`
 * tries the longest digit run first, and an optional group is tried present
 * before absent. The first success fixes the groups. Lines hold no newline,
 * so `.` is any character; `\d` is an ASCII digit.
 */
module StatusHeader {
  import opened Wrappers
  import Text

  /** What follows the branch names: the tracking bracket (groups 3 and 4), a parenthesised note (group 5), or nothing. */
  datatype Tail = Track(first: string, second: Option<string>) | Note(text: string) | NoTail

  /** Groups 1 and 2 and the tail of a successful match. */
  datatype HeaderMatch = HeaderMatch(local: string, remote: Option<string>, tail: Tail)

  /** `g.rsplit(" ", 1)[-1]`: the text after the last space, or all of `g`. */
  function LastField(g: string): (r: string)
    ensures |r| <= |g| && r == g[|g| - |r|..]
    ensures forall i :: 0 <= i < |r| ==> r[i] != ' '
    ensures |r| < |g| ==> g[|g| - |r| - 1] == ' '
  {
    if g == [] || g[|g| - 1] == ' ' then [] else LastField(g[..|g| - 1]) + [g[|g| - 1]]
  }

  /** The last field after a space at `b` with no space after it is everything after `b`. */
  lemma LastFieldAfter(g: string, b: nat)
    requires b < |g| && g[b] == ' '
    requires forall i :: b < i < |g| ==> g[i] != ' '
    ensures LastField(g) == g[b + 1..]
  {
  }

  /** Index of the last space in `t`, or -1 when there is none. */
  function LastSpace(t: string): (b: int)
    ensures -1 <= b < |t|
    ensures b >= 0 ==> t[b] == ' '
  {
    if |t| == 0 then -1 else if t[|t| - 1] == ' ' then |t| - 1 else LastSpace(t[..|t| - 1])
  }

  lemma {:induction false} LastSpaceIsLast(t: string)
    ensures forall i :: LastSpace(t) < i < |t| ==> t[i] != ' '
  {
    if |t| > 0 && t[|t| - 1] != ' ' {
      var u := t[..|t| - 1];
      LastSpaceIsLast(u);
      forall i | LastSpace(t) < i < |t| ensures t[i] != ' ' {
        if i < |u| {
          assert t[i] == u[i];
        }
      }
    }
  }

  lemma {:induction false} LastSpaceAt(t: string, a: nat)
    requires a < |t| && t[a] == ' '
    requires forall i :: a < i < |t| ==> t[i] != ' '
    ensures LastSpace(t) == a
    decreases |t|
  {
    if a < |t| - 1 {
      var u := t[..|t| - 1];
      assert u[a] == ' ';
      forall i | a < i < |u| ensures u[i] != ' ' {
        assert u[i] == t[i];
      }
      LastSpaceAt(u, a);
    }
  }

  /**
   * `.+? \d+` matching all of `t`: some text, a space, then at least one
   * digit up to the end. Digits hold no space, so that space is the last one.
   */
  predicate CountGroup(t: string) {
    var b := LastSpace(t);
    1 <= b && b + 1 < |t| && Text.AllDigits(t[b + 1..])
  }

  /** A space at `a >= 1` followed by digits up to `e` makes `s[..e]` a count group. */
  lemma CountGroupPrefix(s: string, a: nat, e: nat)
    requires 1 <= a && a + 1 < e <= |s| && s[a] == ' '
    requires forall j :: a + 1 <= j < e ==> Text.IsDigit(s[j])
    ensures CountGroup(s[..e])
  {
    var g := s[..e];
    forall i | a < i < |g| ensures g[i] != ' ' {
      assert g[i] == s[i] && Text.IsDigit(s[i]);
    }
    LastSpaceAt(g, a);
    var t := g[a + 1..];
    forall j | 0 <= j < |t| ensures Text.IsDigit(t[j]) {
      assert t[j] == s[a + 1 + j];
    }
  }

  /** Length of the run of digits starting at `i`: how far the greedy `\d+` first reaches. */
  function DigitRun(s: string, i: nat): (d: nat)
    requires i <= |s|
    ensures i + d <= |s|
    ensures forall j :: i <= j < i + d ==> Text.IsDigit(s[j])
    ensures i + d == |s| || !Text.IsDigit(s[i + d])
    decreases |s| - i
  {
    if i < |s| && Text.IsDigit(s[i]) then 1 + DigitRun(s, i + 1) else 0
  }

  /**
   * The rest of the bracket after group 3 ends at `s0`: `(?:, )?(.+? \d+)?`
   * up to the end, trying ", " present then absent and, for each, group 4
   * present then absent. Returns group 4 on success.
   */
  function InnerSuffix(s: string, s0: nat): (r: Option<Option<string>>)
    requires s0 <= |s|
    ensures r.Some? && r.value.Some? ==> CountGroup(r.value.value)
  {
    if Text.OccursAt(s, s0, ", ") && CountGroup(s[s0 + 2..]) then Some(Some(s[s0 + 2..]))
    else if Text.OccursAt(s, s0, ", ") && s0 + 2 == |s| then Some(None)
    else if CountGroup(s[s0..]) then Some(Some(s[s0..]))
    else if s0 == |s| then Some(None)
    else None
  }

  /** Group 3's `\d+` starting at `a + 1`, backing off from `d` digits towards one. */
  function TryDigits(s: string, a: nat, d: nat): (r: Option<(string, Option<string>)>)
    requires 1 <= a < |s| && s[a] == ' ' && a + 1 + d <= |s|
    requires forall j :: a + 1 <= j < a + 1 + d ==> Text.IsDigit(s[j])
    ensures r.Some? ==> CountGroup(r.value.0)
    ensures r.Some? && r.value.1.Some? ==> CountGroup(r.value.1.value)
    decreases d
  {
    if d == 0 then None
    else
      match InnerSuffix(s, a + 1 + d)
      case Some(g4) =>
        CountGroupPrefix(s, a, a + 1 + d);
        Some((s[..a + 1 + d], g4))
      case None => TryDigits(s, a, d - 1)
  }

  /** Group 3's lazy `.+?` taking `a` characters, then more. */
  function InnerFrom(s: string, a: nat): (r: Option<(string, Option<string>)>)
    requires 1 <= a <= |s|
    ensures r.Some? ==> CountGroup(r.value.0)
    ensures r.Some? && r.value.1.Some? ==> CountGroup(r.value.1.value)
    decreases |s| - a
  {
    if a == |s| then None
    else
      var here := if s[a] == ' ' then TryDigits(s, a, DigitRun(s, a + 1)) else None;
      if here.Some? then here else InnerFrom(s, a + 1)
  }

  /** The bracket's contents (between " [" and the final "]"): groups 3 and 4. */
  function Inner(s: string): (r: Option<(string, Option<string>)>)
    ensures r.Some? ==> CountGroup(r.value.0)
    ensures r.Some? && r.value.1.Some? ==> CountGroup(r.value.1.value)
  {
    if |s| == 0 then None else InnerFrom(s, 1)
  }

  /**
   * The optional alternation anchored at the end, tried at index `p` of the
   * text after "## ": the bracket, then the parenthesised note, then nothing.
   */
  function TailAt(r: string, p: nat): (t: Option<Tail>)
    requires p <= |r|
    ensures p == |r| ==> t.Some?
    ensures t.Some? && p < |r| ==> r[p] == ' '
  {
    if Text.OccursAt(r, p, " [") && r[|r| - 1] == ']' && Inner(r[p + 2..|r| - 1]).Some? then
      var g := Inner(r[p + 2..|r| - 1]).value;
      Some(Track(g.0, g.1))
    else if Text.OccursAt(r, p, " (") && r[|r| - 1] == ')' && p + 2 < |r| - 1 then
      Some(Note(r[p + 2..|r| - 1]))
    else if p == |r| then Some(NoTail)
    else None
  }

  /** Group 2's lazy `.+?` over `r[s..s + m]`, then more. */
  function RemoteSearch(r: string, s: nat, m: nat): (res: Option<(string, Tail)>)
    requires 1 <= m && s + m <= |r|
    ensures res.Some?
    decreases |r| - (s + m)
  {
    match TailAt(r, s + m)
    case Some(t) => Some((r[s..s + m], t))
    case None =>
      assert s + m != |r|;
      RemoteSearch(r, s, m + 1)
  }

  /** Group 2 is a piece of the line starting at `s`, and the tail matches right after it. */
  lemma {:induction false} RemoteSearchFinds(r: string, s: nat, m: nat)
    requires 1 <= m && s + m <= |r|
    ensures s + |RemoteSearch(r, s, m).value.0| <= |r|
    ensures RemoteSearch(r, s, m).value.0 == r[s..s + |RemoteSearch(r, s, m).value.0|]
    ensures TailAt(r, s + |RemoteSearch(r, s, m).value.0|) == Some(RemoteSearch(r, s, m).value.1)
    decreases |r| - (s + m)
  {
    if TailAt(r, s + m).None? {
      RemoteSearchStep(r, s, m);
      RemoteSearchFinds(r, s, m + 1);
    }
  }

  /** Everything after group 1 ends at `n`: the optional "..." and group 2, then the tail. */
  function After(r: string, n: nat): (res: Option<(Option<string>, Tail)>)
    requires n <= |r|
  {
    var withRemote := if Text.OccursAt(r, n, "...") && n + 3 < |r| then RemoteSearch(r, n + 3, 1) else None;
    match withRemote
    case Some((g2, t)) => Some((Some(g2), t))
    case None =>
      match TailAt(r, n)
      case Some(t) => Some((None, t))
      case None => None
  }

  /** Group 1's lazy `.+?` over `r[..n]`, then more. */
  function LocalSearch(r: string, n: nat): (res: Option<HeaderMatch>)
    requires 1 <= n <= |r|
    ensures res.Some?
    ensures res.Some? ==> |res.value.local| >= n && Text.StartsWith(r, res.value.local)
    decreases |r| - n
  {
    match After(r, n)
    case Some((g2, t)) => Some(HeaderMatch(r[..n], g2, t))
    case None =>
      assert n != |r|;
      LocalSearch(r, n + 1)
  }

  /**
   * `re.match` of the header pattern against one line. It succeeds exactly
   * when the line starts with "## " and has at least one more character,
   * and group 1 is then a non-empty prefix of the rest.
   */
  function MatchHeader(line: string): (res: Option<HeaderMatch>)
    ensures res.Some? <==> Text.StartsWith(line, "## ") && |line| > 3
    ensures res.Some? ==> |res.value.local| >= 1 && Text.StartsWith(line, "## " + res.value.local)
  {
    if Text.StartsWith(line, "## ") && |line| > 3 then
      var m := LocalSearch(line[3..], 1);
      assert line == "## " + line[3..];
      assert line[..3 + |m.value.local|] == "## " + m.value.local;
      m
    else None
  }

  // ---------------------------------------------------------------------------
  // Behind / ahead counts
  // ---------------------------------------------------------------------------

  /** A count group's last field is its digit run. */
  lemma LastFieldOfCountGroup(g: string)
    requires CountGroup(g)
    ensures Text.IsDigitString(LastField(g))
  {
    LastSpaceIsLast(g);
    LastFieldAfter(g, LastSpace(g));
  }

  /** `int(group.rsplit(" ", 1)[-1])` for a group the pattern matched. */
  function CountValue(g: string): nat
    requires CountGroup(g)
  {
    LastFieldOfCountGroup(g);
    Text.DigitsValue(LastField(g))
  }

  /** One pass of the `for group in match.group(3, 4)` loop over `(behind, ahead)`. */
  function ApplyGroup(g: Option<string>, counts: (nat, nat)): (r: (nat, nat))
    requires g.Some? ==> CountGroup(g.value)
    ensures g.None? ==> r == counts
    ensures g.Some? && Text.StartsWith(g.value, "behind") ==> r == (CountValue(g.value), counts.1)
    ensures g.Some? && !Text.StartsWith(g.value, "behind") && Text.StartsWith(g.value, "ahead")
            ==> r == (counts.0, CountValue(g.value))
    ensures g.Some? && !Text.StartsWith(g.value, "behind") && !Text.StartsWith(g.value, "ahead") ==> r == counts
  {
    match g
    case None => counts
    case Some(text) =>
      if Text.StartsWith(text, "behind") then (CountValue(text), counts.1)
      else if Text.StartsWith(text, "ahead") then (counts.0, CountValue(text))
      else counts
  }

  /** The tail carries groups the count reading accepts. */
  predicate TailCounts(t: Tail) {
    t.Track? ==> CountGroup(t.first) && (t.second.Some? ==> CountGroup(t.second.value))
  }

  /** `(behind, ahead)` read from a tail: zero unless the bracket names them. */
  function Counts(t: Tail): (r: (nat, nat))
    requires TailCounts(t)
    ensures !t.Track? ==> r == (0, 0)
  {
    match t
    case Track(g3, g4) => ApplyGroup(g4, ApplyGroup(Some(g3), (0, 0)))
    case _ => (0, 0)
  }

  lemma TailAtCounts(r: string, p: nat)
    requires p <= |r| && TailAt(r, p).Some?
    ensures TailCounts(TailAt(r, p).value)
  {
  }

  lemma {:induction false} LocalSearchCounts(r: string, n: nat)
    requires 1 <= n <= |r|
    ensures TailCounts(LocalSearch(r, n).value.tail)
    decreases |r| - n
  {
    if After(r, n).Some? {
      AfterCounts(r, n);
      LocalSearchAt(r, n);
    } else {
      LocalSearchStep(r, n);
      LocalSearchCounts(r, n + 1);
    }
  }

  lemma LocalSearchAt(r: string, n: nat)
    requires 1 <= n <= |r| && After(r, n).Some?
    ensures LocalSearch(r, n).value.tail == After(r, n).value.1
  {
  }

  lemma AfterCounts(r: string, n: nat)
    requires n <= |r| && After(r, n).Some?
    ensures TailCounts(After(r, n).value.1)
  {
    if Text.OccursAt(r, n, "...") && n + 3 < |r| {
      var res := RemoteSearch(r, n + 3, 1).value;
      RemoteSearchFinds(r, n + 3, 1);
      TailAtCounts(r, n + 3 + |res.0|);
    } else {
      TailAtCounts(r, n);
    }
  }

  /** The tails `MatchHeader` builds always carry well-formed count groups. */
  lemma MatchedGroupsAreCounts(line: string)
    requires MatchHeader(line).Some?
    ensures TailCounts(MatchHeader(line).value.tail)
  {
    LocalSearchCounts(line[3..], 1);
  }

  /** `(behind, ahead)` of a header line, as the status reader computes them. */
  function HeaderCounts(line: string): (r: (nat, nat))
    requires MatchHeader(line).Some?
    ensures !MatchHeader(line).value.tail.Track? ==> r == (0, 0)
    ensures r.0 != 0 ==> var t := MatchHeader(line).value.tail;
              t.Track? && (Text.StartsWith(t.first, "behind") || (t.second.Some? && Text.StartsWith(t.second.value, "behind")))
    ensures r.1 != 0 ==> var t := MatchHeader(line).value.tail;
              t.Track? && (Text.StartsWith(t.first, "ahead") || (t.second.Some? && Text.StartsWith(t.second.value, "ahead")))
  {
    MatchedGroupsAreCounts(line);
    Counts(MatchHeader(line).value.tail)
  }

  // ---------------------------------------------------------------------------
  // The header git writes, and reading it back
  // ---------------------------------------------------------------------------

  predicate NoSpace(s: string) {
    forall i :: 0 <= i < |s| ==> s[i] != ' '
  }

  /**
   * A branch name as git's reference-name rules allow it, as far as the
   * pattern cares: non-empty, no space, no "..", and not ending in ".".
   */
  predicate RefName(s: string) {
    && |s| > 0
    && NoSpace(s)
    && (forall i :: 0 <= i < |s| - 1 ==> !(s[i] == '.' && s[i + 1] == '.'))
    && s[|s| - 1] != '.'
  }

  /** The branch state git reports: the local branch, its upstream if any, and the two distances. */
  datatype BranchState = BranchState(local: string, upstream: Option<string>, ahead: nat, behind: nat)

  predicate ValidState(b: BranchState) {
    && RefName(b.local)
    && (b.upstream.Some? ==> RefName(b.upstream.value))
    && (b.upstream.None? ==> b.ahead == 0 && b.behind == 0)
  }

  /** "ahead 3", "behind 12". */
  function Field(word: string, n: nat): string {
    word + " " + Text.NatToString(n)
  }

  /** What git writes between the brackets; empty when neither distance is positive. */
  function BracketBody(ahead: nat, behind: nat): string {
    if ahead > 0 && behind > 0 then Field("ahead", ahead) + (", " + Field("behind", behind))
    else if ahead > 0 then Field("ahead", ahead)
    else if behind > 0 then Field("behind", behind)
    else ""
  }

  /** The bracket git appends after the upstream name. */
  function TrackText(ahead: nat, behind: nat): string {
    if ahead > 0 || behind > 0 then " [" + BracketBody(ahead, behind) + "]" else ""
  }

  /** The header line git writes for a branch state. */
  function RenderHeader(b: BranchState): string {
    match b.upstream
    case Some(u) => "## " + b.local + "..." + u + TrackText(b.ahead, b.behind)
    case None => "## " + b.local
  }

  /** The tail the pattern should find after the upstream name. */
  function ExpectedTail(ahead: nat, behind: nat): Tail {
    if ahead > 0 && behind > 0 then Track(Field("ahead", ahead), Some(Field("behind", behind)))
    else if ahead > 0 then Track(Field("ahead", ahead), None)
    else if behind > 0 then Track(Field("behind", behind), None)
    else NoTail
  }

  lemma LocalSearchStep(r: string, n: nat)
    requires 1 <= n < |r| && After(r, n).None?
    ensures LocalSearch(r, n) == LocalSearch(r, n + 1)
  {
  }

  lemma RemoteSearchStep(r: string, s: nat, m: nat)
    requires 1 <= m && s + m < |r| && TailAt(r, s + m).None?
    ensures RemoteSearch(r, s, m) == RemoteSearch(r, s, m + 1)
  {
  }

  lemma {:induction false} LocalSearchSkips(r: string, n: nat, target: nat)
    requires 1 <= n <= target <= |r|
    requires forall k :: n <= k < target ==> After(r, k).None?
    ensures LocalSearch(r, n) == LocalSearch(r, target)
    decreases target - n
  {
    if n < target {
      LocalSearchStep(r, n);
      LocalSearchSkips(r, n + 1, target);
    }
  }

  lemma {:induction false} RemoteSearchSkips(r: string, s: nat, m: nat, target: nat)
    requires 1 <= m <= target && s + target <= |r|
    requires forall p :: s + m <= p < s + target ==> TailAt(r, p).None?
    ensures RemoteSearch(r, s, m) == RemoteSearch(r, s, target)
    decreases target - m
  {
    if m < target {
      RemoteSearchStep(r, s, m);
      RemoteSearchSkips(r, s, m + 1, target);
    }
  }

  lemma {:induction false} InnerSkips(s: string, a: nat, target: nat)
    requires 1 <= a <= target <= |s|
    requires forall k :: a <= k < target ==> s[k] != ' '
    ensures InnerFrom(s, a) == InnerFrom(s, target)
    decreases target - a
  {
    if a < target {
      InnerSkips(s, a + 1, target);
    }
  }

  lemma {:induction false} DigitRunIs(s: string, i: nat, n: nat)
    requires i + n <= |s|
    requires forall j :: i <= j < i + n ==> Text.IsDigit(s[j])
    requires i + n == |s| || !Text.IsDigit(s[i + n])
    ensures DigitRun(s, i) == n
    decreases n
  {
    if n > 0 {
      DigitRunIs(s, i + 1, n - 1);
    }
  }

  /** No match attempt can stop inside a name without spaces. */
  lemma TailInsideName(r: string, p: nat)
    requires p < |r| && r[p] != ' '
    ensures TailAt(r, p).None?
  {
  }

  /**
   * Group 3 found at its first chance: no space before index `a`, a space
   * at `a`, then a digit run of length `n` that the suffix reading accepts.
   */
  lemma InnerAt(s: string, a: nat, n: nat, g4: Option<string>)
    requires 1 <= a && 1 <= n && a + 1 + n <= |s|
    requires forall k :: 1 <= k < a ==> s[k] != ' '
    requires s[a] == ' '
    requires forall j :: a + 1 <= j < a + 1 + n ==> Text.IsDigit(s[j])
    requires a + 1 + n == |s| || !Text.IsDigit(s[a + 1 + n])
    requires InnerSuffix(s, a + 1 + n) == Some(g4)
    ensures Inner(s) == Some((s[..a + 1 + n], g4))
  {
    InnerSkipsToSpace(s, a);
    InnerFromRun(s, a, n, g4);
  }

  lemma InnerSkipsToSpace(s: string, a: nat)
    requires 1 <= a <= |s|
    requires forall k :: 1 <= k < a ==> s[k] != ' '
    ensures Inner(s) == InnerFrom(s, a)
  {
    InnerSkips(s, 1, a);
    InnerStartsAtOne(s);
  }

  lemma InnerFromRun(s: string, a: nat, n: nat, g4: Option<string>)
    requires 1 <= a && 1 <= n && a + 1 + n <= |s|
    requires s[a] == ' '
    requires forall j :: a + 1 <= j < a + 1 + n ==> Text.IsDigit(s[j])
    requires a + 1 + n == |s| || !Text.IsDigit(s[a + 1 + n])
    requires InnerSuffix(s, a + 1 + n) == Some(g4)
    ensures InnerFrom(s, a) == Some((s[..a + 1 + n], g4))
  {
    DigitRunIs(s, a + 1, n);
    InnerFromSpace(s, a, n, g4);
  }

  lemma InnerStartsAtOne(s: string)
    requires |s| >= 1
    ensures Inner(s) == InnerFrom(s, 1)
  {
  }

  /** At a space, group 3 takes the whole digit run when the rest of the bracket then matches. */
  lemma InnerFromSpace(s: string, a: nat, n: nat, g4: Option<string>)
    requires 1 <= a < |s| && s[a] == ' '
    requires 1 <= n && DigitRun(s, a + 1) == n
    requires InnerSuffix(s, a + 1 + n) == Some(g4)
    ensures InnerFrom(s, a) == Some((s[..a + 1 + n], g4))
  {
    TryDigitsAtRun(s, a, n, g4);
    InnerFromTries(s, a, n);
  }

  lemma TryDigitsAtRun(s: string, a: nat, n: nat, g4: Option<string>)
    requires 1 <= a < |s| && s[a] == ' '
    requires 1 <= n && DigitRun(s, a + 1) == n
    requires InnerSuffix(s, a + 1 + n) == Some(g4)
    ensures TryDigits(s, a, n) == Some((s[..a + 1 + n], g4))
  {
  }

  lemma InnerFromTries(s: string, a: nat, n: nat)
    requires 1 <= a < |s| && s[a] == ' '
    requires DigitRun(s, a + 1) == n
    requires TryDigits(s, a, n).Some?
    ensures InnerFrom(s, a) == TryDigits(s, a, n)
  {
  }

  /** Where the pieces of "w D" followed by `rest` sit. */
  lemma WordLayout(w: string, ds: string, f: string, rest: string)
    requires |w| >= 1 && NoSpace(w) && Text.IsDigitString(ds)
    requires rest == [] || !Text.IsDigit(rest[0])
    requires f == w + " " + ds
    ensures |f| == |w| + 1 + |ds|
    ensures forall k :: 1 <= k < |w| ==> (f + rest)[k] != ' '
    ensures (f + rest)[|w|] == ' '
    ensures forall j :: |w| + 1 <= j < |w| + 1 + |ds| ==> Text.IsDigit((f + rest)[j])
    ensures |f| == |f + rest| || !Text.IsDigit((f + rest)[|f|])
    ensures (f + rest)[..|f|] == f
  {
    var s := f + rest;
    assert forall k :: 0 <= k < |w| ==> s[k] == w[k];
    assert forall j :: |w| + 1 <= j < |f| ==> s[j] == ds[j - |w| - 1];
    assert |f| < |s| ==> s[|f|] == rest[0];
  }

  /** The bracket contents "w D" followed by `rest`, with a word `w` free of spaces and digits `D`. */
  lemma InnerOfWord(w: string, ds: string, f: string, rest: string, g4: Option<string>)
    requires |w| >= 1 && NoSpace(w) && Text.IsDigitString(ds)
    requires rest == [] || !Text.IsDigit(rest[0])
    requires f == w + " " + ds
    requires InnerSuffix(f + rest, |f|) == Some(g4)
    ensures Inner(f + rest) == Some((f, g4))
  {
    WordLayout(w, ds, f, rest);
    InnerAt(f + rest, |w|, |ds|, g4);
  }

  /** "w D", a word then a digit string, is a count group whose value is `D`'s. */
  lemma WordIsCountGroup(w: string, ds: string)
    requires |w| >= 1 && Text.IsDigitString(ds)
    ensures CountGroup(w + " " + ds)
    ensures CountValue(w + " " + ds) == Text.DigitsValue(ds)
  {
    var g := w + " " + ds;
    assert forall i :: |w| < i < |g| ==> g[i] == ds[i - |w| - 1];
    CountGroupPrefix(g, |w|, |g|);
    assert g[..|g|] == g;
    LastFieldAfter(g, |w|);
    assert g[|w| + 1..] == ds;
  }

  lemma FieldIsCountGroup(w: string, n: nat)
    requires |w| >= 1
    ensures CountGroup(Field(w, n))
    ensures CountValue(Field(w, n)) == n
  {
    WordIsCountGroup(w, Text.NatToString(n));
    Text.DigitsValueOfNatToString(n);
  }

  /** After group 3, ", " and a count group up to the end are group 4. */
  lemma SuffixPair(f: string, g: string)
    requires CountGroup(g)
    ensures InnerSuffix(f + (", " + g), |f|) == Some(Some(g))
  {
    var s := f + (", " + g);
    assert s[|f|..|f| + 2] == ", ";
    assert s[|f| + 2..] == g;
  }

  /** Group 3 reaching the end of the bracket leaves group 4 absent. */
  lemma SuffixAtEnd(s: string)
    ensures InnerSuffix(s, |s|) == Some(None)
  {
    assert !Text.OccursAt(s, |s|, ", ");
    assert !CountGroup(s[|s|..]);
  }

  /** Bracket contents "w1 D1, w2 D2": both groups. */
  lemma InnerPair(w1: string, d1: string, f: string, w2: string, d2: string, g: string)
    requires |w1| >= 1 && NoSpace(w1) && Text.IsDigitString(d1) && f == w1 + " " + d1
    requires |w2| >= 1 && Text.IsDigitString(d2) && g == w2 + " " + d2
    ensures Inner(f + (", " + g)) == Some((f, Some(g)))
  {
    WordIsCountGroup(w2, d2);
    SuffixPair(f, g);
    InnerOfWord(w1, d1, f, ", " + g, Some(g));
  }

  /** Bracket contents "w D" alone: group 3 only. */
  lemma InnerLone(w: string, ds: string, f: string)
    requires |w| >= 1 && NoSpace(w) && Text.IsDigitString(ds) && f == w + " " + ds
    ensures Inner(f) == Some((f, None))
  {
    assert f + "" == f;
    SuffixAtEnd(f);
    InnerOfWord(w, ds, f, "", None);
  }

  lemma NoSpaceWords()
    ensures NoSpace("ahead") && NoSpace("behind")
  {
  }

  lemma InnerBoth(ahead: nat, behind: nat)
    requires ahead > 0 && behind > 0
    ensures Inner(BracketBody(ahead, behind)) == Some((Field("ahead", ahead), Some(Field("behind", behind))))
  {
    NoSpaceWords();
    InnerPair("ahead", Text.NatToString(ahead), Field("ahead", ahead), "behind", Text.NatToString(behind), Field("behind", behind));
  }

  lemma InnerSingle(w: string, n: nat)
    requires |w| >= 1 && NoSpace(w)
    ensures Inner(Field(w, n)) == Some((Field(w, n), None))
  {
    InnerLone(w, Text.NatToString(n), Field(w, n));
  }

  lemma StartsAhead(n: nat)
    ensures Text.StartsWith(Field("ahead", n), "ahead") && !Text.StartsWith(Field("ahead", n), "behind")
  {
    assert Field("ahead", n)[..5] == "ahead";
    assert Field("ahead", n)[0] == 'a';
  }

  lemma StartsBehind(n: nat)
    ensures Text.StartsWith(Field("behind", n), "behind")
  {
    assert Field("behind", n)[..6] == "behind";
  }

  /** The "ahead N" group sets the ahead count and keeps the behind count. */
  lemma ApplyAhead(n: nat, counts: (nat, nat))
    ensures CountGroup(Field("ahead", n))
    ensures ApplyGroup(Some(Field("ahead", n)), counts) == (counts.0, n)
  {
    FieldIsCountGroup("ahead", n);
    StartsAhead(n);
  }

  /** The "behind N" group sets the behind count and keeps the ahead count. */
  lemma ApplyBehind(n: nat, counts: (nat, nat))
    ensures CountGroup(Field("behind", n))
    ensures ApplyGroup(Some(Field("behind", n)), counts) == (n, counts.1)
  {
    FieldIsCountGroup("behind", n);
    StartsBehind(n);
  }

  lemma CountsOfBoth(ahead: nat, behind: nat)
    requires ahead > 0 && behind > 0
    ensures TailCounts(ExpectedTail(ahead, behind))
    ensures Counts(ExpectedTail(ahead, behind)) == (behind, ahead)
  {
    ApplyAhead(ahead, (0, 0));
    ApplyBehind(behind, (0, ahead));
  }

  lemma CountsOfAhead(ahead: nat, behind: nat)
    requires ahead > 0 && behind == 0
    ensures TailCounts(ExpectedTail(ahead, behind))
    ensures Counts(ExpectedTail(ahead, behind)) == (behind, ahead)
  {
    ApplyAhead(ahead, (0, 0));
  }

  lemma CountsOfBehind(ahead: nat, behind: nat)
    requires ahead == 0 && behind > 0
    ensures TailCounts(ExpectedTail(ahead, behind))
    ensures Counts(ExpectedTail(ahead, behind)) == (behind, ahead)
  {
    ApplyBehind(behind, (0, 0));
  }

  lemma CountsOfNone(ahead: nat, behind: nat)
    requires ahead == 0 && behind == 0
    ensures TailCounts(ExpectedTail(ahead, behind))
    ensures Counts(ExpectedTail(ahead, behind)) == (behind, ahead)
  {
  }

  /** The distances git writes read back as `(behind, ahead)`. */
  lemma ExpectedTailCounts(ahead: nat, behind: nat)
    ensures TailCounts(ExpectedTail(ahead, behind))
    ensures Counts(ExpectedTail(ahead, behind)) == (behind, ahead)
  {
    if ahead > 0 && behind > 0 {
      CountsOfBoth(ahead, behind);
    } else if ahead > 0 {
      CountsOfAhead(ahead, behind);
    } else if behind > 0 {
      CountsOfBehind(ahead, behind);
    } else {
      CountsOfNone(ahead, behind);
    }
  }

  /** A bracket whose contents `Inner` reads as groups `g` is the tail the pattern takes. */
  lemma TailOfBracket(r: string, p: nat, body: string, g: (string, Option<string>))
    requires p <= |r| && r[p..] == " [" + body + "]"
    requires Inner(body) == Some(g)
    ensures TailAt(r, p) == Some(Track(g.0, g.1))
  {
    assert r[p..p + 2] == " [";
    assert r[|r| - 1] == ']';
    assert r[p + 2..|r| - 1] == body;
  }

  /** The groups `Inner` finds in the bracket git writes. */
  lemma InnerOfBody(ahead: nat, behind: nat)
    requires ahead > 0 || behind > 0
    ensures ExpectedTail(ahead, behind).Track?
    ensures Inner(BracketBody(ahead, behind))
            == Some((ExpectedTail(ahead, behind).first, ExpectedTail(ahead, behind).second))
  {
    NoSpaceWords();
    if ahead > 0 && behind > 0 {
      InnerBoth(ahead, behind);
    } else if ahead > 0 {
      InnerSingle("ahead", ahead);
    } else {
      InnerSingle("behind", behind);
    }
  }

  /** The pattern's tail reads git's bracket as the expected groups. */
  lemma TailOfTrack(r: string, p: nat, ahead: nat, behind: nat)
    requires p <= |r| && r[p..] == TrackText(ahead, behind)
    ensures TailAt(r, p) == Some(ExpectedTail(ahead, behind))
  {
    if ahead > 0 || behind > 0 {
      var e := ExpectedTail(ahead, behind);
      InnerOfBody(ahead, behind);
      TailOfBracket(r, p, BracketBody(ahead, behind), (e.first, e.second));
    }
  }

  lemma NoEllipsisInName(r: string, l: string, k: nat)
    requires RefName(l) && |l| <= |r| && r[..|l|] == l && k < |l|
    ensures !Text.OccursAt(r, k, "...")
  {
    if k + 1 < |l| {
      assert r[k] == l[k] && r[k + 1] == l[k + 1];
    } else {
      assert r[k] == l[k];
    }
  }

  /** Group 1 stops at the end of a git branch name, whatever follows it. */
  lemma LocalNameFirst(r: string, l: string)
    requires RefName(l) && |l| <= |r| && r[..|l|] == l
    ensures LocalSearch(r, 1) == LocalSearch(r, |l|)
  {
    forall k | 1 <= k < |l| ensures After(r, k).None? {
      assert r[k] == l[k];
      TailInsideName(r, k);
      NoEllipsisInName(r, l, k);
    }
    LocalSearchSkips(r, 1, |l|);
  }

  /** Group 2 stops at the end of an upstream name without spaces, whatever follows it. */
  lemma RemoteNameFirst(r: string, s: nat, u: string, t: Tail)
    requires |u| >= 1 && NoSpace(u) && s + |u| <= |r| && r[s..s + |u|] == u
    requires TailAt(r, s + |u|) == Some(t)
    ensures RemoteSearch(r, s, 1) == Some((u, t))
  {
    forall p | s + 1 <= p < s + |u| ensures TailAt(r, p).None? {
      assert r[p] == u[p - s];
      TailInsideName(r, p);
    }
    RemoteSearchSkips(r, s, 1, |u|);
  }

  lemma AfterWithRemote(r: string, n: nat, g2: string, t: Tail)
    requires n + 3 < |r| && Text.OccursAt(r, n, "...")
    requires RemoteSearch(r, n + 3, 1) == Some((g2, t))
    ensures After(r, n) == Some((Some(g2), t))
  {
  }

  /** After "...", group 2 is an upstream name without spaces when the tail matches right after it. */
  lemma UpstreamThenTail(l: string, u: string, t: string, tail: Tail)
    requires NoSpace(u) && |u| >= 1
    requires TailAt(l + "..." + u + t, |l + "..." + u|) == Some(tail)
    ensures After(l + "..." + u + t, |l|) == Some((Some(u), tail))
  {
    var r := l + "..." + u + t;
    var s := |l| + 3;
    assert |l + "..." + u| == s + |u|;
    assert r[|l|..|l| + 3] == "...";
    assert r[s..s + |u|] == u;
    RemoteNameFirst(r, s, u, tail);
    AfterWithRemote(r, |l|, u, tail);
  }

  /** Git's bracket after any text reads as the expected tail. */
  lemma TrackAfter(pre: string, ahead: nat, behind: nat)
    ensures TailAt(pre + TrackText(ahead, behind), |pre|) == Some(ExpectedTail(ahead, behind))
  {
    var r := pre + TrackText(ahead, behind);
    assert r[|pre|..] == TrackText(ahead, behind);
    TailOfTrack(r, |pre|, ahead, behind);
  }

  /** After "...", group 2 is the upstream name and the tail is git's bracket. */
  lemma UpstreamPart(l: string, u: string, ahead: nat, behind: nat)
    requires RefName(u) && |l| >= 1
    ensures After(l + "..." + u + TrackText(ahead, behind), |l|) == Some((Some(u), ExpectedTail(ahead, behind)))
  {
    TrackAfter(l + "..." + u, ahead, behind);
    UpstreamThenTail(l, u, TrackText(ahead, behind), ExpectedTail(ahead, behind));
  }

  /** The whole line: group 1 found at the end of the local name, then the rest as `After` reads it. */
  lemma LineParts(line: string, l: string, a: (Option<string>, Tail))
    requires RefName(l) && 3 + |l| <= |line|
    requires line[..3] == "## " && line[3..3 + |l|] == l
    requires After(line[3..], |l|) == Some(a)
    ensures MatchHeader(line) == Some(HeaderMatch(l, a.0, a.1))
  {
    var r := line[3..];
    assert r[..|l|] == l;
    LocalNameFirst(r, l);
  }

  lemma LineWithUpstream(l: string, u: string, t: string, a: (Option<string>, Tail))
    requires RefName(l)
    requires After(l + "..." + u + t, |l|) == Some(a)
    ensures MatchHeader("## " + l + "..." + u + t) == Some(HeaderMatch(l, a.0, a.1))
  {
    var r := l + "..." + u + t;
    assert r[..|l|] == l;
    assert "## " + l + "..." + u + t == "## " + r;
    LineOfRest(l, r, a);
  }

  /** A line "## " followed by text that starts with a branch name, after which `After` matches. */
  lemma LineOfRest(l: string, r: string, a: (Option<string>, Tail))
    requires RefName(l) && |l| <= |r| && r[..|l|] == l
    requires After(r, |l|) == Some(a)
    ensures MatchHeader("## " + r) == Some(HeaderMatch(l, a.0, a.1))
  {
    var line := "## " + r;
    assert line[3..] == r;
    LocalNameFirst(r, l);
  }

  lemma HeaderWithUpstream(b: BranchState)
    requires ValidState(b) && b.upstream.Some?
    ensures MatchHeader(RenderHeader(b)) == Some(HeaderMatch(b.local, b.upstream, ExpectedTail(b.ahead, b.behind)))
  {
    UpstreamPart(b.local, b.upstream.value, b.ahead, b.behind);
    LineWithUpstream(b.local, b.upstream.value, TrackText(b.ahead, b.behind), (b.upstream, ExpectedTail(b.ahead, b.behind)));
  }

  lemma HeaderWithoutUpstream(b: BranchState)
    requires ValidState(b) && b.upstream.None?
    ensures MatchHeader(RenderHeader(b)) == Some(HeaderMatch(b.local, None, NoTail))
  {
    var l := b.local;
    var line := RenderHeader(b);
    assert line[3..] == l;
    assert line[..3] == "## " && line[3..3 + |l|] == l;
    assert TailAt(l, |l|) == Some(NoTail);
    LineParts(line, l, (None, NoTail));
  }

  /**
   * Reading back the header git writes: for branch names git accepts, the
   * pattern gives back the local branch, the upstream, and the behind and
   * ahead distances.
   */
  lemma HeaderRoundTrip(b: BranchState)
    requires ValidState(b)
    ensures MatchHeader(RenderHeader(b)).Some?
    ensures MatchHeader(RenderHeader(b)).value.local == b.local
    ensures MatchHeader(RenderHeader(b)).value.remote == b.upstream
    ensures HeaderCounts(RenderHeader(b)) == (b.behind, b.ahead)
  {
    ExpectedTailCounts(b.ahead, b.behind);
    if b.upstream.Some? {
      HeaderWithUpstream(b);
    } else {
      HeaderWithoutUpstream(b);
    }
  }

  /**
   * A header without an upstream but with a parenthesised note, as git
   * writes "## HEAD (no branch)": group 1 is the name, group 5 the note,
   * and there is no remote.
   */
  lemma NoteAfterName(l: string, note: string)
    requires RefName(l) && |note| >= 1
    ensures MatchHeader("## " + l + " (" + note + ")") == Some(HeaderMatch(l, None, Note(note)))
  {
    var line := "## " + l + " (" + note + ")";
    var r := line[3..];
    assert r[|l|..] == " (" + note + ")";
    AfterNote(r, |l|, note);
    assert line[..3] == "## " && line[3..3 + |l|] == l;
    LineParts(line, l, (None, Note(note)));
  }

  /** A parenthesised note at `p`, up to the end, is the tail the pattern takes. */
  lemma NoteTail(r: string, p: nat, note: string)
    requires |note| >= 1 && p <= |r| && r[p..] == " (" + note + ")"
    ensures TailAt(r, p) == Some(Note(note))
  {
    assert r[p + 1] == '(';
    assert r[p..p + 2] == " (";
    assert r[|r| - 1] == ')';
    assert r[p + 2..|r| - 1] == note;
  }

  lemma AfterNote(r: string, n: nat, note: string)
    requires |note| >= 1 && n <= |r| && r[n..] == " (" + note + ")"
    ensures After(r, n) == Some((None, Note(note)))
  {
    NoteTail(r, n, note);
    assert r[n] == ' ';
  }

  lemma InnerGone()
    ensures Inner("gone").None?
  {
    InnerSkips("gone", 1, 4);
  }

  lemma GoneTail(r: string, p: nat)
    requires p + 7 == |r| && r[p..] == " [gone]"
    ensures forall q :: p <= q < |r| ==> TailAt(r, q).None?
  {
    assert r[p + 2..|r| - 1] == "gone";
    InnerGone();
    forall q | p <= q < |r| ensures TailAt(r, q).None? {
      assert r[q] == " [gone]"[q - p];
      if q > p {
        TailInsideName(r, q);
      }
    }
  }

  /** Group 2 runs on to the end of the line when no tail matches inside it. */
  lemma GoneRemoteSearch(r: string, s: nat, u: string)
    requires |u| >= 1 && NoSpace(u) && s + |u| + 7 == |r|
    requires r[s..s + |u|] == u && r[s + |u|..] == " [gone]"
    ensures RemoteSearch(r, s, 1) == Some((r[s..], NoTail))
  {
    GoneTail(r, s + |u|);
    forall p | s + 1 <= p < s + |u| ensures TailAt(r, p).None? {
      assert r[p] == u[p - s];
      TailInsideName(r, p);
    }
    RemoteSearchSkips(r, s, 1, |r| - s);
    RemoteSearchAtEnd(r, s);
  }

  lemma RemoteSearchAtEnd(r: string, s: nat)
    requires s < |r|
    ensures RemoteSearch(r, s, |r| - s) == Some((r[s..], NoTail))
  {
    assert TailAt(r, |r|) == Some(NoTail);
    assert r[s..s + (|r| - s)] == r[s..];
  }

  /**
   * When the upstream branch is gone, git writes " [gone]" after its name.
   * The bracket holds no count, so the lazy group 2 runs on to the end of
   * the line: the remote read back is the upstream name followed by " [gone]".
   */
  lemma GoneUpstreamKeptInRemote(l: string, u: string)
    requires RefName(l) && RefName(u)
    ensures MatchHeader("## " + l + "..." + u + " [gone]") == Some(HeaderMatch(l, Some(u + " [gone]"), NoTail))
  {
    GoneAfter(l, u, " [gone]");
    LineWithUpstream(l, u, " [gone]", (Some(u + " [gone]"), NoTail));
  }

  lemma GoneAfter(l: string, u: string, t: string)
    requires |l| >= 1 && RefName(u) && t == " [gone]"
    ensures After(l + "..." + u + t, |l|) == Some((Some(u + t), NoTail))
  {
    var r := l + "..." + u + t;
    var s := |l| + 3;
    assert r[s..s + |u|] == u;
    assert r[s + |u|..] == t;
    GoneRemoteSearch(r, s, u);
    assert r[s..] == u + t;
    assert r[|l|..|l| + 3] == "...";
    AfterWithRemote(r, |l|, u + t, NoTail);
  }
}

=== FILE: text.dfy ===
/**
 * The few Python string and bytes operations the parsers rely on, written as
 * total functions over `string`: digit tests and `int()`, ASCII case mapping,
 * `startswith`, `find`, `split`, `join`, `strip`/`lstrip` and `splitlines`.
 */
module Text {
  import opened Wrappers

  // ---------------------------------------------------------------------------
  // Sequences
  // ---------------------------------------------------------------------------

  /** A non-empty sequence is its head followed by its tail. */
  lemma ConsOfTail<T>(s: seq<T>)
    requires |s| > 0
    ensures [s[0]] + s[1..] == s
  {
  }

  lemma EmptyPrefix<T>(s: seq<T>)
    ensures [] + s == s
  {
  }

  // ---------------------------------------------------------------------------
  // Digits
  // ---------------------------------------------------------------------------

  predicate IsDigit(c: char) { '0' <= c <= '9' }

  predicate AllDigits(s: string) {
    forall i :: 0 <= i < |s| ==> IsDigit(s[i])
  }

  /** Python's `str.isdigit()` over ASCII: non-empty and made of digits only. */
  predicate IsDigitString(s: string) {
    |s| > 0 && AllDigits(s)
  }

  /** Python's `int()` applied to a string of decimal digits. */
  function DigitsValue(s: string): nat
    requires AllDigits(s)
  {
    if s == [] then 0
    else 10 * DigitsValue(s[..|s| - 1]) + (s[|s| - 1] as int - '0' as int)
  }

  function DigitChar(d: nat): (c: char)
    requires d < 10
    ensures IsDigit(c)
  {
    ('0' as int + d) as char
  }

  /** Decimal rendering of a natural number, as `str(n)` prints it. */
  function NatToString(n: nat): (r: string)
    ensures |r| >= 1 && AllDigits(r)
  {
    if n < 10 then [DigitChar(n)] else NatToString(n / 10) + [DigitChar(n % 10)]
  }

  /** `str(n)` for any integer, with a leading minus sign for negatives. */
  function IntToString(n: int): string {
    if n < 0 then "-" + NatToString(-n) else NatToString(n)
  }

  /** Reading back the decimal rendering of `n` gives `n`. */
  lemma {:induction false} DigitsValueOfNatToString(n: nat)
    ensures DigitsValue(NatToString(n)) == n
  {
    if n >= 10 {
      var r := NatToString(n);
      assert r[..|r| - 1] == NatToString(n / 10);
      DigitsValueOfNatToString(n / 10);
    }
  }

  // ---------------------------------------------------------------------------
  // ASCII case mapping
  // ---------------------------------------------------------------------------

  function UpperChar(c: char): char {
    if 'a' <= c <= 'z' then (c as int - 32) as char else c
  }

  function LowerChar(c: char): char {
    if 'A' <= c <= 'Z' then (c as int + 32) as char else c
  }

  function Upper(s: string): (r: string)
    ensures |r| == |s|
    ensures forall i :: 0 <= i < |s| ==> r[i] == UpperChar(s[i])
  {
    if s == [] then [] else [UpperChar(s[0])] + Upper(s[1..])
  }

  function Lower(s: string): (r: string)
    ensures |r| == |s|
    ensures forall i :: 0 <= i < |s| ==> r[i] == LowerChar(s[i])
  {
    if s == [] then [] else [LowerChar(s[0])] + Lower(s[1..])
  }

  lemma LowerConcat(a: string, b: string)
    ensures Lower(a + b) == Lower(a) + Lower(b)
  {
    var l := Lower(a + b);
    assert |l| == |Lower(a) + Lower(b)|;
    forall i | 0 <= i < |l| ensures l[i] == (Lower(a) + Lower(b))[i] {
      if i < |a| {
        assert (a + b)[i] == a[i];
      } else {
        assert (a + b)[i] == b[i - |a|];
      }
    }
  }

  /** Lower-casing forgets any prior upper-casing. */
  lemma LowerOfUpper(s: string)
    ensures Lower(Upper(s)) == Lower(s)
  {
    var a := Lower(Upper(s));
    var b := Lower(s);
    assert |a| == |b|;
    forall i | 0 <= i < |s| ensures a[i] == b[i] {
    }
  }

  // ---------------------------------------------------------------------------
  // Prefixes and searching
  // ---------------------------------------------------------------------------

  predicate StartsWith(s: string, p: string) {
    |p| <= |s| && s[..|p|] == p
  }

  /** `p` occurs in `s` starting at index `i`. */
  predicate OccursAt(s: string, i: nat, p: string) {
    i + |p| <= |s| && s[i..i + |p|] == p
  }

  function FindFrom(s: string, p: string, i: nat): (r: Option<nat>)
    requires i <= |s|
    ensures r.Some? ==> i <= r.value <= |s| && OccursAt(s, r.value, p)
    ensures r.Some? ==> forall j :: i <= j < r.value ==> !OccursAt(s, j, p)
    ensures r.None? ==> forall j :: i <= j <= |s| ==> !OccursAt(s, j, p)
    decreases |s| - i
  {
    if OccursAt(s, i, p) then Some(i)
    else if i == |s| then None
    else FindFrom(s, p, i + 1)
  }

  /** Python's `s.find(p)`: the first index where `p` occurs, `None` for -1. */
  function Find(s: string, p: string): (r: Option<nat>)
    ensures r.Some? ==> OccursAt(s, r.value, p) && forall j :: 0 <= j < r.value ==> !OccursAt(s, j, p)
    ensures r.None? ==> forall j :: 0 <= j <= |s| ==> !OccursAt(s, j, p)
  {
    FindFrom(s, p, 0)
  }

  /** A part of a concatenation occurs where the text before it ends. */
  lemma OccursInMiddle(a: string, p: string, b: string)
    ensures OccursAt(a + p + b, |a|, p)
  {
    assert (a + p + b)[|a|..|a| + |p|] == p;
  }

  /** A piece whose lower-case form is `p` is found by `find` in the lower-cased text around it. */
  lemma LowerFinds(pre: string, m: string, post: string, p: string)
    requires Lower(m) == p
    ensures Find(Lower(pre + m + post), p).Some?
  {
    LowerConcat(pre + m, post);
    LowerConcat(pre, m);
    OccursInMiddle(Lower(pre), p, Lower(post));
  }

  /** An occurrence with nothing before it is what `Find` returns. */
  lemma FindIsFirst(s: string, p: string, k: nat)
    requires OccursAt(s, k, p)
    requires forall j :: 0 <= j < k ==> !OccursAt(s, j, p)
    ensures Find(s, p) == Some(k)
  {
  }

  lemma OccursAtAppend(a: string, b: string, j: nat, p: string)
    requires |a| <= j
    ensures OccursAt(a + b, j, p) <==> OccursAt(b, j - |a|, p)
  {
    if j + |p| <= |a + b| {
      assert (a + b)[j..j + |p|] == b[j - |a|..j - |a| + |p|];
    }
  }

  lemma OccursAtPrefix(s: string, i: nat, j: nat, p: string)
    requires i <= |s|
    requires OccursAt(s[..i], j, p)
    ensures OccursAt(s, j, p)
  {
    assert s[..i][j..j + |p|] == s[j..j + |p|];
  }

  // ---------------------------------------------------------------------------
  // split / join
  // ---------------------------------------------------------------------------

  function Join(parts: seq<string>, sep: string): string {
    if |parts| == 0 then ""
    else if |parts| == 1 then parts[0]
    else parts[0] + sep + Join(parts[1..], sep)
  }

  /**
   * Python's `s.split(sep)` for a non-empty separator: cut at each leftmost,
   * non-overlapping occurrence. No part contains the separator, and joining
   * the parts back with it gives `s`.
   */
  function Split(s: string, sep: string): (parts: seq<string>)
    requires |sep| > 0
    ensures |parts| >= 1
    ensures forall k :: 0 <= k < |parts| ==> Find(parts[k], sep).None?
    ensures Join(parts, sep) == s
    decreases |s|
  {
    match Find(s, sep)
    case None => [s]
    case Some(i) =>
      var head := s[..i];
      var rest := Split(s[i + |sep|..], sep);
      assert Find(head, sep).None? by {
        forall j | 0 <= j <= |head| ensures !OccursAt(head, j, sep) {
          if OccursAt(head, j, sep) {
            OccursAtPrefix(s, i, j, sep);
          }
        }
      }
      assert s == head + sep + s[i + |sep|..];
      assert ([head] + rest)[1..] == rest;
      [head] + rest
  }

  // ---------------------------------------------------------------------------
  // Whitespace stripping
  // ---------------------------------------------------------------------------

  /** Python's `str.isspace()` for one character. */
  predicate IsSpace(c: char) {
    || c == ' '
    || '\t' <= c <= '\r'
    || '\U{1C}' <= c <= '\U{1F}'
    || c == '\U{85}' || c == '\U{A0}' || c == '\U{1680}'
    || '\U{2000}' <= c <= '\U{200A}'
    || c == '\U{2028}' || c == '\U{2029}' || c == '\U{202F}'
    || c == '\U{205F}' || c == '\U{3000}'
  }

  /** The whitespace `bytes.strip()` removes: space, \t, \n, \r, \v and \f. */
  predicate IsByteSpace(c: char) {
    c == ' ' || '\t' <= c <= '\r'
  }

  function LStripBy(s: string, drop: char -> bool): (r: string)
    ensures |r| <= |s| && r == s[|s| - |r|..]
    ensures r == [] || !drop(r[0])
    ensures forall i :: 0 <= i < |s| - |r| ==> drop(s[i])
  {
    if s != [] && drop(s[0]) then
      var r := LStripBy(s[1..], drop);
      assert forall i :: 1 <= i < |s| - |r| ==> s[i] == s[1..][i - 1];
      r
    else s
  }

  /** A string that does not start with a dropped character is left as it is. */
  lemma LStripKeeps(s: string, drop: char -> bool)
    requires s == [] || !drop(s[0])
    ensures LStripBy(s, drop) == s
  {
  }

  /** A leading dropped character goes, and stripping carries on after it. */
  lemma LStripDropsFirst(c: char, s: string, drop: char -> bool)
    requires drop(c)
    ensures LStripBy([c] + s, drop) == LStripBy(s, drop)
  {
    assert ([c] + s)[1..] == s;
  }

  function RStripBy(s: string, drop: char -> bool): (r: string)
    ensures |r| <= |s| && r == s[..|r|]
    ensures r == [] || !drop(r[|r| - 1])
    ensures forall i :: |r| <= i < |s| ==> drop(s[i])
  {
    if s != [] && drop(s[|s| - 1]) then RStripBy(s[..|s| - 1], drop) else s
  }

  /** A string that does not end with a dropped character is left as it is. */
  lemma RStripKeeps(s: string, drop: char -> bool)
    requires s == [] || !drop(s[|s| - 1])
    ensures RStripBy(s, drop) == s
  {
  }

  /** A trailing dropped character goes, and stripping carries on before it. */
  lemma RStripDropsLast(s: string, c: char, drop: char -> bool)
    requires drop(c)
    ensures RStripBy(s + [c], drop) == RStripBy(s, drop)
  {
    assert (s + [c])[..|s|] == s;
  }

  /** Python's `str.strip()`. */
  function Strip(s: string): string {
    RStripBy(LStripBy(s, IsSpace), IsSpace)
  }

  /** `s.strip()` removes just the final newline when `s` neither starts nor ends with whitespace. */
  lemma StripFinalNewline(s: string)
    requires |s| > 0 && !IsSpace(s[0]) && !IsSpace(s[|s| - 1])
    ensures Strip(s + "\n") == s
  {
    var t := s + "\n";
    assert t[0] == s[0];
    assert LStripBy(t, IsSpace) == t;
    assert t[..|t| - 1] == s;
    assert RStripBy(t, IsSpace) == RStripBy(s, IsSpace);
  }

  /** Python's `bytes.lstrip()`. */
  function LStripBytes(s: string): string {
    LStripBy(s, IsByteSpace)
  }

  /** Nothing is left of a string of byte whitespace. */
  lemma BlankStrips(s: string)
    requires forall i :: 0 <= i < |s| ==> IsByteSpace(s[i])
    ensures LStripBytes(s) == []
  {
  }

  // ---------------------------------------------------------------------------
  // splitlines
  // ---------------------------------------------------------------------------

  /** The line boundaries of Python's `str.splitlines()`. */
  predicate IsLineBreak(c: char) {
    || c == '\n' || c == '\r' || c == '\U{0B}' || c == '\U{0C}'
    || c == '\U{1C}' || c == '\U{1D}' || c == '\U{1E}'
    || c == '\U{85}' || c == '\U{2028}' || c == '\U{2029}'
  }

  /** The line boundaries of Python's `bytes.splitlines()`. */
  predicate IsByteLineBreak(c: char) {
    c == '\n' || c == '\r'
  }

  function FirstIndexFrom(s: string, brk: char -> bool, i: nat): (r: nat)
    requires i <= |s|
    ensures i <= r <= |s|
    ensures r < |s| ==> brk(s[r])
    ensures forall j :: i <= j < r ==> !brk(s[j])
    decreases |s| - i
  {
    if i == |s| || brk(s[i]) then i else FirstIndexFrom(s, brk, i + 1)
  }

  /**
   * `splitlines()` with the boundary set `brk`: "\r\n" counts as one boundary,
   * and a boundary at the very end does not open an empty last line.
   */
  function SplitLinesBy(s: string, brk: char -> bool): (lines: seq<string>)
    requires brk('\r')
    ensures forall k, j :: 0 <= k < |lines| && 0 <= j < |lines[k]| ==> !brk(lines[k][j])
    decreases |s|
  {
    if s == [] then []
    else
      var i := FirstIndexFrom(s, brk, 0);
      if i == |s| then [s]
      else
        var w := if s[i] == '\r' && i + 1 < |s| && s[i + 1] == '\n' then 2 else 1;
        [s[..i]] + SplitLinesBy(s[i + w..], brk)
  }

  function SplitLines(s: string): (lines: seq<string>)
    ensures forall k, j :: 0 <= k < |lines| && 0 <= j < |lines[k]| ==> !IsLineBreak(lines[k][j])
  {
    SplitLinesBy(s, IsLineBreak)
  }

  function SplitByteLines(s: string): (lines: seq<string>)
    ensures forall k, j :: 0 <= k < |lines| && 0 <= j < |lines[k]| ==> !IsByteLineBreak(lines[k][j])
  {
    SplitLinesBy(s, IsByteLineBreak)
  }

  /** Joining keeps the first character of the first part and the last character of the last. */
  lemma {:induction false} JoinEnds(parts: seq<string>, sep: string)
    requires |parts| > 0 && parts[|parts| - 1] != []
    ensures |Join(parts, sep)| > 0
    ensures parts[0] != [] ==> Join(parts, sep)[0] == parts[0][0]
    ensures Join(parts, sep)[|Join(parts, sep)| - 1] == parts[|parts| - 1][|parts[|parts| - 1]| - 1]
    decreases |parts|
  {
    if |parts| > 1 {
      JoinEnds(parts[1..], sep);
    }
  }

  /** Lines joined with "\n" split back into the same lines. */
  lemma {:induction false} SplitLinesOfJoin(lines: seq<string>, brk: char -> bool)
    requires brk('\r') && brk('\n')
    requires forall k, j :: 0 <= k < |lines| && 0 <= j < |lines[k]| ==> !brk(lines[k][j])
    requires |lines| > 0 ==> lines[|lines| - 1] != ""
    ensures SplitLinesBy(Join(lines, "\n"), brk) == lines
    decreases |lines|
  {
    if |lines| == 1 {
      var s := lines[0];
      assert FirstIndexFrom(s, brk, 0) == |s|;
    } else if |lines| > 1 {
      var s := Join(lines, "\n");
      var l := lines[0];
      var rest := Join(lines[1..], "\n");
      assert s == l + "\n" + rest;
      assert forall j :: 0 <= j < |l| ==> !brk(s[j]);
      assert s[|l|] == '\n';
      assert FirstIndexFrom(s, brk, 0) == |l|;
      assert s[..|l|] == l;
      assert s[|l| + 1..] == rest;
      SplitLinesOfJoin(lines[1..], brk);
      assert [l] + lines[1..] == lines;
    }
  }

  /** Splitting on a one-character separator undoes joining with it, when no part holds that character. */
  lemma {:induction false} SplitOfJoin(parts: seq<string>, c: char)
    requires |parts| > 0
    requires forall k, j :: 0 <= k < |parts| && 0 <= j < |parts[k]| ==> parts[k][j] != c
    ensures Split(Join(parts, [c]), [c]) == parts
    decreases |parts|
  {
    var s := Join(parts, [c]);
    var l := parts[0];
    if |parts| == 1 {
      forall j | 0 <= j <= |s| ensures !OccursAt(s, j, [c]) {
        if j < |s| {
          assert s[j..j + 1][0] == s[j];
        }
      }
    } else {
      var rest := Join(parts[1..], [c]);
      assert s == l + [c] + rest;
      forall j | 0 <= j < |l| ensures !OccursAt(s, j, [c]) {
        assert s[j..j + 1][0] == s[j] == l[j];
      }
      assert OccursAt(s, |l|, [c]);
      FindIsFirst(s, [c], |l|);
      assert s[..|l|] == l;
      assert s[|l| + 1..] == rest;
      SplitOfJoin(parts[1..], c);
      assert [l] + parts[1..] == parts;
    }
  }

  /**
   * The first occurrence of a marker that starts with a line break and
   * whose second character starts none of the lines before it is the one
   * right after those lines.
   */
  lemma {:induction false} MarkerAfterLines(lines: seq<string>, marker: string, rest: string)
    requires |lines| > 0 && |marker| >= 2 && marker[0] == '\n'
    requires forall k, j :: 0 <= k < |lines| && 0 <= j < |lines[k]| ==> lines[k][j] != '\n'
    requires forall k :: 1 <= k < |lines| ==> lines[k] != [] && lines[k][0] != marker[1]
    ensures Find(Join(lines, "\n") + marker + rest, marker) == Some(|Join(lines, "\n")|)
    decreases |lines|
  {
    var h := Join(lines, "\n");
    var s := h + marker + rest;
    var l := lines[0];
    if |lines| == 1 {
      forall j | 0 <= j < |h| ensures !OccursAt(s, j, marker) {
        assert s[j] == l[j];
      }
      assert s[|h|..|h| + |marker|] == marker;
      FindIsFirst(s, marker, |h|);
    } else {
      var t := Join(lines[1..], "\n");
      var tail := t + marker + rest;
      assert h == l + "\n" + t;
      assert s == (l + "\n") + tail;
      MarkerAfterLines(lines[1..], marker, rest);
      forall j | 0 <= j < |h| ensures !OccursAt(s, j, marker) {
        if j < |l| {
          assert s[j] == l[j];
        } else if j == |l| {
          assert s[j + 1] == lines[1][0];
        } else {
          OccursAtAppend(l + "\n", tail, j, marker);
          assert !OccursAt(tail, j - |l| - 1, marker);
        }
      }
      OccursAtAppend(l + "\n", tail, |h|, marker);
      FindIsFirst(s, marker, |h|);
    }
  }
}

=== FILE: wrappers.dfy ===
/** Option and Result types shared by every module of the model. */
module Wrappers {

  /** Python's `None` versus a present value. */
  datatype Option<+T> = None | Some(value: T) {

    /** The value, or `default` when absent (Python's `x or default` on optional values). */
    function GetOr(default: T): T {
      match this
      case Some(v) => v
      case None => default
    }
  }

  /** A value, or the exception the source raises instead of returning one. */
  datatype Result<+T, +E> = Ok(value: T) | Err(error: E)
}
